=== FILE: README.md ===
# Pet-shop dashboard: a Dafny model of its decision logic

The pet-shop dashboard is a Next.js front end for a sales-forecasting and
inventory backend. This project models the parts of it that decide
something, as pure Dafny functions, and proves what they promise:

- the typed API client: one URL template per call, with the entity name
  percent-encoded, and one fetch-and-validate step with its rule for the
  message of a failed request;
- the data-access hooks: the query-cache keys, the critical-alerts filter,
  the client-side stock summary, the prediction dispatch, and the Excel
  upload's query string and error rule;
- the chat assistant's ten tools: input defaults and rejections, the client
  call each makes, and the tag of its result;
- the renderer that turns a tagged tool result into a view;
- the chat screen: when a message or a suggestion is sent, how an uploaded
  file is classified and routed, the message that reports the upload, and
  the typing indicator;
- the upload endpoint: file check, backend route choice, relaying the
  backend's answer;
- the stock alerts table, the stock page (purchase-order CSV export, summary
  cards, coverage badge) and the predictions page's CSV export;
- the classification helpers of `src/lib/utils.ts`.

The JavaScript built-ins that this logic rests on are modelled rather than
assumed; each is exact except where "## Left out" says otherwise:

- `trim`, `toLowerCase`, `toUpperCase` and `includes` (module `Text`);
- the decimal rendering of integers in template literals (`NumberText`);
- `Array.join` and `String.split` (`Delimited`);
- `encodeURIComponent`, with a reference decoder (`Uri`);
- the unquoted CSV layout both export buttons build (`Csv`).

Each operation has a partner it is proved against:

- a parser for every name table;
- a decoder for every encoder;
- a reading-back function for the renderer and the cache keys;
- the sibling component whose thresholds it must agree with.

Facts the proofs establish include:

- the CSV exports do not quote fields as section 2 of RFC 4180 would, so a
  comma in a product name adds a column
  (`StockPage.CommaInNameAddsColumn`);
- a negative `maxRows` on the alerts table drops rows from the end instead
  of capping (`StockAlertsTable.NegativeLimitDropsFromEnd`);
- the stock page's first card adds an `agotados` count that the summary hook
  never produces, so the card shows the critical count alone. That count
  already includes the exhausted products (`StockPage.CardsCountAlerts`).

Modules:

| file | module | models |
|---|---|---|
| wrappers.dfy | Wrappers | Option and Result |
| text.dfy | Text | trim, case mapping, includes |
| number_text.dfy | NumberText | integer to decimal text and back |
| delimited.dfy | Delimited | join and split on one character |
| uri.dfy | Uri | encodeURIComponent and its inverse |
| csv.dfy | Csv | the export's CSV layout and reading it back |
| domain.dfy | Domain | the backend's records and enumerations |
| utils.dfy | Utils | src/lib/utils.ts |
| query_keys.dfy | QueryKeys | the cache keys of src/hooks/use-api.ts |
| hooks.dfy | Hooks | the rest of src/hooks/use-api.ts |
| api_client.dfy | ApiClient | src/lib/api-client.ts |
| chat_types.dfy | ChatTypes | src/types/chat.ts |
| tool_result_renderer.dfy | Renderer | src/components/chat/tool-result-renderer.tsx |
| tools.dfy | Tools | src/lib/chat/tools.ts |
| upload_route.dfy | UploadRoute | src/app/api/chat/upload/route.ts |
| chat_interface.dfy | ChatInterface | src/components/chat/chat-interface.tsx |
| stock_alerts_table.dfy | StockAlertsTable | src/components/dashboard/stock-alerts-table.tsx |
| stock_page.dfy | StockPage | src/app/stock/page.tsx |
| predictions_page.dfy | PredictionsPage | src/app/predictions/page.tsx |

## Model

| member | source | states |
|---|---|---|
| Text.TrimStart | src/components/chat/chat-interface.tsx:25 | the result is a suffix of the input that starts with a non-whitespace character, and everything dropped is whitespace |
| Text.TrimEnd | src/components/chat/chat-interface.tsx:25 | the result is a prefix of the input that ends with a non-whitespace character, and everything dropped is whitespace |
| Text.Trim | src/components/chat/chat-interface.tsx:25 | the trimmed text occurs inside the input, everything before and after that occurrence is whitespace, and it neither starts nor ends with whitespace |
| Text.TrimEmptyIffAllWhitespace | src/components/chat/chat-interface.tsx:25 | `!input.trim()` holds exactly when every character is whitespace, in both directions |
| Text.LowerChar | src/lib/utils.ts:38 | A-Z and the Latin-1 capitals other than the multiplication sign move up 32 code points to their lower-case letters; every other character is unchanged |
| Text.ToLower | src/lib/utils.ts:38 | lower-casing keeps the length and maps every character on its own |
| Text.ToLowerIdempotent | src/lib/utils.ts:38 | lower-casing an already lower-cased text changes nothing |
| Text.UpperChars | src/components/dashboard/stock-alerts-table.tsx:126 | a-z and the Latin-1 small letters other than the division sign move down 32 code points; ß becomes "SS", ÿ becomes Ÿ and µ becomes Greek capital mu; every other character is unchanged |
| Text.ToUpper | src/components/dashboard/stock-alerts-table.tsx:126 | upper-casing starts with the first character's upper-case form, never shortens a text and at most doubles it; when every character upper-cases to one character, it maps the text position by position |
| Text.UpperLowerRoundTrip | src/components/dashboard/stock-alerts-table.tsx:126 | a lower-case ASCII word upper-cases letter for letter into capitals and lower-cases back to itself |
| Text.ContainsSplit | src/components/chat/chat-interface.tsx:41-43 | a text contains whatever it was assembled around |
| NumberText.NatToString | src/lib/api-client.ts:57 | a natural number renders as digits with no leading zero |
| NumberText.IntToString | src/lib/api-client.ts:57 | an integer renders as digits, with a leading minus sign exactly when it is negative |
| NumberText.ParseNatToString | src/lib/api-client.ts:57 | reading the digits of a natural number gives the number back |
| NumberText.IntToStringRoundTrip | src/lib/api-client.ts:57 | reading the rendering of any integer gives the integer back |
| NumberText.IntToStringInjective | src/lib/api-client.ts:57 | distinct integers render as distinct texts, so distinct periods give distinct URLs |
| Delimited.Split | src/app/stock/page.tsx:48-49 | splitting gives at least one piece, and no piece holds the separator |
| Delimited.SplitJoin | src/app/stock/page.tsx:48-49 | splitting a join of separator-free parts gives the parts back |
| Delimited.JoinAvoids | src/app/stock/page.tsx:48-49 | joining adds no character except the separator |
| Delimited.JoinInjective | src/app/stock/page.tsx:48-49 | distinct lists of separator-free parts join to distinct texts |
| Uri.Utf8 | src/lib/api-client.ts:57 | a character's UTF-8 encoding is one to four bytes |
| Uri.EncodeChar | src/lib/api-client.ts:57 | a character encodes to a non-empty run of characters an encoded component may hold |
| Uri.EncodeURIComponent | src/lib/api-client.ts:57 | the encoding is at least as long as the name and holds only the unescaped characters and '%' |
| Uri.EncodedHasNoDelimiters | src/lib/api-client.ts:57 | an encoded name holds no '/', '?', '&', '=', '#', ',' or line break, so it stays one path segment |
| Uri.Utf8Decodes | src/lib/api-client.ts:57 | a character's UTF-8 bytes decode back to its code point |
| Uri.ReadContinuationsOfPercent | src/lib/api-client.ts:57 | escaped continuation bytes read back as those bytes, whatever follows them |
| Uri.DecodeEncodedChar | src/lib/api-client.ts:57 | the encoding of one character decodes to that character, consuming exactly its encoding |
| Uri.DecodeEncode | src/lib/api-client.ts:57 | decoding the encoding of any name gives the name back |
| Uri.EncodeInjective | src/lib/api-client.ts:57 | distinct names encode to distinct path segments |
| Csv.EncodeOneRowOfThree | src/app/predictions/page.tsx:37-42 | a single three-field row is its fields joined with commas |
| Csv.DecodeByLine | src/app/stock/page.tsx:36-49 | without line breaks in the values, the export has one line per row, each reading as its row's comma-joined fields |
| Csv.DecodeEncode | src/app/stock/page.tsx:36-49 | without commas or line breaks in the values, reading the export gives back exactly the rows |
| Csv.FieldWithComma | src/app/stock/page.tsx:48 | nothing escapes a comma: a value holding one reads back as two fields |
| Domain.ParseGranularity | src/lib/chat/tools.ts:148 | only the three granularity names are accepted, each as its own granularity |
| Domain.GranularityRoundTrip | src/lib/chat/tools.ts:148 | every granularity's name reads back as that granularity |
| Domain.ParseTarget | src/lib/chat/tools.ts:28-31 | only "kilos" and "ventas" are accepted, each as its own target |
| Domain.TargetRoundTrip | src/lib/chat/tools.ts:28-31 | every target's name reads back as that target |
| Domain.ParseTier | src/types/api.ts:104 | only the four alert tier names are accepted, each as its own tier |
| Domain.TierRoundTrip | src/types/api.ts:104 | every tier's name reads back as that tier |
| Utils.DayOfWeekColor | src/lib/utils.ts:37-42 | blue exactly for Saturday, with or without the accent; red exactly for Sunday; gray for every other text; case is ignored |
| Utils.DayOfWeekColorIgnoresCase | src/lib/utils.ts:37-42 | lower-casing the day's name first does not change its colour |
| Utils.SaturdayInCapitals | src/lib/utils.ts:37-39 | "SÁBADO" in capitals with the accent is recognised as Saturday |
| Utils.AlertColor | src/lib/utils.ts:44-57 | destructive exactly for "agotado" and "critico", secondary exactly for "ok", never outline |
| Utils.AlertBadgeVariant | src/lib/utils.ts:59-71 | destructive for the same tiers as the alert colour; outline for "bajo", the only text where it differs from the alert colour; default exactly for unknown text |
| Utils.PercentageChange | src/lib/utils.ts:73-76 | from zero: 100 for a positive value, 0 otherwise; from anything else, applying the change to the previous value gives the current one; from a positive value it is positive exactly when the value grew |
| Utils.TrendIcon | src/lib/utils.ts:78-82 | rising above +1 %, falling below -1 %, flat within one percent with the bounds included |
| Utils.TrendColor | src/lib/utils.ts:84-88 | green exactly for a positive change, red for a negative one, gray for zero; never contradicts the arrow |
| Utils.LowerCaseNameUnchanged | src/lib/utils.ts:38 | a day name already in lower case, accented a included, is left as it is by lower-casing |
| Utils.SaturdayExamples | src/lib/utils.test.ts:67-71 | "sábado" and "sabado" are blue, as the unit tests expect |
| Utils.SundayExample | src/lib/utils.test.ts:73-75 | "domingo" is red, as the unit tests expect |
| Utils.WeekdayExamples | src/lib/utils.test.ts:77-80 | "lunes" and "martes" are gray, as the unit tests expect |
| Utils.AlertExamples | src/lib/utils.test.ts:83-111 | the colours and badge variants the unit tests expect for the four tiers |
| Utils.TrendExamples | src/lib/utils.test.ts:113-155 | the percentage changes, arrows and colours the unit tests expect, including both zero-denominator cases |
| QueryKeys.QueryOfKeyOf | src/hooks/use-api.ts:7-19 | every cache key reads back as the query that built it |
| QueryKeys.KeyOfInjective | src/hooks/use-api.ts:7-19 | two queries share a cache entry only when they are the same query |
| QueryKeys.StockKeyPrefix | src/hooks/use-api.ts:13-17 | the key ["stock"] is a prefix of exactly the four stock queries' keys |
| QueryKeys.CriticalKeyExtendsAlertsKey | src/hooks/use-api.ts:108 | the critical-alerts key extends the alerts key of the same period but is never equal to it |
| Hooks.Filter | src/hooks/use-api.ts:111 | the filter keeps exactly the elements that pass, as often as they occur and in their order |
| Hooks.CriticalAlerts | src/hooks/use-api.ts:106-116 | the critical list holds every "critico" and "agotado" alert, each as often as it occurs and in order, and nothing else |
| Hooks.CriticalIsDestructive | src/hooks/use-api.ts:111 | an alert is critical exactly when its alert colour is destructive |
| Hooks.CountTier | src/hooks/use-api.ts:147-148 | a tier count is zero for no alerts, otherwise one for the first alert exactly when it has that tier text plus the count of the rest; it never exceeds the number of alerts |
| Hooks.FilterStep | src/hooks/use-api.ts:111 | filtering a non-empty list keeps its first element exactly when it passes, then filters the rest |
| Hooks.Summary | src/hooks/use-api.ts:135-156 | no summary while either list is missing; otherwise the product total and the three tier counts of the alerts |
| Hooks.CountsCoverAlerts | src/hooks/use-api.ts:143-150 | every alert is counted exactly once, as critical, "bajo", "ok" or of an unknown tier |
| Hooks.OneTierEach | src/hooks/use-api.ts:146-148 | an alert falls in exactly one of the counted groups or has an unknown tier |
| Hooks.CountsPartition | src/hooks/use-api.ts:143-150 | when every alert has a known tier, the three counts add up to the number of alerts |
| Hooks.PredictCall | src/hooks/use-api.ts:54-67 | the product granularity uses the product shortcut, and every other granularity uses the general route; the name is kept, the period is the one given or 30, and the target is the client's default, kilos |
| Hooks.PredictCallUrl | src/hooks/use-api.ts:62-67 | both routes request the URL of the general prediction for the same granularity, name and period |
| Hooks.PredictCallDefaultUrl | src/hooks/use-api.ts:54-67 | with the period left out, a prediction query requests `?days=30&target=kilos` |
| Hooks.UploadQuery | src/hooks/use-api.ts:26-30 | the query string is empty exactly when `retrain` is not given |
| Hooks.UploadQueryRoundTrip | src/hooks/use-api.ts:26-30 | the query string reads back as the `retrain` choice that produced it |
| Hooks.UploadUrl | src/hooks/use-api.ts:31-33 | the upload goes to the base URL, then `/api/v1/upload/excel`, then the query string |
| Hooks.UploadUrlTemplate | src/hooks/use-api.ts:26-33 | the three upload URLs: no query, `?retrain=true` and `?retrain=false` |
| Hooks.UploadUrlInjective | src/hooks/use-api.ts:26-33 | the upload URL tells which `retrain` choice made it |
| Hooks.UploadOutcome | src/hooks/use-api.ts:35-39 | an upload succeeds exactly on a 2xx JSON reply, yielding the body; a failed status raises the client's status error; a 2xx reply that is not JSON is malformed |
| Hooks.UploadFailsLikeClient | src/hooks/use-api.ts:35-39 | the upload's error handling is the client's fetch-and-validate with a schema that accepts every body |
| ApiClient.DaysOr | src/lib/api-client.ts:54 | a period left out is 30 days; a given one is kept |
| ApiClient.PredictWith | src/lib/api-client.ts:51-56 | `predict` keeps the granularity, name and any given period and target; a target left out is kilos |
| ApiClient.PredictProductWith | src/lib/api-client.ts:61-65 | `predictProduct` keeps the name and any given period and target; a target left out is kilos |
| ApiClient.DemandSummaryWith | src/lib/api-client.ts:72 | `getDemandSummary` uses the given period or 30 days |
| ApiClient.DemandByCategoryWith | src/lib/api-client.ts:77 | `getDemandByCategory` uses the given period or 30 days |
| ApiClient.DemandByBrandWith | src/lib/api-client.ts:82 | `getDemandByBrand` uses the given period or 30 days, and the given count or the top 20 |
| ApiClient.StockAlertsWith | src/lib/api-client.ts:89 | `getStockAlerts` uses the given period or 30 days |
| ApiClient.PurchaseOrderWith | src/lib/api-client.ts:94 | `getSuggestedPurchaseOrder` uses the given period or 30 days |
| ApiClient.DefaultPredictUrl | src/lib/api-client.ts:51-57 | `predict(g, name)` requests `{base}/api/v1/products/predict/{g}/{name}?days=30&target=kilos`, the name encoded |
| ApiClient.DefaultPredictProductUrl | src/lib/api-client.ts:61-66 | `predictProduct(name)` requests `{base}/api/v1/products/predict/producto/{name}?days=30&target=kilos`, the name encoded |
| ApiClient.DefaultDemandUrls | src/lib/api-client.ts:72-78 | `getDemandSummary()` and `getDemandByCategory()` request `?days=30` |
| ApiClient.DefaultDemandByBrandUrl | src/lib/api-client.ts:82-83 | `getDemandByBrand()` requests `?days=30&top=20` |
| ApiClient.DefaultStockUrls | src/lib/api-client.ts:89-95 | `getStockAlerts()` and `getSuggestedPurchaseOrder()` request `?days=30` |
| ApiClient.Url | src/lib/api-client.ts:44-109 | each call fetches the base URL, then its path segments each behind a "/", then its query parameters behind "?" and "&" |
| ApiClient.Segments | src/lib/api-client.ts:44-109 | the path segments of each call's template, with the entity name percent-encoded |
| ApiClient.Params | src/lib/api-client.ts:51-97 | the query parameters of each call's template, in order: days and target, days and top, or days alone |
| ApiClient.SegmentsAreSafe | src/lib/api-client.ts:44-109 | every path segment of every call is URL-safe, whatever name the caller passes |
| ApiClient.ParamsAreSafe | src/lib/api-client.ts:57-95 | every query parameter key and value of every call is URL-safe |
| ApiClient.PathSplits | src/lib/api-client.ts:44-109 | a call's path holds no '?' and splits at '/' into an empty piece followed by its segments |
| ApiClient.QuerySplits | src/lib/api-client.ts:57-95 | after its '?', a query splits at '&' into one "key=value" per parameter, and each splits back at '=' |
| ApiClient.UrlSplits | src/lib/api-client.ts:44-109 | after the base, a URL splits at '?' into the path and, if there are parameters, the query |
| ApiClient.PredictPath | src/lib/api-client.ts:57 | a prediction path has seven pieces: the fixed route, the granularity and the encoded name, which decodes back to the name |
| ApiClient.HealthUrlTemplate | src/lib/api-client.ts:44-47 | the health URL is `{base}/health` |
| ApiClient.PredictUrlTemplate | src/lib/api-client.ts:51-59 | the prediction URL is `{base}/api/v1/products/predict/{g}/{encoded name}?days={days}&target={target}` |
| ApiClient.PredictProductUrlTemplate | src/lib/api-client.ts:61-68 | the product prediction URL is `{base}/api/v1/products/predict/producto/{encoded name}?days={days}&target={target}` |
| ApiClient.DemandSummaryUrlTemplate | src/lib/api-client.ts:72-75 | the demand summary URL is `{base}/api/v1/products/demand/summary?days={days}` |
| ApiClient.DemandByCategoryUrlTemplate | src/lib/api-client.ts:77-80 | the demand-by-category URL is `{base}/api/v1/products/demand/by-category?days={days}` |
| ApiClient.DemandByBrandUrlTemplate | src/lib/api-client.ts:82-85 | the demand-by-brand URL is `{base}/api/v1/products/demand/by-brand?days={days}&top={top}` |
| ApiClient.StockAlertsUrlTemplate | src/lib/api-client.ts:89-92 | the stock alerts URL is `{base}/api/v1/stock/alerts/all?days={days}` |
| ApiClient.PurchaseOrderUrlTemplate | src/lib/api-client.ts:94-97 | the purchase order URL is `{base}/api/v1/stock/purchase-order?days={days}` |
| ApiClient.CurrentStockUrlTemplate | src/lib/api-client.ts:99-102 | the current stock URL is `{base}/api/v1/stock/`, trailing slash included, with no query |
| ApiClient.AvailableEntitiesUrlTemplate | src/lib/api-client.ts:106-109 | the available entities URL is `{base}/api/v1/products/available/{g}` |
| ApiClient.PredictProductIsPredict | src/lib/api-client.ts:57-66 | the product shortcut requests exactly the URL of a product-level general prediction |
| ApiClient.ErrorMessage | src/lib/api-client.ts:34-37 | the error message is the body's non-empty message; else the status text of a non-JSON body; else "Request failed with status N"; it is never empty |
| ApiClient.StatusError | src/lib/api-client.ts:34-37 | a failed status with a JSON `null` body raises the TypeError of reading its `message`, and only then; otherwise the error carries the body's non-empty message, else the status text of a non-JSON body, else "Request failed with status N" |
| ApiClient.FetchAndValidate | src/lib/api-client.ts:28-40 | success exactly for a 2xx JSON body the schema accepts, yielding the parsed value; a failed status raises its status error; a 2xx body that is not JSON is malformed; a rejected body is a schema error |
| ChatTypes.ParseTag | src/types/chat.ts:12-22 | only the ten `type` texts are accepted, each as its own tag |
| ChatTypes.TagRoundTrip | src/types/chat.ts:12-22 | every tag's text reads back as that tag |
| Renderer.Render | src/components/chat/tool-result-renderer.tsx:17-54 | a prediction is charted as a one-series chart titled with its entity and described by its period and granularity; an upload result gets the success style exactly when it succeeded; an error shows its message |
| Renderer.ShownRender | src/components/chat/tool-result-renderer.tsx:17-54 | every payload can be read back off its view, so the renderer loses nothing |
| Renderer.RenderInjective | src/components/chat/tool-result-renderer.tsx:17-54 | two results render alike only when they are the same result |
| Renderer.DescriptionStartsWithDays | src/components/chat/tool-result-renderer.tsx:24 | the first word of a prediction's description reads back as its number of days |
| Renderer.ViewKindFor | src/components/chat/tool-result-renderer.tsx:18-56 | the switch picks a view for exactly the ten known tag texts and nothing for any other text |
| Renderer.SwitchOnTagName | src/components/chat/tool-result-renderer.tsx:18-54 | each tag's text selects that tag's own kind of view |
| Renderer.DispatchMatchesRender | src/components/chat/tool-result-renderer.tsx:18-54 | the view the switch picks for a result's tag is the kind of view the result renders as |
| Renderer.DispatchInjective | src/components/chat/tool-result-renderer.tsx:18-54 | distinct tags select distinct kinds of view |
| Tools.ToolNamed | src/lib/chat/tools.ts:6-153 | only the ten tool names are recognised, each as its own tool |
| Tools.ToolNameRoundTrip | src/lib/chat/tools.ts:6-153 | every tool's name reads back as that tool |
| Tools.ToolTag | src/lib/chat/tools.ts:16-151 | no tool produces an upload result or an error result |
| Tools.ToolTagsAreRendered | src/lib/chat/tools.ts:16-151 | the renderer has a view for every tool's result tag |
| Tools.TargetArg | src/lib/chat/tools.ts:28-31 | an absent target defaults to kilos; a given one is accepted exactly when it is "kilos" or "ventas" and is kept |
| Tools.PredictArgs | src/lib/chat/tools.ts:25-32 | prediction arguments are accepted exactly with a name and a valid or absent target, and a missing name is reported before a bad target; the name is kept, the period defaults to 30 and the target is the given one or kilos |
| Tools.Plan | src/lib/chat/tools.ts:6-153 | the tools without required arguments always make their call |
| Tools.PlanCallsOwnEndpoint | src/lib/chat/tools.ts:16-151 | the call a tool makes belongs to that tool |
| Tools.PlanReachesEveryCall | src/lib/chat/tools.ts:6-153 | every call some tool makes is made by that tool for suitable arguments |
| Tools.PlanDefaults | src/lib/chat/tools.ts:10-128 | absent arguments default to 30 days, the kilos target and the top 20 brands |
| Tools.PlanArguments | src/lib/chat/tools.ts:6-153 | for every input, each tool makes its call with the given period or 30, the given top or 20, the given target or kilos, and the parsed granularity |
| Tools.PlanIgnoresOtherFields | src/lib/chat/tools.ts:6-153 | a tool reads only the arguments its input schema declares: the others change neither its call nor its rejection |
| Tools.PlanRejections | src/lib/chat/tools.ts:25-147 | the prediction tools reject exactly a missing name or an unknown target; the entity listing rejects exactly a missing or unknown granularity |
| Tools.Execute | src/lib/chat/tools.ts:16-151 | a tool succeeds exactly when its arguments are valid and its call succeeds, wrapping the call's data under the tool's tag; otherwise it fails with the input error or the call's error |
| UploadRoute.Get | src/app/api/chat/upload/route.ts:6-7 | a form field is found exactly when some entry has that name, and the first such entry's value is returned |
| UploadRoute.Route | src/app/api/chat/upload/route.ts:9-22 | a form is rejected exactly when its file is missing; otherwise only the file is forwarded, to the stock import exactly when `type` is "stock" and to the sales upload otherwise |
| UploadRoute.Relay | src/app/api/chat/upload/route.ts:29-34 | the backend's status is kept, and its JSON body is passed on unchanged; a non-JSON body becomes a failure carrying the status text |
| UploadRoute.Post | src/app/api/chat/upload/route.ts:4-35 | a missing file gets a 400 with the fixed message; any other form gets the relayed backend answer |
| UploadRoute.RejectIgnoresBackend | src/app/api/chat/upload/route.ts:9-14 | a rejected form never reaches the backend: the answer is 400 whatever the backend would say |
| UploadRoute.ForwardIgnoresOtherFields | src/app/api/chat/upload/route.ts:16-22 | fields other than `file` and `type` change neither the route nor the forwarded form |
| UploadRoute.GetAppendOther | src/app/api/chat/upload/route.ts:6-7 | appending a field under another name does not change what a lookup finds |
| UploadRoute.RoutesDiffer | src/app/api/chat/upload/route.ts:19-22 | the stock and the sales endpoints are different URLs |
| ChatInterface.Submit | src/components/chat/chat-interface.tsx:23-29 | a message is sent exactly when it is not blank and the assistant is idle; it is sent untrimmed and the box is cleared; otherwise the box is kept |
| ChatInterface.IsLoading | src/components/chat/chat-interface.tsx:15 | the assistant is busy while a message is submitted or streaming, and idle when ready or after an error |
| ChatInterface.SuggestionClick | src/components/chat/chat-interface.tsx:31-34 | a suggestion is sent as it is, exactly when the assistant is idle |
| ChatInterface.SentIsNeverBlank | src/components/chat/chat-interface.tsx:23-34 | nothing blank is ever sent, and nothing at all while the assistant is busy |
| ChatInterface.ImportType | src/components/chat/chat-interface.tsx:41-44 | the type is "stock" exactly for names containing "stock" or "inventario" in any case, and "sales" for all others |
| ChatInterface.IsStockFile | src/components/chat/chat-interface.tsx:41-43 | a file is an inventory file when its lower-cased name contains "stock" or "inventario"; any name already containing either word is one |
| ChatInterface.UploadForm | src/components/chat/chat-interface.tsx:38-44 | the form the chat posts reads back, through `FormData.get`, as the file under "file" and the import type under "type" |
| ChatInterface.StockFileIgnoresCase | src/components/chat/chat-interface.tsx:41-43 | the classification does not depend on the case of the file name |
| ChatInterface.NamedStockIsStock | src/components/chat/chat-interface.tsx:41-43 | a name with "stock" or "inventario" anywhere in it is an inventory file |
| ChatInterface.LowerKeepsLowerWord | src/components/chat/chat-interface.tsx:41-43 | lower-casing a name leaves a lower-case word in it in place |
| ChatInterface.UploadReachesMatchingRoute | src/components/chat/chat-interface.tsx:38-44 | the chat's form reaches the inventory import for a stock file and the sales upload for any other, with the file alone |
| ChatInterface.ResultText | src/components/chat/chat-interface.tsx:55 | the reply's non-empty message, or else a fixed success or failure text chosen by the success flag; never empty |
| ChatInterface.UploadMessage | src/components/chat/chat-interface.tsx:46-62 | a readable reply gives a report that opens with the file's name, ends with the outcome text, and reads back for that name as "inventario" exactly for a stock file together with the outcome; a failed request or unreadable reply gives the connection-error message |
| ChatInterface.ReportReadsBack | src/components/chat/chat-interface.tsx:55 | the report template, for any outcome text, opens with the name, reads back as the file's kind and the outcome, and ends with the outcome |
| ChatInterface.ReportDeterminesOutcome | src/components/chat/chat-interface.tsx:55 | for one file name, equal reports carry equal outcome texts |
| ChatInterface.ReportIsNotConnectionError | src/components/chat/chat-interface.tsx:54-61 | a report and a connection-error message never coincide |
| ChatInterface.ShowTyping | src/components/chat/chat-interface.tsx:102-104 | the typing indicator shows exactly while the assistant is busy and the last message is the user's |
| ChatInterface.TypingFollowsLastMessage | src/components/chat/chat-interface.tsx:102-104 | the indicator disappears once the assistant's message is appended, and a new user message shows it exactly while busy |
| StockAlertsTable.SliceEnd | src/components/dashboard/stock-alerts-table.tsx:36 | the end of `slice(0, end)` clamps a non-negative end to the list and counts a negative end back from the length |
| StockAlertsTable.DisplayAlerts | src/components/dashboard/stock-alerts-table.tsx:36 | the table shows a prefix of the alerts: all of them for an absent or zero limit, at most the limit for a positive one, and for a negative one all but that many from the end |
| StockAlertsTable.PositiveLimitIsCap | src/components/dashboard/stock-alerts-table.tsx:36 | a positive limit leaves a short enough list whole, and applying it twice is applying it once |
| StockAlertsTable.NegativeLimitDropsFromEnd | src/components/dashboard/stock-alerts-table.tsx:36 | a negative limit drops that many alerts from the end, again each time it is applied |
| StockAlertsTable.CoverageColor | src/components/dashboard/stock-alerts-table.tsx:112-119 | red exactly under 7 days, yellow exactly from 7 to under 14, green exactly from 14 on |
| StockAlertsTable.AlertIcon | src/components/dashboard/stock-alerts-table.tsx:38-49 | an icon exactly for the three alerting tiers: the triangle for "agotado", the circle for "critico", the info sign for "bajo" |
| StockAlertsTable.IconsDiffer | src/components/dashboard/stock-alerts-table.tsx:38-49 | distinct alerting tiers show distinct icons in distinct colours |
| StockAlertsTable.Table | src/components/dashboard/stock-alerts-table.tsx:58-130 | the empty state exactly when no alert is displayed, otherwise one row per displayed alert in order |
| StockAlertsTable.RowOf | src/components/dashboard/stock-alerts-table.tsx:94-129 | a row shows the tier's icon, the product, the category, the stock, the demand, the coverage with its colour, and the badge with the upper-cased tier text |
| StockAlertsTable.RowMarksAgree | src/components/dashboard/stock-alerts-table.tsx:94-127 | a row's badge is destructive exactly when its icon is the triangle or circle, that is when the alert is critical; with a known tier it shows an icon exactly when the badge is not secondary |
| StockAlertsTable.LabelReadsBack | src/components/dashboard/stock-alerts-table.tsx:125-126 | a known tier's badge label is as long as its name and reads back as that tier |
| StockPage.ProviderField | src/app/stock/page.tsx:45 | an absent or empty provider becomes "N/A"; any other provider is kept; the field is never empty |
| StockPage.ExportRows | src/app/stock/page.tsx:36-47 | the header, then one row per purchase order item in order |
| StockPage.ExportPurchaseOrder | src/app/stock/page.tsx:33-49 | a CSV text exactly when a purchase order is present |
| StockPage.HeaderIsPlain | src/app/stock/page.tsx:37 | no header column holds a comma or a line break |
| StockPage.ExportReadsBack | src/app/stock/page.tsx:36-49 | with plain values the export reads back as the seven-column header and one seven-field line per item, with "N/A" for a missing provider |
| StockPage.ExportLines | src/app/stock/page.tsx:36-49 | without line breaks in the values the export has one line per item after the header, each its comma-joined fields |
| StockPage.CommaInNameAddsColumn | src/app/stock/page.tsx:38-48 | a product name with one comma splits its line into eight fields, the name's two halves first |
| StockPage.RowWithCommaInName | src/app/stock/page.tsx:38-48 | one item whose name holds a comma reads back as eight fields |
| StockPage.ProviderCell | src/app/stock/page.tsx:229 | the table shows "-" for an absent or empty provider, and the provider otherwise |
| StockPage.ProviderPlaceholdersAgree | src/app/stock/page.tsx:45 | the table and the export show their placeholders for the same items, and the same provider for the rest |
| StockPage.CoverageBadge | src/app/stock/page.tsx:216-223 | destructive exactly under 7 days, outline exactly from 7 to under 14, secondary exactly from 14 on |
| StockPage.BadgeMatchesCoverageColor | src/app/stock/page.tsx:217-223 | the badge and the alerts table's coverage colour use the same thresholds |
| StockPage.SummaryCards | src/app/stock/page.tsx:90-142 | cards exactly when a summary is present |
| StockPage.CardsCountAlerts | src/app/stock/page.tsx:100-138 | the first card counts the exhausted and critical alerts, the others count "bajo" and "ok" alerts and the stock items; with known tiers the three alert cards add up to all alerts |
| StockPage.NoCardsWithoutData | src/app/stock/page.tsx:90-142 | no cards while the stock list or the alerts list is missing |
| PredictionsPage.ExportRows | src/app/predictions/page.tsx:37-39 | the header, then one row per forecast day in order |
| PredictionsPage.ExportPredictions | src/app/predictions/page.tsx:34-42 | a CSV text exactly when a forecast is present; an empty forecast exports the header line alone |
| PredictionsPage.HeaderLine | src/app/predictions/page.tsx:38-42 | the header alone is the line "Fecha,Día,Ventas Predichas" |
| PredictionsPage.ExportReadsBack | src/app/predictions/page.tsx:37-42 | with plain values the export reads back as the header and one date, weekday and forecast line per day, in order |

## Left out

- `cn`, `formatCurrency`, `formatNumber`, `formatDate` and `formatDateShort` in src/lib/utils.ts are left out. They delegate to `clsx`/`tailwind-merge` and to `Intl` formatting, which are outside this code.
- Fetching, timers and the React Query cache are left out: `staleTime`, `refetchInterval`, `enabled`, retries and refetching. Responses enter the model as parameters (`HttpResponse`, `BackendReply`, the tool call's reply). Only the cache keys are modelled, with the cache's element-wise key equality and prefix invalidation.
- The backend base URL from the environment is a parameter `base`. For the client and the upload route it is `env.NEXT_PUBLIC_API_URL`, which src/lib/env.ts:7 defaults to the production backend. `useUploadExcel` instead reads `process.env.NEXT_PUBLIC_API_URL` directly (src/hooks/use-api.ts:32), so that default does not apply to it; with the variable unset its URL starts with "undefined". That default and the environment validation are not modelled.
- Response schemas are left out. Each is a parameter `schema: J -> Option<T>`, and how a JSON value is read is left abstract. The schemas' field-by-field checks and zod's error reports are not modelled. `GranularitySchema` is imported from src/types/api.ts but is not defined there, so its three values are taken from the tool's declared input type.
- The hooks the two pages import but src/hooks/use-api.ts does not define (`useStockCoverage`, `usePurchaseOrder`, `usePredictNextDays`) are not part of this model. The pages' data enters as parameters.
- The coverage analysis chart, the purchase order's total and estimated cost, and the skeletons shown while loading are not modelled.
- The predictions page's statistics (sum, average, maximum and minimum of the forecast) are left out. They are floating-point reductions over `Math.max`/`Math.min` that the page only displays.
- The CSV download is left out: the Blob, the object URL, the link click, and the file names with their `new Date()` date.
- The chat screen's scroll effect, the transient "Subiendo archivo..." status and the list of suggestion texts are left out. They are presentation with no decision in them.
- The language model, the streaming chat route and the chat message rendering (src/app/api/chat/route.ts and the chat views) are not part of this model.
- Domain.Num: a JavaScript number is carried as its value and the text `String(value)` gives for it. ECMAScript's number-to-text algorithm is not modelled, and neither are NaN, the infinities or negative zero.
- NumberText.IntToString: renders every integer in plain decimal. JavaScript switches to exponent notation from 1e21 on, far beyond any period or count the dashboard passes.
- Tools.PredictArgs: periods and counts are integers. The input schemas accept any number, including fractions, which then appear in the URL in JavaScript's number text.
- StockAlertsTable.DisplayAlerts: `maxRows` is an integer. A fractional or NaN limit, which `slice` would truncate or treat as zero, is not modelled.
- Uri.EncodeURIComponent: strings are sequences of Unicode scalar values, so a lone surrogate (for instance one an entity name decoded from JSON could carry) cannot occur. The URIError that `encodeURIComponent` throws for one is not modelled.
- Text.LowerChar: lower-casing is exact on ASCII and Latin-1 only; characters of other scripts are left unchanged.
- Text.UpperChars: upper-casing is exact on ASCII and Latin-1 only, including ß becoming "SS", ÿ becoming Ÿ and µ becoming Μ; characters of other scripts are left unchanged.
- Utils.PercentageChange: computed in exact real arithmetic, so floating-point rounding and division overflow are not modelled.
- ApiClient.ErrorMessage: the `message` field of an error body is either absent or a string. A JSON body whose `message` is another truthy value (a number, an object) is not modelled.
- ApiClient.StatusError: a JSON `null` error body is modelled as its own failure, `NullErrorBody`; the text of the TypeError the engine raises is engine-specific and is not modelled.
- ChatInterface.UploadMessage: the reply's `message` is read as an optional string in the same way.

=== FILE: api_client.dfy ===
/** The typed client of the forecasting backend: one URL template per
    exported call, and the single fetch-and-validate step every call goes
    through, with its rule for the message of a failed request. */
module ApiClient {
  import opened Wrappers
  import opened Text
  import opened NumberText
  import opened Delimited
  import opened Uri
  import opened Domain

  const DefaultDays := 30
  const DefaultTop := 20
  const DefaultTarget := Kilos

  /** Every exported client call with its arguments; the `...With` builders
      below fill in the client's defaults for the arguments a caller leaves out. */
  datatype Call =
    | Health
    | Predict(granularity: Granularity, name: string, days: int, target: Target)
    | PredictProduct(name: string, days: int, target: Target)
    | GetDemandSummary(days: int)
    | GetDemandByCategory(days: int)
    | GetDemandByBrand(days: int, top: int)
    | GetStockAlerts(days: int)
    | GetSuggestedPurchaseOrder(days: int)
    | GetCurrentStock
    | GetAvailableEntities(granularity: Granularity)

  // ---------------------------------------------------------------------------
  // calls with the client's default arguments
  // ---------------------------------------------------------------------------

  /** The period a call uses: the one passed, or 30 days when it is left out. */
  function DaysOr(days: Option<int>): (d: int)
    ensures days.Some? ==> d == days.value
    ensures days.None? ==> d == 30
  {
    days.GetOr(DefaultDays)
  }

  /** `predict(granularity, name, days?, target?)`. */
  function PredictWith(g: Granularity, name: string, days: Option<int>, target: Option<Target>): (c: Call)
    ensures c.Predict? && c.granularity == g && c.name == name && c.days == DaysOr(days)
    ensures target.Some? ==> c.target == target.value
    ensures target.None? ==> c.target == Kilos
  {
    Predict(g, name, DaysOr(days), target.GetOr(DefaultTarget))
  }

  /** `predictProduct(name, days?, target?)`. */
  function PredictProductWith(name: string, days: Option<int>, target: Option<Target>): (c: Call)
    ensures c.PredictProduct? && c.name == name && c.days == DaysOr(days)
    ensures target.Some? ==> c.target == target.value
    ensures target.None? ==> c.target == Kilos
  {
    PredictProduct(name, DaysOr(days), target.GetOr(DefaultTarget))
  }

  /** `getDemandSummary(days?)`. */
  function DemandSummaryWith(days: Option<int>): (c: Call)
    ensures c.GetDemandSummary? && c.days == DaysOr(days)
  {
    GetDemandSummary(DaysOr(days))
  }

  /** `getDemandByCategory(days?)`. */
  function DemandByCategoryWith(days: Option<int>): (c: Call)
    ensures c.GetDemandByCategory? && c.days == DaysOr(days)
  {
    GetDemandByCategory(DaysOr(days))
  }

  /** `getDemandByBrand(days?, top?)`: the top 20 brands unless told otherwise. */
  function DemandByBrandWith(days: Option<int>, top: Option<int>): (c: Call)
    ensures c.GetDemandByBrand? && c.days == DaysOr(days)
    ensures top.Some? ==> c.top == top.value
    ensures top.None? ==> c.top == 20
  {
    GetDemandByBrand(DaysOr(days), top.GetOr(DefaultTop))
  }

  /** `getStockAlerts(days?)`. */
  function StockAlertsWith(days: Option<int>): (c: Call)
    ensures c.GetStockAlerts? && c.days == DaysOr(days)
  {
    GetStockAlerts(DaysOr(days))
  }

  /** `getSuggestedPurchaseOrder(days?)`. */
  function PurchaseOrderWith(days: Option<int>): (c: Call)
    ensures c.GetSuggestedPurchaseOrder? && c.days == DaysOr(days)
  {
    GetSuggestedPurchaseOrder(DaysOr(days))
  }

  // ---------------------------------------------------------------------------
  // URLs
  // ---------------------------------------------------------------------------

  /** The URL each call fetches: the base, then the call's path segments
      each behind a "/", then its query parameters, if any, behind a "?"
      and separated by "&". */
  function Url(base: string, call: Call): string {
    base + PathOf(Segments(call)) + QueryOf(Params(call))
  }

  /** The path segments of each call's template; the entity name is the only
      one the caller chooses freely, and it is percent-encoded. */
  function Segments(call: Call): seq<string> {
    match call
    case Health => ["health"]
    case Predict(g, name, _, _) => ["api", "v1", "products", "predict", GranularityName(g), EncodeURIComponent(name)]
    case PredictProduct(name, _, _) => ["api", "v1", "products", "predict", "producto", EncodeURIComponent(name)]
    case GetDemandSummary(_) => ["api", "v1", "products", "demand", "summary"]
    case GetDemandByCategory(_) => ["api", "v1", "products", "demand", "by-category"]
    case GetDemandByBrand(_, _) => ["api", "v1", "products", "demand", "by-brand"]
    case GetStockAlerts(_) => ["api", "v1", "stock", "alerts", "all"]
    case GetSuggestedPurchaseOrder(_) => ["api", "v1", "stock", "purchase-order"]
    case GetCurrentStock => ["api", "v1", "stock", ""]
    case GetAvailableEntities(g) => ["api", "v1", "products", "available", GranularityName(g)]
  }

  /** The query parameters of each call's template, in order. */
  function Params(call: Call): seq<(string, string)> {
    match call
    case Predict(_, _, days, target) => [("days", IntToString(days)), ("target", TargetName(target))]
    case PredictProduct(_, days, target) => [("days", IntToString(days)), ("target", TargetName(target))]
    case GetDemandSummary(days) => [("days", IntToString(days))]
    case GetDemandByCategory(days) => [("days", IntToString(days))]
    case GetDemandByBrand(days, top) => [("days", IntToString(days)), ("top", IntToString(top))]
    case GetStockAlerts(days) => [("days", IntToString(days))]
    case GetSuggestedPurchaseOrder(days) => [("days", IntToString(days))]
    case _ => []
  }

  /** "/s1/s2/.../sn". */
  function PathOf(segments: seq<string>): string {
    if segments == [] then "" else "/" + segments[0] + PathOf(segments[1..])
  }

  /** A path is its segments joined with "/" behind an empty first piece. */
  lemma {:induction false} PathOfIsJoin(segments: seq<string>)
    ensures PathOf(segments) == Join([""] + segments, '/')
    decreases |segments|
  {
    if segments != [] {
      var rest := segments[1..];
      PathOfIsJoin(rest);
      assert ([""] + segments)[1..] == segments;
      if rest == [] {
        assert Join(segments, '/') == segments[0];
      } else {
        assert ([""] + rest)[1..] == rest;
        assert segments[1..] == rest;
        assert Join(segments, '/') == segments[0] + "/" + Join(rest, '/');
      }
    }
  }

  /** "k=v" per parameter. */
  function ParamTexts(params: seq<(string, string)>): (r: seq<string>)
    ensures |r| == |params|
    ensures forall i :: 0 <= i < |params| ==> r[i] == params[i].0 + "=" + params[i].1
  {
    if params == [] then [] else [params[0].0 + "=" + params[0].1] + ParamTexts(params[1..])
  }

  /** "" without parameters, otherwise "?k1=v1&k2=v2...". */
  function QueryOf(params: seq<(string, string)>): string {
    if params == [] then "" else "?" + Join(ParamTexts(params), '&')
  }

  /** Only characters an encoded component may hold: none of them delimits
      the parts of a URL. */
  predicate UrlSafe(s: string) {
    forall i :: 0 <= i < |s| ==> EncodedChar(s[i])
  }

  lemma SafeHasNoDelimiters(s: string)
    requires UrlSafe(s)
    ensures '/' !in s && '?' !in s && '&' !in s && '=' !in s && '#' !in s
  {
    forall i | 0 <= i < |s|
      ensures s[i] != '/' && s[i] != '?' && s[i] != '&' && s[i] != '=' && s[i] != '#'
    {
      EncodedCharIsNoDelimiter(s[i]);
    }
  }

  /** Every string of the list is URL-safe. */
  predicate AllSafe(parts: seq<string>) {
    forall i :: 0 <= i < |parts| ==> UrlSafe(parts[i])
  }

  /** Every parameter key and value is URL-safe. */
  predicate SafeParams(params: seq<(string, string)>) {
    forall i :: 0 <= i < |params| ==> UrlSafe(params[i].0) && UrlSafe(params[i].1)
  }

  /** Every segment is URL-safe, whatever the caller passes: the only free
      text, the entity name, is encoded. */
  lemma SegmentsAreSafe(call: Call)
    ensures AllSafe(Segments(call))
  {
    RouteWordsAreSafe();
    DemandWordsAreSafe();
    StockWordsAreSafe();
    match call
    case Predict(g, _, _, _) => GranularityIsSafe(g);
    case GetAvailableEntities(g) => GranularityIsSafe(g);
    case _ =>
  }

  lemma RouteWordsAreSafe()
    ensures UrlSafe("health") && UrlSafe("api") && UrlSafe("v1") && UrlSafe("products")
    ensures UrlSafe("stock") && UrlSafe("predict") && UrlSafe("producto") && UrlSafe("")
  {
  }

  lemma DemandWordsAreSafe()
    ensures UrlSafe("demand") && UrlSafe("summary") && UrlSafe("by-category") && UrlSafe("by-brand")
  {
  }

  lemma StockWordsAreSafe()
    ensures UrlSafe("alerts") && UrlSafe("all") && UrlSafe("purchase-order") && UrlSafe("available")
  {
  }

  /** Every parameter key and value is URL-safe: the values are decimal
      numerals and target names. */
  lemma ParamsAreSafe(call: Call)
    ensures SafeParams(Params(call))
  {
    match call
    case Predict(_, _, days, target) => DaysAndTargetAreSafe(days, target);
    case PredictProduct(_, days, target) => DaysAndTargetAreSafe(days, target);
    case GetDemandSummary(days) => DaysAreSafe(days);
    case GetDemandByCategory(days) => DaysAreSafe(days);
    case GetDemandByBrand(days, top) => DaysAndTopAreSafe(days, top);
    case GetStockAlerts(days) => DaysAreSafe(days);
    case GetSuggestedPurchaseOrder(days) => DaysAreSafe(days);
    case _ =>
  }

  lemma DaysAreSafe(days: int)
    ensures var ps := [("days", IntToString(days))];
      SafeParams(ps)
  {
    ParamWordsAreSafe();
    DecimalIsSafe(days);
    SingleIsSafe("days", IntToString(days));
  }

  lemma DaysAndTargetAreSafe(days: int, target: Target)
    ensures var ps := [("days", IntToString(days)), ("target", TargetName(target))];
      SafeParams(ps)
  {
    ParamWordsAreSafe();
    DecimalIsSafe(days);
    TargetIsSafe(target);
    PairIsSafe("days", IntToString(days), "target", TargetName(target));
  }

  lemma DaysAndTopAreSafe(days: int, top: int)
    ensures var ps := [("days", IntToString(days)), ("top", IntToString(top))];
      SafeParams(ps)
  {
    ParamWordsAreSafe();
    DecimalIsSafe(days);
    DecimalIsSafe(top);
    PairIsSafe("days", IntToString(days), "top", IntToString(top));
  }

  lemma ParamWordsAreSafe()
    ensures UrlSafe("days") && UrlSafe("target") && UrlSafe("top")
  {
  }

  lemma TargetIsSafe(t: Target)
    ensures UrlSafe(TargetName(t))
  {
  }

  lemma SingleIsSafe(k: string, v: string)
    requires UrlSafe(k) && UrlSafe(v)
    ensures SafeParams([(k, v)])
  {
  }

  lemma PairIsSafe(k1: string, v1: string, k2: string, v2: string)
    requires UrlSafe(k1) && UrlSafe(v1) && UrlSafe(k2) && UrlSafe(v2)
    ensures SafeParams([(k1, v1), (k2, v2)])
  {
  }

  lemma GranularityIsSafe(g: Granularity)
    ensures UrlSafe(GranularityName(g))
  {
  }

  lemma DecimalIsSafe(n: int)
    ensures UrlSafe(IntToString(n))
  {
  }

  /** The path holds no "?", and splitting it at "/" gives back an empty
      piece followed by exactly the call's segments. */
  lemma PathSplits(call: Call)
    ensures '?' !in PathOf(Segments(call))
    ensures Split(PathOf(Segments(call)), '/') == [""] + Segments(call)
  {
    var segs := Segments(call);
    var parts := [""] + segs;
    SegmentsAreSafe(call);
    forall i | 0 <= i < |parts|
      ensures '/' !in parts[i] && '?' !in parts[i]
    {
      if i > 0 {
        SafeHasNoDelimiters(segs[i - 1]);
      }
    }
    PathOfIsJoin(segs);
    SplitJoin(parts, '/');
    JoinAvoids(parts, '/', '?');
  }

  /** The query, after its "?", splits at "&" into one "k=v" per parameter,
      and each of those splits at "=" into its key and its value. */
  lemma QuerySplits(call: Call)
    requires Params(call) != []
    ensures QueryOf(Params(call))[0] == '?'
    ensures Split(QueryOf(Params(call))[1..], '&') == ParamTexts(Params(call))
    ensures forall i :: 0 <= i < |Params(call)| ==>
      Split(ParamTexts(Params(call))[i], '=') == [Params(call)[i].0, Params(call)[i].1]
  {
    var ps := Params(call);
    var texts := ParamTexts(ps);
    ParamsAreSafe(call);
    forall i | 0 <= i < |texts|
      ensures '&' !in texts[i]
      ensures Split(texts[i], '=') == [ps[i].0, ps[i].1]
    {
      ParamTextSplits(ps[i].0, ps[i].1);
    }
    assert QueryOf(ps)[1..] == Join(texts, '&');
    SplitJoin(texts, '&');
  }

  /** "k=v" for safe k and v holds no "&" or "?" and splits back at "=". */
  lemma ParamTextSplits(k: string, v: string)
    requires UrlSafe(k) && UrlSafe(v)
    ensures '&' !in k + "=" + v && '?' !in k + "=" + v
    ensures Split(k + "=" + v, '=') == [k, v]
  {
    SafeHasNoDelimiters(k);
    SafeHasNoDelimiters(v);
    SplitPair(k, v, '=');
  }

  lemma SplitPair(a: string, b: string, sep: char)
    requires sep !in a && sep !in b
    ensures Split(a + [sep] + b, sep) == [a, b]
  {
    JoinTwo(a, b, sep);
    SplitJoin([a, b], sep);
  }

  lemma JoinTwo(a: string, b: string, sep: char)
    ensures Join([a, b], sep) == a + [sep] + b
  {
    assert [a, b][1..] == [b];
  }

  /** The URL after the base splits at "?" into the path and, when the call
      has parameters, the query; the number of path pieces depends only on
      the kind of call, never on the name or the numbers it carries. */
  lemma UrlSplits(base: string, call: Call)
    ensures Url(base, call)[..|base|] == base
    ensures var rest := Url(base, call)[|base|..];
      Split(rest, '?') ==
        if Params(call) == [] then [PathOf(Segments(call))]
        else [PathOf(Segments(call)), Join(ParamTexts(Params(call)), '&')]
  {
    var path, q := PathOf(Segments(call)), QueryOf(Params(call));
    assert Url(base, call) == base + (path + q) by {
      Assoc(base, path, q);
    }
    DropBase(base, path + q);
    PathSplits(call);
    ParamsAreSafe(call);
    SplitAtQuery(path, Params(call));
  }

  lemma Assoc(a: string, b: string, c: string)
    ensures a + b + c == a + (b + c)
  {
  }

  lemma DropBase(base: string, rest: string)
    ensures (base + rest)[..|base|] == base && (base + rest)[|base|..] == rest
  {
  }

  /** A path without "?" followed by the query of safe parameters splits at
      "?" into the path and the parameter list. */
  lemma SplitAtQuery(path: string, ps: seq<(string, string)>)
    requires '?' !in path
    requires SafeParams(ps)
    ensures Split(path + QueryOf(ps), '?') ==
      if ps == [] then [path] else [path, Join(ParamTexts(ps), '&')]
  {
    if ps != [] {
      var texts := ParamTexts(ps);
      var q := Join(texts, '&');
      forall i | 0 <= i < |texts|
        ensures '?' !in texts[i]
      {
          ParamTextSplits(ps[i].0, ps[i].1);
      }
      JoinAvoids(texts, '&', '?');
      assert path + QueryOf(ps) == path + ['?'] + q;
      SplitPair(path, q, '?');
    } else {
      assert path + QueryOf(ps) == path;
    }
  }

  /** A prediction URL always has seven path pieces: the fixed route, the
      granularity, and the encoded name, which decodes back to the name. */
  lemma PredictPath(g: Granularity, name: string, days: int, target: Target)
    ensures var pieces := Split(PathOf(Segments(Predict(g, name, days, target))), '/');
      pieces == ["", "api", "v1", "products", "predict", GranularityName(g), EncodeURIComponent(name)]
      && DecodeURIComponent(pieces[6]) == Some(name)
  {
    var call := Predict(g, name, days, target);
    var segs := Segments(call);
    assert Split(PathOf(segs), '/') == [""] + segs by {
      PathSplits(call);
    }
    PrependToSix("", "api", "v1", "products", "predict", GranularityName(g), EncodeURIComponent(name));
    DecodeEncode(name);
  }

  lemma PrependToSix<T>(x: T, a: T, b: T, c: T, d: T, e: T, f: T)
    ensures [x] + [a, b, c, d, e, f] == [x, a, b, c, d, e, f]
  {
  }

  lemma {:induction false} PathOfAppend(p: seq<string>, q: seq<string>)
    ensures PathOf(p + q) == PathOf(p) + PathOf(q)
    decreases |p|
  {
    if p != [] {
      assert (p + q)[1..] == p[1..] + q;
      PathOfAppend(p[1..], q);
    } else {
      assert p + q == q;
    }
  }

  /** A one-parameter URL: the path, "?k=", then the value. */
  lemma OneParamUrl(base: string, call: Call, k: string, v: string, prefix: string)
    requires Params(call) == [(k, v)]
    requires PathOf(Segments(call)) + ("?" + k + "=") == prefix
    ensures Url(base, call) == base + prefix + v
  {
    QueryOfOne(k, v);
    Regroup(base, PathOf(Segments(call)), "?" + k + "=", v);
  }

  /** A two-parameter URL: the path, "?k1=", the first value, "&k2=", the
      second value. */
  lemma TwoParamUrl(base: string, call: Call, k1: string, v1: string, k2: string, v2: string, prefix: string)
    requires Params(call) == [(k1, v1), (k2, v2)]
    requires PathOf(Segments(call)) + ("?" + k1 + "=") == prefix
    ensures Url(base, call) == base + prefix + v1 + ("&" + k2 + "=") + v2
  {
    QueryOfPair(k1, v1, k2, v2);
    Regroup4(base, PathOf(Segments(call)), "?" + k1 + "=", v1, "&" + k2 + "=", v2);
  }

  /** `base + p + (q + v) == base + (p + q) + v`. */
  lemma Regroup(base: string, p: string, q: string, v: string)
    ensures base + p + (q + v) == base + (p + q) + v
  {
  }

  lemma Regroup4(base: string, p: string, a: string, v1: string, b: string, v2: string)
    ensures base + p + (a + v1 + b + v2) == base + (p + a) + v1 + b + v2
  {
  }

  lemma QueryOfOne(k: string, v: string)
    ensures QueryOf([(k, v)]) == "?" + k + "=" + v
  {
    assert ParamTexts([(k, v)]) == [k + "=" + v];
  }

  lemma QueryOfPair(k1: string, v1: string, k2: string, v2: string)
    ensures QueryOf([(k1, v1), (k2, v2)]) == ("?" + k1 + "=") + v1 + ("&" + k2 + "=") + v2
  {
    var ps := [(k1, v1), (k2, v2)];
    assert ParamTexts(ps) == [k1 + "=" + v1, k2 + "=" + v2];
    JoinTwo(k1 + "=" + v1, k2 + "=" + v2, '&');
  }

  lemma PathOfOne(a: string)
    ensures PathOf([a]) == "/" + a
  {
    assert [a][1..] == [];
  }

  lemma PathOfPair(a: string, b: string)
    ensures PathOf([a, b]) == "/" + a + "/" + b
  {
    assert [a, b][1..] == [b];
    PathOfOne(b);
  }

  lemma PathOfThree(a: string, b: string, c: string)
    ensures PathOf([a, b, c]) == "/" + a + "/" + b + "/" + c
  {
    PathOfOne(a);
    PathOfPair(b, c);
    PathOfAppend([a], [b, c]);
    assert [a] + [b, c] == [a, b, c];
  }

  lemma PathOfFour(a: string, b: string, c: string, d: string)
    ensures PathOf([a, b, c, d]) == "/" + a + "/" + b + "/" + c + "/" + d
  {
    PathOfPair(a, b);
    PathOfPair(c, d);
    PathOfAppend([a, b], [c, d]);
    assert [a, b] + [c, d] == [a, b, c, d];
  }

  lemma PathOfFive(a: string, b: string, c: string, d: string, e: string)
    ensures PathOf([a, b, c, d, e]) == "/" + a + "/" + b + "/" + c + "/" + d + "/" + e
  {
    PathOfPair(a, b);
    PathOfThree(c, d, e);
    PathOfAppend([a, b], [c, d, e]);
    assert [a, b] + [c, d, e] == [a, b, c, d, e];
  }

  /** The prediction URL is the template
      `{base}/api/v1/products/predict/{g}/{encodeURIComponent(name)}?days={days}&target={target}`. */
  lemma PredictUrlTemplate(base: string, g: Granularity, name: string, days: int, target: Target)
    ensures Url(base, Predict(g, name, days, target))
      == base + ("/api/v1/products/predict/" + GranularityName(g) + "/" + EncodeURIComponent(name) + "?days=")
         + IntToString(days) + "&target=" + TargetName(target)
  {
    var call := Predict(g, name, days, target);
    var gn, en := GranularityName(g), EncodeURIComponent(name);
    var prefix := "/api/v1/products/predict/" + gn + "/" + en + "?days=";
    assert PathOf(Segments(call)) + ("?" + "days" + "=") == prefix by {
      PredictPrefix(gn, en);
    }
    TwoParamUrl(base, call, "days", IntToString(days), "target", TargetName(target), prefix);
    TargetSeparator();
  }

  lemma PredictPrefix(gn: string, en: string)
    ensures PathOf(["api", "v1", "products", "predict", gn, en]) + ("?" + "days" + "=")
      == "/api/v1/products/predict/" + gn + "/" + en + "?days="
  {
    var route := ["api", "v1", "products", "predict"];
    assert route + [gn, en] == ["api", "v1", "products", "predict", gn, en];
    PathOfAppend(route, [gn, en]);
    PathOfPair(gn, en);
    PredictRoute();
    PredictText(gn, en);
  }

  lemma PredictRoute()
    ensures PathOf(["api", "v1", "products", "predict"]) == "/api/v1/products/predict"
  {
    PathOfFour("api", "v1", "products", "predict");
    assert "/" + "api" == "/api";
    assert "/api" + "/" + "v1" == "/api/v1";
    assert "/api/v1" + "/" + "products" == "/api/v1/products";
    assert "/api/v1/products" + "/" + "predict" == "/api/v1/products/predict";
  }

  lemma PredictText(gn: string, en: string)
    ensures "/api/v1/products/predict" + ("/" + gn + "/" + en) + ("?" + "days" + "=")
      == "/api/v1/products/predict/" + gn + "/" + en + "?days="
  {
  }

  lemma TargetSeparator()
    ensures "&" + "target" + "=" == "&target="
  {
  }

  lemma HealthUrlTemplate(base: string)
    ensures Url(base, Health) == base + "/health"
  {
    PathOfOne("health");
  }

  /** The product prediction URL is the template
      `{base}/api/v1/products/predict/producto/{encodeURIComponent(name)}?days={days}&target={target}`. */
  lemma PredictProductUrlTemplate(base: string, name: string, days: int, target: Target)
    ensures Url(base, PredictProduct(name, days, target))
      == base + ("/api/v1/products/predict/producto/" + EncodeURIComponent(name) + "?days=")
         + IntToString(days) + "&target=" + TargetName(target)
  {
    var call := PredictProduct(name, days, target);
    var en := EncodeURIComponent(name);
    var prefix := "/api/v1/products/predict/producto/" + en + "?days=";
    assert PathOf(Segments(call)) + ("?" + "days" + "=") == prefix by {
      ProductPrefix(en);
    }
    TwoParamUrl(base, call, "days", IntToString(days), "target", TargetName(target), prefix);
    TargetSeparator();
  }

  lemma ProductPrefix(en: string)
    ensures PathOf(["api", "v1", "products", "predict", "producto", en]) + ("?" + "days" + "=")
      == "/api/v1/products/predict/producto/" + en + "?days="
  {
    var route := ["api", "v1", "products", "predict", "producto"];
    assert route + [en] == ["api", "v1", "products", "predict", "producto", en];
    PathOfAppend(route, [en]);
    PathOfOne(en);
    ProductRoute();
    ProductText(en);
  }

  lemma ProductRoute()
    ensures PathOf(["api", "v1", "products", "predict", "producto"]) == "/api/v1/products/predict/producto"
  {
    PathOfFive("api", "v1", "products", "predict", "producto");
    assert "/" + "api" == "/api";
    assert "/api" + "/" + "v1" == "/api/v1";
    assert "/api/v1" + "/" + "products" == "/api/v1/products";
    assert "/api/v1/products" + "/" + "predict" == "/api/v1/products/predict";
    assert "/api/v1/products/predict" + "/" + "producto" == "/api/v1/products/predict/producto";
  }

  lemma ProductText(en: string)
    ensures "/api/v1/products/predict/producto" + ("/" + en) + ("?" + "days" + "=")
      == "/api/v1/products/predict/producto/" + en + "?days="
  {
  }

  /** The demand summary URL is `{base}/api/v1/products/demand/summary?days={days}`. */
  lemma DemandSummaryUrlTemplate(base: string, days: int)
    ensures Url(base, GetDemandSummary(days)) == base + "/api/v1/products/demand/summary?days=" + IntToString(days)
  {
    var call := GetDemandSummary(days);
    assert PathOf(Segments(call)) + ("?" + "days" + "=") == "/api/v1/products/demand/summary?days=" by {
      SummaryPrefix();
    }
    OneParamUrl(base, call, "days", IntToString(days), "/api/v1/products/demand/summary?days=");
  }

  lemma SummaryPrefix()
    ensures PathOf(["api", "v1", "products", "demand", "summary"]) + ("?" + "days" + "=")
      == "/api/v1/products/demand/summary?days="
  {
    PathOfFive("api", "v1", "products", "demand", "summary");
    assert "/" + "api" == "/api";
    assert "/api" + "/" + "v1" == "/api/v1";
    assert "/api/v1" + "/" + "products" == "/api/v1/products";
    assert "/api/v1/products" + "/" + "demand" == "/api/v1/products/demand";
    assert "/api/v1/products/demand" + "/" + "summary" == "/api/v1/products/demand/summary";
    assert "?" + "days" + "=" == "?days=";
  }

  /** The demand by category URL is `{base}/api/v1/products/demand/by-category?days={days}`. */
  lemma DemandByCategoryUrlTemplate(base: string, days: int)
    ensures Url(base, GetDemandByCategory(days)) == base + "/api/v1/products/demand/by-category?days=" + IntToString(days)
  {
    var call := GetDemandByCategory(days);
    assert PathOf(Segments(call)) + ("?" + "days" + "=") == "/api/v1/products/demand/by-category?days=" by {
      CategoryPrefix();
    }
    OneParamUrl(base, call, "days", IntToString(days), "/api/v1/products/demand/by-category?days=");
  }

  lemma CategoryPrefix()
    ensures PathOf(["api", "v1", "products", "demand", "by-category"]) + ("?" + "days" + "=")
      == "/api/v1/products/demand/by-category?days="
  {
    PathOfFive("api", "v1", "products", "demand", "by-category");
    assert "/" + "api" == "/api";
    assert "/api" + "/" + "v1" == "/api/v1";
    assert "/api/v1" + "/" + "products" == "/api/v1/products";
    assert "/api/v1/products" + "/" + "demand" == "/api/v1/products/demand";
    assert "/api/v1/products/demand" + "/" + "by-category" == "/api/v1/products/demand/by-category";
    assert "?" + "days" + "=" == "?days=";
  }

  /** The demand by brand URL is `{base}/api/v1/products/demand/by-brand?days={days}&top={top}`. */
  lemma DemandByBrandUrlTemplate(base: string, days: int, top: int)
    ensures Url(base, GetDemandByBrand(days, top))
      == base + "/api/v1/products/demand/by-brand?days=" + IntToString(days) + "&top=" + IntToString(top)
  {
    var call := GetDemandByBrand(days, top);
    assert PathOf(Segments(call)) + ("?" + "days" + "=") == "/api/v1/products/demand/by-brand?days=" by {
      BrandPrefix();
    }
    TwoParamUrl(base, call, "days", IntToString(days), "top", IntToString(top), "/api/v1/products/demand/by-brand?days=");
    TopSeparator();
  }

  lemma BrandPrefix()
    ensures PathOf(["api", "v1", "products", "demand", "by-brand"]) + ("?" + "days" + "=")
      == "/api/v1/products/demand/by-brand?days="
  {
    PathOfFive("api", "v1", "products", "demand", "by-brand");
    assert "/" + "api" == "/api";
    assert "/api" + "/" + "v1" == "/api/v1";
    assert "/api/v1" + "/" + "products" == "/api/v1/products";
    assert "/api/v1/products" + "/" + "demand" == "/api/v1/products/demand";
    assert "/api/v1/products/demand" + "/" + "by-brand" == "/api/v1/products/demand/by-brand";
    assert "?" + "days" + "=" == "?days=";
  }

  lemma TopSeparator()
    ensures "&" + "top" + "=" == "&top="
  {
  }

  /** The stock alerts URL is `{base}/api/v1/stock/alerts/all?days={days}`. */
  lemma StockAlertsUrlTemplate(base: string, days: int)
    ensures Url(base, GetStockAlerts(days)) == base + "/api/v1/stock/alerts/all?days=" + IntToString(days)
  {
    var call := GetStockAlerts(days);
    assert PathOf(Segments(call)) + ("?" + "days" + "=") == "/api/v1/stock/alerts/all?days=" by {
      AlertsPrefix();
    }
    OneParamUrl(base, call, "days", IntToString(days), "/api/v1/stock/alerts/all?days=");
  }

  lemma AlertsPrefix()
    ensures PathOf(["api", "v1", "stock", "alerts", "all"]) + ("?" + "days" + "=")
      == "/api/v1/stock/alerts/all?days="
  {
    PathOfFive("api", "v1", "stock", "alerts", "all");
    assert "/" + "api" == "/api";
    assert "/api" + "/" + "v1" == "/api/v1";
    assert "/api/v1" + "/" + "stock" == "/api/v1/stock";
    assert "/api/v1/stock" + "/" + "alerts" == "/api/v1/stock/alerts";
    assert "/api/v1/stock/alerts" + "/" + "all" == "/api/v1/stock/alerts/all";
    assert "?" + "days" + "=" == "?days=";
  }

  /** The purchase order URL is `{base}/api/v1/stock/purchase-order?days={days}`. */
  lemma PurchaseOrderUrlTemplate(base: string, days: int)
    ensures Url(base, GetSuggestedPurchaseOrder(days)) == base + "/api/v1/stock/purchase-order?days=" + IntToString(days)
  {
    var call := GetSuggestedPurchaseOrder(days);
    assert PathOf(Segments(call)) + ("?" + "days" + "=") == "/api/v1/stock/purchase-order?days=" by {
      OrderPrefix();
    }
    OneParamUrl(base, call, "days", IntToString(days), "/api/v1/stock/purchase-order?days=");
  }

  lemma OrderPrefix()
    ensures PathOf(["api", "v1", "stock", "purchase-order"]) + ("?" + "days" + "=")
      == "/api/v1/stock/purchase-order?days="
  {
    PathOfFour("api", "v1", "stock", "purchase-order");
    assert "/" + "api" == "/api";
    assert "/api" + "/" + "v1" == "/api/v1";
    assert "/api/v1" + "/" + "stock" == "/api/v1/stock";
    assert "/api/v1/stock" + "/" + "purchase-order" == "/api/v1/stock/purchase-order";
    assert "?" + "days" + "=" == "?days=";
  }

  /** The current stock URL keeps its trailing slash and has no query. */
  lemma CurrentStockUrlTemplate(base: string)
    ensures Url(base, GetCurrentStock) == base + "/api/v1/stock/"
  {
    PathOfFour("api", "v1", "stock", "");
  }

  /** The available entities URL is `{base}/api/v1/products/available/{g}`. */
  lemma AvailableEntitiesUrlTemplate(base: string, g: Granularity)
    ensures Url(base, GetAvailableEntities(g)) == base + "/api/v1/products/available/" + GranularityName(g)
  {
    var gn := GranularityName(g);
    assert PathOf(Segments(GetAvailableEntities(g))) == "/api/v1/products/available/" + gn by {
      EntitiesPath(gn);
    }
  }

  lemma EntitiesPath(gn: string)
    ensures PathOf(["api", "v1", "products", "available", gn]) == "/api/v1/products/available/" + gn
  {
    PathOfFive("api", "v1", "products", "available", gn);
  }

  /** The product shortcut requests exactly the URL of a product-level
      prediction. */
  lemma PredictProductIsPredict(base: string, name: string, days: int, target: Target)
    ensures Url(base, PredictProduct(name, days, target)) == Url(base, Predict(Producto, name, days, target))
  {
  }

  /** Left out, the optional arguments of `predict` ask for 30 days of the
      kilos target. */
  lemma DefaultPredictUrl(base: string, g: Granularity, name: string)
    ensures Url(base, PredictWith(g, name, None, None))
      == base + ("/api/v1/products/predict/" + GranularityName(g) + "/" + EncodeURIComponent(name)) + "?days=30&target=kilos"
  {
    var p := "/api/v1/products/predict/" + GranularityName(g) + "/" + EncodeURIComponent(name);
    var c := PredictWith(g, name, None, None);
    assert c == Predict(g, name, 30, Kilos);
    DefaultNumerals();
    PredictUrlTemplate(base, g, name, 30, Kilos);
    assert Url(base, c) == base + (p + "?days=") + "30" + "&target=" + "kilos";
    DefaultPredictQuery(base, p);
  }

  /** The prediction query with the default period and target, regrouped. */
  lemma DefaultPredictQuery(base: string, p: string)
    ensures base + (p + "?days=") + "30" + "&target=" + "kilos" == base + p + "?days=30&target=kilos"
  {
    TwoParamTail(base, p, "?days=", "30", "&target=", "kilos");
    assert "?days=" + "30" + "&target=" + "kilos" == "?days=30&target=kilos";
  }

  /** Left out, the optional arguments of `predictProduct` ask for 30 days
      of the kilos target. */
  lemma DefaultPredictProductUrl(base: string, name: string)
    ensures Url(base, PredictProductWith(name, None, None))
      == base + ("/api/v1/products/predict/producto/" + EncodeURIComponent(name)) + "?days=30&target=kilos"
  {
    var p := "/api/v1/products/predict/producto/" + EncodeURIComponent(name);
    var c := PredictProductWith(name, None, None);
    assert c == PredictProduct(name, 30, Kilos);
    DefaultNumerals();
    PredictProductUrlTemplate(base, name, 30, Kilos);
    assert Url(base, c) == base + (p + "?days=") + "30" + "&target=" + "kilos";
    DefaultPredictQuery(base, p);
  }

  /** `base + (p + a) + b + c + d == base + p + (a + b + c + d)`. */
  lemma TwoParamTail(base: string, p: string, a: string, b: string, c: string, d: string)
    ensures base + (p + a) + b + c + d == base + p + (a + b + c + d)
  {
  }

  /** Left out, the period of the demand summary and of the demand by
      category is 30 days. */
  lemma DefaultDemandUrls(base: string)
    ensures Url(base, DemandSummaryWith(None)) == base + "/api/v1/products/demand/summary?days=30"
    ensures Url(base, DemandByCategoryWith(None)) == base + "/api/v1/products/demand/by-category?days=30"
  {
    DefaultNumerals();
    DemandSummaryUrlTemplate(base, 30);
    DemandByCategoryUrlTemplate(base, 30);
  }

  /** Left out, the brand ranking covers 30 days and keeps the top 20. */
  lemma DefaultDemandByBrandUrl(base: string)
    ensures Url(base, DemandByBrandWith(None, None)) == base + "/api/v1/products/demand/by-brand?days=30&top=20"
  {
    var c := DemandByBrandWith(None, None);
    assert c == GetDemandByBrand(30, 20);
    DefaultNumerals();
    DemandByBrandUrlTemplate(base, 30, 20);
    assert Url(base, c) == base + "/api/v1/products/demand/by-brand?days=" + "30" + "&top=" + "20";
    DefaultBrandQuery(base);
  }

  /** The brand ranking's query with the default period and count, regrouped. */
  lemma DefaultBrandQuery(base: string)
    ensures base + "/api/v1/products/demand/by-brand?days=" + "30" + "&top=" + "20"
      == base + "/api/v1/products/demand/by-brand?days=30&top=20"
  {
    assert "/api/v1/products/demand/by-brand?days=" + "30" + "&top=" + "20"
      == "/api/v1/products/demand/by-brand?days=30&top=20";
  }

  /** Left out, the period of the stock calls is 30 days. */
  lemma DefaultStockUrls(base: string)
    ensures Url(base, StockAlertsWith(None)) == base + "/api/v1/stock/alerts/all?days=30"
    ensures Url(base, PurchaseOrderWith(None)) == base + "/api/v1/stock/purchase-order?days=30"
  {
    DefaultNumerals();
    StockAlertsUrlTemplate(base, 30);
    PurchaseOrderUrlTemplate(base, 30);
  }

  // ---------------------------------------------------------------------------
  // fetching and error normalisation
  // ---------------------------------------------------------------------------

  /** The body of an error response, as the client reads it: not JSON at
      all, or JSON whose `message` field is absent or a string. */
  datatype ErrorBody = Unparseable | JsonBody(message: Option<string>)

  /** The message of the error a failed request raises: the body's message
      when it is a non-empty string; the status text when the body is not
      JSON and the status text is non-empty; otherwise a message naming the
      status code. It is never empty. */
  function ErrorMessage(status: int, statusText: string, body: ErrorBody): (m: string)
    ensures |m| > 0
    ensures body.JsonBody? && body.message.Some? && body.message.value != "" ==> m == body.message.value
    ensures body.Unparseable? && statusText != "" ==> m == statusText
    ensures (body.JsonBody? && body.message.GetOr("") == "") || (body.Unparseable? && statusText == "")
      ==> m == "Request failed with status " + IntToString(status)
  {
    var message := match body
      case Unparseable => statusText
      case JsonBody(msg) => msg.GetOr("");
    if message != "" then message else "Request failed with status " + IntToString(status)
  }

  /** What the HTTP response's body turned out to be. */
  datatype Body<J> = NotJson | Json(value: J)

  datatype HttpResponse<J> = HttpResponse(ok: bool, status: int, statusText: string, body: Body<J>)

  /** The `message` field read off a JSON value: reading it off `null`
      throws; off any other value it is absent or a string (a number, a
      string or an array has no `message` field at all). */
  datatype MessageField = NullValue | Field(message: Option<string>)

  /** Why a call failed: a non-2xx status (with the normalised message), a
      non-2xx status whose JSON body is `null`, so that reading its `message`
      throws a TypeError in place of the normalised error, a 2xx body that is
      not JSON, or a JSON body the response schema rejects. */
  datatype ApiError = RequestFailed(message: string) | NullErrorBody | MalformedBody | SchemaMismatch

  /** The error a non-2xx response raises: the TypeError of a `null` body;
      otherwise the body's non-empty message, or the status text when the
      body is not JSON, or the message naming the status code. */
  function StatusError<J>(res: HttpResponse<J>, messageOf: J -> MessageField): (e: ApiError)
    ensures e == NullErrorBody <==> res.body.Json? && messageOf(res.body.value).NullValue?
    ensures e != NullErrorBody ==> e.RequestFailed? && |e.message| > 0
    ensures res.body.Json? && messageOf(res.body.value).Field? && messageOf(res.body.value).message.GetOr("") != ""
      ==> e == RequestFailed(messageOf(res.body.value).message.value)
    ensures res.body.NotJson? && res.statusText != "" ==> e == RequestFailed(res.statusText)
    ensures (res.body.NotJson? && res.statusText == "")
         || (res.body.Json? && messageOf(res.body.value) in {Field(None), Field(Some(""))})
      ==> e == RequestFailed("Request failed with status " + IntToString(res.status))
  {
    match res.body
    case NotJson => RequestFailed(ErrorMessage(res.status, res.statusText, Unparseable))
    case Json(v) =>
      match messageOf(v)
      case NullValue => NullErrorBody
      case Field(m) => RequestFailed(ErrorMessage(res.status, res.statusText, JsonBody(m)))
  }

  /** One fetch, with no retry: a non-2xx response fails with its status
      error; a 2xx response that is not JSON is malformed; a 2xx JSON body
      yields the schema's value if the schema accepts it. */
  function FetchAndValidate<J, T>(res: HttpResponse<J>, messageOf: J -> MessageField, schema: J -> Option<T>)
    : (r: Result<T, ApiError>)
    ensures r.Success? <==> res.ok && res.body.Json? && schema(res.body.value).Some?
    ensures r.Success? ==> r.value == schema(res.body.value).value
    ensures !res.ok ==> r == Failure(StatusError(res, messageOf))
    ensures res.ok && res.body.NotJson? ==> r == Failure(MalformedBody)
    ensures res.ok && res.body.Json? && schema(res.body.value).None? ==> r == Failure(SchemaMismatch)
  {
    if !res.ok then Failure(StatusError(res, messageOf))
    else
      match res.body
      case NotJson => Failure(MalformedBody)
      case Json(v) =>
        match schema(v)
        case None => Failure(SchemaMismatch)
        case Some(t) => Success(t)
  }

  /** The validated data of a call, one case per response schema. */
  datatype ClientData =
    | PredictionData(prediction: PredictionResponse)
    | AlertsData(alerts: seq<StockAlert>)
    | DemandSummaryData(summary: DemandSummary)
    | DemandByCategoryData(byCategory: DemandByCategory)
    | DemandByBrandData(byBrand: DemandByBrand)
    | PurchaseOrderData(order: PurchaseOrder)
    | StockData(stock: seq<StockItem>)
    | EntitiesData(entities: AvailableEntities)

  /** `data` has the shape of `call`'s response schema. */
  predicate Answers(call: Call, data: ClientData) {
    match call
    case Health => false
    case Predict(_, _, _, _) => data.PredictionData?
    case PredictProduct(_, _, _) => data.PredictionData?
    case GetDemandSummary(_) => data.DemandSummaryData?
    case GetDemandByCategory(_) => data.DemandByCategoryData?
    case GetDemandByBrand(_, _) => data.DemandByBrandData?
    case GetStockAlerts(_) => data.AlertsData?
    case GetSuggestedPurchaseOrder(_) => data.PurchaseOrderData?
    case GetCurrentStock => data.StockData?
    case GetAvailableEntities(_) => data.EntitiesData?
  }
}

=== FILE: chat_interface.dfy ===
/** The chat screen's decisions: when the assistant counts as busy, when a
    typed message or a suggestion is sent, how an uploaded file is
    classified and routed, and the message that reports the upload. */
module ChatInterface {
  import opened Wrappers
  import opened Text
  import UploadRoute

  /** The chat hook's status. */
  datatype Status = Ready | Submitted | Streaming | Errored

  predicate IsLoading(status: Status) {
    status == Submitted || status == Streaming
  }

  /** What a submit does: the text sent, if any, and the input box afterwards. */
  datatype SubmitEffect = SubmitEffect(sent: Option<string>, input: string)

  /** Submitting sends the text as typed, untrimmed, and clears the box,
      unless the text is only whitespace or the assistant is busy; then
      nothing changes. */
  function Submit(input: string, status: Status): (e: SubmitEffect)
    ensures e.sent.Some? <==> !AllWhitespace(input) && !IsLoading(status)
    ensures e.sent.Some? ==> e.sent.value == input && e.input == ""
    ensures e.sent.None? ==> e.input == input
  {
    TrimEmptyIffAllWhitespace(input);
    if Trim(input) == [] || IsLoading(status) then SubmitEffect(None, input)
    else SubmitEffect(Some(input), "")
  }

  /** A suggestion is sent as it is, unless the assistant is busy. */
  function SuggestionClick(suggestion: string, status: Status): (sent: Option<string>)
    ensures sent.Some? <==> !IsLoading(status)
    ensures sent.Some? ==> sent.value == suggestion
  {
    if IsLoading(status) then None else Some(suggestion)
  }

  /** Whatever is sent is never blank and never sent while busy. */
  lemma SentIsNeverBlank(input: string, status: Status)
    ensures Submit(input, status).sent.Some? ==> Trim(Submit(input, status).sent.value) != []
    ensures IsLoading(status) ==> Submit(input, status).sent.None? && SuggestionClick(input, status).None?
  {
    TrimEmptyIffAllWhitespace(input);
  }

  // ---------------------------------------------------------------------------
  // file upload
  // ---------------------------------------------------------------------------

  /** A file is an inventory file when its lower-cased name contains
      "stock" or "inventario". */
  predicate IsStockFile(fileName: string): (b: bool)
    ensures Contains(fileName, "stock") ==> b
    ensures Contains(fileName, "inventario") ==> b
  {
    LowerKeepsContained(fileName, "stock");
    LowerKeepsContained(fileName, "inventario");
    Contains(ToLower(fileName), "stock") || Contains(ToLower(fileName), "inventario")
  }

  /** A word of lower-case letters that the name contains survives
      lower-casing the name. */
  lemma LowerKeepsContained(s: string, word: string)
    requires forall k :: 0 <= k < |word| ==> 'a' <= word[k] <= 'z'
    ensures Contains(s, word) ==> Contains(ToLower(s), word)
  {
    if Contains(s, word) {
      var i :| 0 <= i <= |s| - |word| && OccursAt(s, word, i);
      assert s == s[..i] + word + s[i + |word|..];
      LowerKeepsLowerWord(s[..i], word, s[i + |word|..]);
    }
  }

  /** The import type the form announces. */
  function ImportType(fileName: string): (t: string)
    ensures t == "stock" <==> IsStockFile(fileName)
    ensures t == "sales" <==> !IsStockFile(fileName)
  {
    if IsStockFile(fileName) then "stock" else "sales"
  }

  /** The form the chat posts: the file, then its import type. */
  function UploadForm(fileName: string): (f: UploadRoute.Form)
    ensures UploadRoute.Get(f, "file") == Some(UploadRoute.FileValue(fileName))
    ensures UploadRoute.Get(f, "type") == Some(UploadRoute.TextValue(ImportType(fileName)))
  {
    var f := [("file", UploadRoute.FileValue(fileName)), ("type", UploadRoute.TextValue(ImportType(fileName)))];
    assert f[1..] == [("type", UploadRoute.TextValue(ImportType(fileName)))];
    f
  }

  /** The classification ignores case. */
  lemma StockFileIgnoresCase(fileName: string)
    ensures IsStockFile(ToLower(fileName)) == IsStockFile(fileName)
  {
    ToLowerIdempotent(fileName);
  }

  /** A lower-case word already in the name, at whatever position, makes it
      an inventory file. */
  lemma NamedStockIsStock(before: string, after: string)
    ensures IsStockFile(before + "stock" + after)
    ensures IsStockFile(before + "inventario" + after)
  {
    LowerKeepsLowerWord(before, "stock", after);
    LowerKeepsLowerWord(before, "inventario", after);
  }

  /** Lower-casing leaves a word of lower-case letters in place. */
  lemma LowerKeepsLowerWord(before: string, word: string, after: string)
    requires forall k :: 0 <= k < |word| ==> 'a' <= word[k] <= 'z'
    ensures Contains(ToLower(before + word + after), word)
  {
    var s := before + word + after;
    var l := ToLower(s);
    forall k | 0 <= k < |word|
      ensures l[|before| + k] == word[k]
    {
      assert s[|before| + k] == word[k];
    }
    assert l[|before|..|before| + |word|] == word;
    assert OccursAt(l, word, |before|);
  }

  /** The chat's form reaches the backend route its name calls for: the
      inventory import for a stock file, the sales upload for any other. */
  lemma UploadReachesMatchingRoute(base: string, fileName: string)
    ensures UploadRoute.Route(base, UploadForm(fileName))
      == UploadRoute.Forward(
           base + (if IsStockFile(fileName) then UploadRoute.StockImportPath else UploadRoute.SalesUploadPath),
           [("file", UploadRoute.FileValue(fileName))])
  {
    var form := UploadForm(fileName);
    assert UploadRoute.Get(form, "file") == Some(UploadRoute.FileValue(fileName));
    assert UploadRoute.Get(form, "type") == Some(UploadRoute.TextValue(ImportType(fileName))) by {
      assert form[1..] == [("type", UploadRoute.TextValue(ImportType(fileName)))];
    }
  }

  /** The outcome text: the reply's message when it is non-empty, otherwise
      a fixed text for success or for failure. */
  function ResultText(message: Option<string>, success: bool): (t: string)
    ensures |t| > 0
    ensures message.Some? && message.value != "" ==> t == message.value
    ensures message.GetOr("") == "" ==> (t == "Importación exitosa" <==> success)
    ensures message.GetOr("") == "" ==> (t == "Error en la importación" <==> !success)
  {
    if message.Some? && message.value != "" then message.value
    else if success then "Importación exitosa"
    else "Error en la importación"
  }

  /** The reply of the upload endpoint as the chat reads it. */
  datatype UploadReply = UploadReply(message: Option<string>, success: bool)

  const UploadReportStart := "He subido el archivo \""

  /** The kind word of the report: "inventario" for a stock file, "ventas"
      for any other. */
  function KindWord(fileName: string): string {
    if IsStockFile(fileName) then "inventario" else "ventas"
  }

  /** The message the chat sends after an upload: the report when a reply
      could be read, the connection-error text when the request or its
      reading failed. The report opens with the file's name, and it reads
      back, for that name, as the file's kind and the outcome text, which
      closes it. */
  function UploadMessage(fileName: string, reply: Option<UploadReply>): (m: string)
    ensures reply.Some? ==> UploadReportStart + fileName <= m
    ensures reply.Some? ==>
      ReadReport(fileName, m) == Some(Report(IsStockFile(fileName), ResultText(reply.value.message, reply.value.success)))
    ensures reply.Some? ==> var t := ResultText(reply.value.message, reply.value.success);
      |t| <= |m| && m[|m| - |t|..] == t
    ensures reply.None? ==> m == "Intenté subir \"" + fileName + "\" pero hubo un error de conexión."
  {
    match reply
    case Some(r) =>
      var t := ResultText(r.message, r.success);
      ReportReadsBack(fileName, t);
      ReportHead(fileName) + (KindTail(fileName) + t)
    case None => "Intenté subir \"" + fileName + "\" pero hubo un error de conexión."
  }

  /** What a report says: whether the file was an inventory file, and the
      outcome text. */
  datatype Report = Report(inventory: bool, result: string)

  const StockKindTail := "inventario). Resultado: "
  const SalesKindTail := "ventas). Resultado: "

  /** Reads a report about `fileName` back: the kind after the file's name,
      then the outcome text to the end; nothing for any other text. */
  function ReadReport(fileName: string, m: string): Option<Report> {
    var head := ReportHead(fileName);
    if !(head <= m) then None
    else
      var rest := m[|head|..];
      if StockKindTail <= rest then Some(Report(true, rest[|StockKindTail|..]))
      else if SalesKindTail <= rest then Some(Report(false, rest[|SalesKindTail|..]))
      else None
  }

  /** The report built from a name, its kind word and an outcome text opens
      with the name, reads back as the kind and the outcome, and ends with
      the outcome. */
  lemma ReportReadsBack(fileName: string, t: string)
    ensures var m := ReportHead(fileName) + (KindTail(fileName) + t);
      UploadReportStart + fileName <= m
      && ReadReport(fileName, m) == Some(Report(IsStockFile(fileName), t))
      && |t| <= |m| && m[|m| - |t|..] == t
  {
    var tail := KindTail(fileName);
    PrefixSplit(UploadReportStart + fileName, "\" (", tail + t);
    SuffixSplit(ReportHead(fileName), tail, t);
    ReadReportOf(fileName, IsStockFile(fileName), tail, t);
  }

  /** `a` opens `a + b + c`, and what follows it is `b + c`. */
  lemma PrefixSplit(a: string, b: string, c: string)
    ensures a <= (a + b) + c && ((a + b) + c)[|a|..] == b + c
  {
  }

  /** `c` closes `a + (b + c)`. */
  lemma SuffixSplit(a: string, b: string, c: string)
    ensures |c| <= |a + (b + c)| && (a + (b + c))[|a + (b + c)| - |c|..] == c
  {
  }

  /** Reading a report back once it is split after the name's quote. */
  lemma ReadReportOf(fileName: string, inventory: bool, tail: string, t: string)
    requires tail == if inventory then StockKindTail else SalesKindTail
    ensures ReadReport(fileName, ReportHead(fileName) + (tail + t)) == Some(Report(inventory, t))
  {
    var head := ReportHead(fileName);
    SplitAt(head, tail + t);
    SplitAt(tail, t);
    if !inventory {
      OtherKindTailAbsent(tail, t);
    }
  }

  /** The report up to the kind word: the opening, the name and its closing quote. */
  function ReportHead(fileName: string): string {
    UploadReportStart + fileName + "\" ("
  }

  /** The text between the name's closing quote and the outcome. */
  function KindTail(fileName: string): (tail: string)
    ensures tail == if IsStockFile(fileName) then StockKindTail else SalesKindTail
    ensures tail == KindWord(fileName) + "). Resultado: "
  {
    KindWord(fileName) + "). Resultado: "
  }

  lemma SplitAt(a: string, b: string)
    ensures a <= a + b && (a + b)[|a|..] == b && (a + b)[..|a|] == a
  {
  }

  /** A report about a sales file does not read as one about an inventory file. */
  lemma OtherKindTailAbsent(tail: string, t: string)
    requires tail == SalesKindTail
    ensures !(StockKindTail <= tail + t)
  {
    assert (tail + t)[0] == 'v';
  }

  /** For a fixed file name equal reports say the same outcome: the report
      loses nothing of the outcome text. */
  lemma ReportDeterminesOutcome(fileName: string, r1: UploadReply, r2: UploadReply)
    requires UploadMessage(fileName, Some(r1)) == UploadMessage(fileName, Some(r2))
    ensures ResultText(r1.message, r1.success) == ResultText(r2.message, r2.success)
  {
  }

  /** A report and a connection error never read alike: the report starts
      "He", the error "In". */
  lemma ReportIsNotConnectionError(fileName: string, reply: UploadReply)
    ensures UploadMessage(fileName, Some(reply)) != UploadMessage(fileName, None)
  {
    assert UploadMessage(fileName, Some(reply))[0] == 'H';
    assert UploadMessage(fileName, None)[0] == 'I';
  }

  // ---------------------------------------------------------------------------
  // typing indicator
  // ---------------------------------------------------------------------------

  datatype Role = User | Assistant | System

  /** The typing indicator shows while the assistant is busy answering the
      user's last message. */
  predicate ShowTyping(status: Status, roles: seq<Role>) {
    IsLoading(status) && |roles| > 0 && roles[|roles| - 1] == User
  }

  /** Once the assistant's reply is appended the indicator goes away; a new
      user message brings it back while busy. */
  lemma TypingFollowsLastMessage(status: Status, roles: seq<Role>)
    ensures !ShowTyping(status, roles + [Assistant])
    ensures ShowTyping(status, roles + [User]) <==> IsLoading(status)
  {
  }
}

=== FILE: chat_types.dfy ===
/** The tagged union of chat tool results: ten tags, each with the shape of
    its payload. */
module ChatTypes {
  import opened Wrappers
  import opened Domain

  datatype Tag =
    | PredictionTag
    | StockAlertsTag
    | DemandSummaryTag
    | DemandByCategoryTag
    | DemandByBrandTag
    | PurchaseOrderTag
    | CurrentStockTag
    | AvailableEntitiesTag
    | UploadResultTag
    | ErrorTag

  /** The `type` text each tag travels as. */
  function TagName(t: Tag): string {
    match t
    case PredictionTag => "prediction"
    case StockAlertsTag => "stock_alerts"
    case DemandSummaryTag => "demand_summary"
    case DemandByCategoryTag => "demand_by_category"
    case DemandByBrandTag => "demand_by_brand"
    case PurchaseOrderTag => "purchase_order"
    case CurrentStockTag => "current_stock"
    case AvailableEntitiesTag => "available_entities"
    case UploadResultTag => "upload_result"
    case ErrorTag => "error"
  }

  /** Reads a `type` text; None for any text that is not one of the ten. */
  function ParseTag(s: string): (r: Option<Tag>)
    ensures r.Some? ==> TagName(r.value) == s
  {
    match s
    case "prediction" => Some(PredictionTag)
    case "stock_alerts" => Some(StockAlertsTag)
    case "demand_summary" => Some(DemandSummaryTag)
    case "demand_by_category" => Some(DemandByCategoryTag)
    case "demand_by_brand" => Some(DemandByBrandTag)
    case "purchase_order" => Some(PurchaseOrderTag)
    case "current_stock" => Some(CurrentStockTag)
    case "available_entities" => Some(AvailableEntitiesTag)
    case "upload_result" => Some(UploadResultTag)
    case "error" => Some(ErrorTag)
    case _ => None
  }

  lemma TagRoundTrip(t: Tag)
    ensures ParseTag(TagName(t)) == Some(t)
  {
  }

  /** A tool result: the payload, whose case fixes the tag. */
  datatype ToolResult =
    | Prediction(prediction: PredictionResponse)
    | StockAlerts(alerts: seq<StockAlert>)
    | DemandSummaryResult(summary: DemandSummary)
    | DemandByCategoryResult(byCategory: DemandByCategory)
    | DemandByBrandResult(byBrand: DemandByBrand)
    | PurchaseOrderResult(order: PurchaseOrder)
    | CurrentStock(stock: seq<StockItem>)
    | AvailableEntitiesResult(entities: AvailableEntities)
    | UploadResult(success: bool, message: string)
    | ErrorResult(message: string)

  function TagOf(r: ToolResult): Tag {
    match r
    case Prediction(_) => PredictionTag
    case StockAlerts(_) => StockAlertsTag
    case DemandSummaryResult(_) => DemandSummaryTag
    case DemandByCategoryResult(_) => DemandByCategoryTag
    case DemandByBrandResult(_) => DemandByBrandTag
    case PurchaseOrderResult(_) => PurchaseOrderTag
    case CurrentStock(_) => CurrentStockTag
    case AvailableEntitiesResult(_) => AvailableEntitiesTag
    case UploadResult(_, _) => UploadResultTag
    case ErrorResult(_) => ErrorTag
  }
}

=== FILE: csv.dfy ===
/** The CSV text both export buttons build: each row's fields joined with
    ",", the rows joined with "\n", with no quoting or escaping. */
module Csv {
  import opened Delimited

  /** `rows.map(row => row.join(",")).join("\n")`. */
  function Encode(rows: seq<seq<string>>): string {
    Join(Lines(rows), '\n')
  }

  function Lines(rows: seq<seq<string>>): (ls: seq<string>)
    ensures |ls| == |rows|
    ensures forall i :: 0 <= i < |rows| ==> ls[i] == Join(rows[i], ',')
  {
    if rows == [] then [] else [Join(rows[0], ',')] + Lines(rows[1..])
  }

  /** A single row of three fields is one line, the fields joined with commas. */
  lemma EncodeOneRowOfThree(a: string, b: string, c: string)
    ensures Encode([[a, b, c]]) == a + "," + b + "," + c
  {
    assert Lines([[a, b, c]]) == [Join([a, b, c], ',')];
    assert [a, b, c][1..] == [b, c] && [b, c][1..] == [c];
    assert Join([b, c], ',') == b + "," + c;
    assert Join([a, b, c], ',') == a + "," + (b + "," + c);
  }

  /** Reads CSV text back as lines of comma-separated fields. */
  function Decode(text: string): seq<seq<string>> {
    SplitEach(Split(text, '\n'))
  }

  function SplitEach(lines: seq<string>): (rows: seq<seq<string>>)
    ensures |rows| == |lines|
    ensures forall i :: 0 <= i < |lines| ==> rows[i] == Split(lines[i], ',')
  {
    if lines == [] then [] else [Split(lines[0], ',')] + SplitEach(lines[1..])
  }

  /** A field that survives the unquoted format: no comma and no line break. */
  predicate PlainField(f: string) {
    ',' !in f && '\n' !in f
  }

  /** Every row has at least one field and every field is plain. */
  predicate PlainRows(rows: seq<seq<string>>) {
    forall i :: 0 <= i < |rows| ==>
      |rows[i]| >= 1 && forall j :: 0 <= j < |rows[i]| ==> PlainField(rows[i][j])
  }

  /** When no field holds a line break, the text has one line per row and
      each line reads as its row's fields joined with commas. */
  lemma DecodeByLine(rows: seq<seq<string>>)
    requires |rows| >= 1
    requires forall i :: 0 <= i < |rows| ==> FreeOf(rows[i], '\n')
    ensures |Decode(Encode(rows))| == |rows|
    ensures forall i :: 0 <= i < |rows| ==> Decode(Encode(rows))[i] == Split(Join(rows[i], ','), ',')
  {
    var ls := Lines(rows);
    forall i | 0 <= i < |ls|
      ensures '\n' !in ls[i]
    {
      JoinAvoids(rows[i], ',', '\n');
    }
    SplitJoin(ls, '\n');
  }

  /** With plain fields the text has one line per row and each line has
      exactly its row's fields: decoding recovers the rows. */
  lemma DecodeEncode(rows: seq<seq<string>>)
    requires |rows| >= 1 && PlainRows(rows)
    ensures Decode(Encode(rows)) == rows
  {
    DecodeByLine(rows);
    var back := Decode(Encode(rows));
    forall i | 0 <= i < |rows|
      ensures back[i] == rows[i]
    {
      SplitJoin(rows[i], ',');
    }
  }

  /** Nothing escapes a comma: a field holding one is read back as two
      fields, so its line gains a column. */
  lemma FieldWithComma(a: string, b: string, rest: seq<string>)
    requires ',' !in a && ',' !in b && FreeOf(rest, ',')
    ensures Split(Join([a + "," + b] + rest, ','), ',') == [a, b] + rest
  {
    var parts := [a, b] + rest;
    assert Join(parts, ',') == a + [','] + Join([b] + rest, ',') by {
      assert parts[1..] == [b] + rest;
    }
    if rest != [] {
      assert ([b] + rest)[1..] == rest;
      assert ([a + "," + b] + rest)[1..] == rest;
    }
    assert Join([a + "," + b] + rest, ',') == Join(parts, ',');
    SplitJoin(parts, ',');
  }
}

=== FILE: delimited.dfy ===
/** `Array.prototype.join(sep)` over strings and `String.prototype.split(sep)`
    for a one-character separator, and the round trip between them. */
module Delimited {

  /** No part contains the separator. */
  predicate FreeOf(parts: seq<string>, sep: char) {
    forall i :: 0 <= i < |parts| ==> sep !in parts[i]
  }

  /** `parts.join(sep)`: the parts with one separator between neighbours;
      the empty array joins to the empty string. */
  function Join(parts: seq<string>, sep: char): string {
    if |parts| == 0 then ""
    else if |parts| == 1 then parts[0]
    else parts[0] + [sep] + Join(parts[1..], sep)
  }

  /** The index of the first `c` in `s`. */
  function FirstIndex(s: string, c: char): (i: nat)
    requires c in s
    ensures i < |s| && s[i] == c && c !in s[..i]
  {
    if s[0] == c then 0 else 1 + FirstIndex(s[1..], c)
  }

  /** `s.split(sep)`: the maximal separator-free pieces, in order; a string
      without the separator splits into itself alone (so "" gives [""]). */
  function Split(s: string, sep: char): (r: seq<string>)
    ensures |r| >= 1
    ensures FreeOf(r, sep)
    decreases |s|
  {
    if sep !in s then [s]
    else
      var i := FirstIndex(s, sep);
      [s[..i]] + Split(s[i + 1..], sep)
  }

  /** Joining puts a separator-free first part in front of the separator. */
  lemma FirstIndexOfJoin(a: string, sep: char, b: string)
    requires sep !in a
    ensures sep in a + [sep] + b
    ensures FirstIndex(a + [sep] + b, sep) == |a|
    decreases |a|
  {
    var s := a + [sep] + b;
    assert s[|a|] == sep;
    if a != [] {
      assert s[1..] == a[1..] + [sep] + b;
      FirstIndexOfJoin(a[1..], sep, b);
    }
  }

  /** A character that occurs in no part and is not the separator does not
      occur in the joined string. */
  lemma {:induction false} JoinAvoids(parts: seq<string>, sep: char, c: char)
    requires c != sep && FreeOf(parts, c)
    ensures c !in Join(parts, sep)
    decreases |parts|
  {
    if |parts| > 1 {
      JoinAvoids(parts[1..], sep, c);
    }
  }

  /** Splitting a join recovers the parts, provided the parts are free of the
      separator and there is at least one part. */
  lemma {:induction false} SplitJoin(parts: seq<string>, sep: char)
    requires |parts| >= 1 && FreeOf(parts, sep)
    ensures Split(Join(parts, sep), sep) == parts
    decreases |parts|
  {
    if |parts| > 1 {
      var rest := Join(parts[1..], sep);
      var s := parts[0] + [sep] + rest;
      FirstIndexOfJoin(parts[0], sep, rest);
      assert s[..|parts[0]|] == parts[0];
      assert s[|parts[0]| + 1..] == rest;
      SplitJoin(parts[1..], sep);
    }
  }

  /** Joining is injective on separator-free, non-empty part lists. */
  lemma JoinInjective(p: seq<string>, q: seq<string>, sep: char)
    requires |p| >= 1 && FreeOf(p, sep) && |q| >= 1 && FreeOf(q, sep)
    ensures Join(p, sep) == Join(q, sep) ==> p == q
  {
    SplitJoin(p, sep);
    SplitJoin(q, sep);
  }
}

=== FILE: domain.dfy ===
/** The records the dashboard receives from the forecasting backend, and the
    closed vocabularies (granularity, prediction target, alert tier) it uses
    to ask for them. */
module Domain {
  import opened Wrappers

  /** The aggregation level of a prediction or entity listing. */
  datatype Granularity = Producto | Marca | Categoria

  function GranularityName(g: Granularity): string {
    match g
    case Producto => "producto"
    case Marca => "marca"
    case Categoria => "categoria"
  }

  /** Accepts exactly the three granularity names, as the granularity schema does. */
  function ParseGranularity(s: string): (r: Option<Granularity>)
    ensures r.Some? ==> GranularityName(r.value) == s
  {
    if s == "producto" then Some(Producto)
    else if s == "marca" then Some(Marca)
    else if s == "categoria" then Some(Categoria)
    else None
  }

  lemma GranularityRoundTrip(g: Granularity)
    ensures ParseGranularity(GranularityName(g)) == Some(g)
  {
  }

  /** What a prediction measures: kilograms or sales. */
  datatype Target = Kilos | Ventas

  function TargetName(t: Target): string {
    match t
    case Kilos => "kilos"
    case Ventas => "ventas"
  }

  function ParseTarget(s: string): (r: Option<Target>)
    ensures r.Some? ==> TargetName(r.value) == s
  {
    if s == "kilos" then Some(Kilos) else if s == "ventas" then Some(Ventas) else None
  }

  lemma TargetRoundTrip(t: Target)
    ensures ParseTarget(TargetName(t)) == Some(t)
  {
  }

  /** The stock alert tiers, most urgent first. */
  datatype Tier = Agotado | Critico | Bajo | Ok

  function TierName(t: Tier): string {
    match t
    case Agotado => "agotado"
    case Critico => "critico"
    case Bajo => "bajo"
    case Ok => "ok"
  }

  function ParseTier(s: string): (r: Option<Tier>)
    ensures r.Some? ==> TierName(r.value) == s
  {
    if s == "agotado" then Some(Agotado)
    else if s == "critico" then Some(Critico)
    else if s == "bajo" then Some(Bajo)
    else if s == "ok" then Some(Ok)
    else None
  }

  lemma TierRoundTrip(t: Tier)
    ensures ParseTier(TierName(t)) == Some(t)
  {
  }

  /** A JavaScript number: its value, and the text `String(value)` gives for
      it (the number-to-text algorithm itself is not part of this model). */
  datatype Num = Num(value: real, text: string)

  /** One row of the stock alerts list. `tipo_alerta` is kept as the string
      the backend sent, since every consumer also handles unknown values. */
  datatype StockAlert = StockAlert(
    producto: string,
    categoria: string,
    stock_actual_kg: Num,
    demanda_proyectada_kg: Num,
    dias_cobertura: Num,
    tipo_alerta: string,
    cantidad_sugerida_kg: Option<Num>)

  datatype PurchaseOrderItem = PurchaseOrderItem(
    producto: string,
    categoria: string,
    cantidad_sugerida_kg: Num,
    stock_actual_kg: Num,
    demanda_proyectada_kg: Num,
    dias_cobertura: Num,
    proveedor: Option<string>)

  datatype PurchaseOrder = PurchaseOrder(
    fecha_generacion: string,
    items: seq<PurchaseOrderItem>,
    total_items: int)

  /** One row of the current inventory; `producto` is its key. */
  datatype StockItem = StockItem(
    producto: string,
    categoria: string,
    cantidad_kg: Num,
    proveedor: Option<string>)

  datatype PredictionItem = PredictionItem(
    date: string,
    predicted_kilos: Option<Num>,
    predicted_sales: Option<Num>,
    day_of_week: string)

  /** A forecast for one entity, as the chat renderer reads it. */
  datatype PredictionResponse = PredictionResponse(
    entity: string,
    granularity: string,
    days: int,
    target: string,
    total: Num,
    predictions: seq<PredictionItem>)

  /** One forecast day as the predictions page lists it. */
  datatype DailyPrediction = DailyPrediction(
    date: string,
    predicted_sales: Num,
    day_of_week: string)

  datatype CategoryDemand = CategoryDemand(categoria: string, demanda_total_kg: Num, demanda_promedio_diaria_kg: Num)

  datatype BrandDemand = BrandDemand(marca: string, demanda_total_kg: Num, demanda_promedio_diaria_kg: Num)

  datatype DemandSummary = DemandSummary(periodo_dias: int, categorias: seq<CategoryDemand>, marcas: seq<BrandDemand>)

  datatype DemandByCategory = DemandByCategory(periodo_dias: int, categorias: seq<CategoryDemand>)

  datatype DemandByBrand = DemandByBrand(periodo_dias: int, marcas: seq<BrandDemand>)

  datatype AvailableEntity = AvailableEntity(entity: string, num_days: int, total_kilos: Num, total_sales: Num)

  datatype AvailableEntities = AvailableEntities(granularity: string, count: int, entities: seq<AvailableEntity>)
}

=== FILE: hooks.dfy ===
/** The logic of the data-access hooks that is not the query cache itself:
    the critical-alerts filter, the client-side stock summary, the choice of
    client call for a prediction, and the upload request with its query
    string and its error rule. */
module Hooks {
  import opened Wrappers
  import opened Domain
  import opened Utils
  import opened ApiClient
  import Uri

  // ---------------------------------------------------------------------------
  // filtering
  // ---------------------------------------------------------------------------

  /** `r` is `s` with some elements left out, the rest in their order. */
  predicate Subsequence<T(==)>(r: seq<T>, s: seq<T>)
    decreases |s|
  {
    if r == [] then true
    else if s == [] then false
    else if r[0] == s[0] then Subsequence(r[1..], s[1..])
    else Subsequence(r, s[1..])
  }

  /** `s.filter(p)`: exactly the elements satisfying `p`, each as often as in
      `s`, in their order in `s`. */
  function Filter<T(==,!new)>(s: seq<T>, p: T -> bool): (r: seq<T>)
    ensures |r| <= |s|
    ensures forall i :: 0 <= i < |r| ==> p(r[i])
    ensures forall x :: multiset(r)[x] == if p(x) then multiset(s)[x] else 0
    ensures Subsequence(r, s)
  {
    if s == [] then []
    else
      assert s == [s[0]] + s[1..];
      var rest := Filter(s[1..], p);
      if p(s[0]) then
        assert ([s[0]] + rest)[1..] == rest;
        [s[0]] + rest
      else rest
  }

  /** Nothing passes a filter no element satisfies. */
  lemma {:induction false} FilterNone<T(!new)>(s: seq<T>, p: T -> bool)
    requires forall i :: 0 <= i < |s| ==> !p(s[i])
    ensures Filter(s, p) == []
    decreases |s|
  {
    if s != [] {
      FilterNone(s[1..], p);
    }
  }

  // ---------------------------------------------------------------------------
  // critical alerts
  // ---------------------------------------------------------------------------

  /** The critical-alerts test: the tier text is "critico" or "agotado". */
  predicate IsCritical(a: StockAlert) {
    a.tipo_alerta == "critico" || a.tipo_alerta == "agotado"
  }

  function CriticalAlerts(alerts: seq<StockAlert>): (r: seq<StockAlert>)
    ensures forall i :: 0 <= i < |r| ==> IsCritical(r[i])
    ensures forall a :: multiset(r)[a] == if IsCritical(a) then multiset(alerts)[a] else 0
    ensures Subsequence(r, alerts)
  {
    Filter(alerts, IsCritical)
  }

  /** The alerts the critical list keeps are exactly those the dashboard
      paints in the destructive colour. */
  lemma CriticalIsDestructive(a: StockAlert)
    ensures IsCritical(a) <==> AlertColor(a.tipo_alerta) == Destructive
    ensures IsCritical(a) <==> ParseTier(a.tipo_alerta) in {Some(Agotado), Some(Critico)}
  {
  }

  // ---------------------------------------------------------------------------
  // stock summary
  // ---------------------------------------------------------------------------

  /** How many alerts have exactly the tier text `tier`: none in an empty
      list, otherwise one for the head if it has that text, plus the count in
      the rest. */
  function CountTier(alerts: seq<StockAlert>, tier: string): (n: nat)
    ensures n <= |alerts|
    ensures alerts == [] ==> n == 0
    ensures alerts != [] ==> n == (if alerts[0].tipo_alerta == tier then 1 else 0) + CountTier(alerts[1..], tier)
  {
    if alerts != [] then
      FilterStep(alerts, (a: StockAlert) => a.tipo_alerta == tier);
      |Filter(alerts, (a: StockAlert) => a.tipo_alerta == tier)|
    else
      |Filter(alerts, (a: StockAlert) => a.tipo_alerta == tier)|
  }

  datatype AlertCounts = AlertCounts(criticos: nat, bajos: nat, ok: nat)

  datatype StockSummary = StockSummary(total_productos: nat, alertas: AlertCounts)

  /** The summary of the current stock and the alerts, or nothing while
      either list is missing; an empty list is present. */
  function Summary(stock: Option<seq<StockItem>>, alerts: Option<seq<StockAlert>>): (r: Option<StockSummary>)
    ensures r.Some? <==> stock.Some? && alerts.Some?
    ensures r.Some? ==> r.value.total_productos == |stock.value|
    ensures r.Some? ==> r.value.alertas.criticos == |CriticalAlerts(alerts.value)|
    ensures r.Some? ==> r.value.alertas.bajos == CountTier(alerts.value, "bajo")
    ensures r.Some? ==> r.value.alertas.ok == CountTier(alerts.value, "ok")
  {
    match (stock, alerts)
    case (Some(items), Some(list)) =>
      Some(StockSummary(|items|, AlertCounts(
        |Filter(list, IsCritical)|, CountTier(list, "bajo"), CountTier(list, "ok"))))
    case _ => None
  }

  /** The alerts whose tier text is none of the four tiers. */
  predicate IsUnknownTier(a: StockAlert) {
    ParseTier(a.tipo_alerta).None?
  }

  /** Every alert lands in exactly one of the three counts or among the
      unknown tiers. */
  lemma {:induction false} CountsCoverAlerts(alerts: seq<StockAlert>)
    ensures |CriticalAlerts(alerts)| + CountTier(alerts, "bajo") + CountTier(alerts, "ok")
      + |Filter(alerts, IsUnknownTier)| == |alerts|
    decreases |alerts|
  {
    if alerts != [] {
      CountsCoverAlerts(alerts[1..]);
      FilterStep(alerts, IsCritical);
      FilterStep(alerts, IsUnknownTier);
      OneTierEach(alerts[0]);
    }
  }

  /** An alert is critical, "bajo", "ok" or of an unknown tier: exactly one. */
  lemma OneTierEach(a: StockAlert)
    ensures (if IsCritical(a) then 1 else 0) + (if a.tipo_alerta == "bajo" then 1 else 0)
      + (if a.tipo_alerta == "ok" then 1 else 0) + (if IsUnknownTier(a) then 1 else 0) == 1
  {
  }

  /** Filtering a non-empty list keeps its head or not, then filters the rest. */
  lemma FilterStep<T(!new)>(s: seq<T>, p: T -> bool)
    requires s != []
    ensures |Filter(s, p)| == (if p(s[0]) then 1 else 0) + |Filter(s[1..], p)|
  {
  }

  /** When every alert carries one of the four tiers, the three counts add
      up to the number of alerts. */
  lemma CountsPartition(stock: seq<StockItem>, alerts: seq<StockAlert>)
    requires forall i :: 0 <= i < |alerts| ==> ParseTier(alerts[i].tipo_alerta).Some?
    ensures var s := Summary(Some(stock), Some(alerts)).value;
      s.alertas.criticos + s.alertas.bajos + s.alertas.ok == |alerts|
  {
    CountsCoverAlerts(alerts);
    FilterNone(alerts, IsUnknownTier);
  }

  // ---------------------------------------------------------------------------
  // predictions
  // ---------------------------------------------------------------------------

  /** The call a prediction query makes: the product shortcut for the
      product granularity, the general route otherwise. The period is the
      hook's own argument, 30 days when left out, and the target is left to
      the client's default. */
  function PredictCall(g: Granularity, name: string, days: Option<int>): (c: Call)
    ensures c.PredictProduct? <==> g == Producto
    ensures c.Predict? <==> g != Producto
    ensures c.Predict? ==> c.granularity == g
    ensures c.name == name && c.target == Kilos
    ensures days.Some? ==> c.days == days.value
    ensures days.None? ==> c.days == 30
  {
    if g == Producto then PredictProductWith(name, days, None)
    else PredictWith(g, name, days, None)
  }

  /** Whichever route is taken, the request is the general prediction
      request for the same granularity, name and period. */
  lemma PredictCallUrl(base: string, g: Granularity, name: string, days: Option<int>)
    ensures Url(base, PredictCall(g, name, days)) == Url(base, PredictWith(g, name, days, None))
  {
    if g == Producto {
      PredictProductIsPredict(base, name, DaysOr(days), Kilos);
    }
  }

  /** With the period left out, a prediction query fetches 30 days of the
      kilos target. */
  lemma PredictCallDefaultUrl(base: string, g: Granularity, name: string)
    ensures Url(base, PredictCall(g, name, None))
      == base + ("/api/v1/products/predict/" + GranularityName(g) + "/" + Uri.EncodeURIComponent(name)) + "?days=30&target=kilos"
  {
    PredictCallUrl(base, g, name, None);
    DefaultPredictUrl(base, g, name);
  }

  // ---------------------------------------------------------------------------
  // upload
  // ---------------------------------------------------------------------------

  /** The upload's query string: empty when `retrain` is not given, otherwise
      the one `retrain` parameter. */
  function UploadQuery(retrain: Option<bool>): (q: string)
    ensures q == "" <==> retrain.None?
  {
    match retrain
    case None => ""
    case Some(true) => "?retrain=true"
    case Some(false) => "?retrain=false"
  }

  /** Reads an upload query string back; None for any other text. */
  function ParseUploadQuery(q: string): Option<Option<bool>> {
    if q == "" then Some(None)
    else if q == "?retrain=true" then Some(Some(true))
    else if q == "?retrain=false" then Some(Some(false))
    else None
  }

  lemma UploadQueryRoundTrip(retrain: Option<bool>)
    ensures ParseUploadQuery(UploadQuery(retrain)) == Some(retrain)
  {
  }

  /** The upload URL: the import endpoint, then the query string. */
  function UploadUrl(base: string, retrain: Option<bool>): string {
    base + "/api/v1/upload/excel" + UploadQuery(retrain)
  }

  /** The three upload URLs. */
  lemma UploadUrlTemplate(base: string)
    ensures UploadUrl(base, None) == base + "/api/v1/upload/excel"
    ensures UploadUrl(base, Some(true)) == base + "/api/v1/upload/excel?retrain=true"
    ensures UploadUrl(base, Some(false)) == base + "/api/v1/upload/excel?retrain=false"
  {
  }

  /** The upload URL tells which `retrain` choice made it. */
  lemma UploadUrlInjective(base: string, retrain: Option<bool>, other: Option<bool>)
    ensures UploadUrl(base, retrain) == UploadUrl(base, other) ==> retrain == other
  {
    var prefix := base + "/api/v1/upload/excel";
    if UploadUrl(base, retrain) == UploadUrl(base, other) {
      SameSuffix(prefix, UploadQuery(retrain), UploadQuery(other));
      UploadQueryRoundTrip(retrain);
      UploadQueryRoundTrip(other);
    }
  }

  /** Equal texts with the same opening have the same rest. */
  lemma SameSuffix(p: string, a: string, b: string)
    requires p + a == p + b
    ensures a == b
  {
    assert a == (p + a)[|p|..];
    assert b == (p + b)[|p|..];
  }

  /** The outcome of an upload: a failed request raises its status error;
      a successful one yields the JSON body as it is, and a 2xx body that is
      not JSON is malformed. */
  function UploadOutcome<J>(res: HttpResponse<J>, messageOf: J -> MessageField): (r: Result<J, ApiError>)
    ensures r.Success? <==> res.ok && res.body.Json?
    ensures r.Success? ==> r.value == res.body.value
    ensures !res.ok ==> r == Failure(StatusError(res, messageOf))
    ensures res.ok && res.body.NotJson? ==> r == Failure(MalformedBody)
  {
    if !res.ok then
      var error := match res.body
        case NotJson => RequestFailed(ErrorMessage(res.status, res.statusText, Unparseable))
        case Json(v) =>
          match messageOf(v)
          case NullValue => NullErrorBody
          case Field(m) => RequestFailed(ErrorMessage(res.status, res.statusText, JsonBody(m)));
      Failure(error)
    else
      match res.body
      case NotJson => Failure(MalformedBody)
      case Json(v) => Success(v)
  }

  /** The upload fails exactly as a client call whose schema accepts every
      body: the same message for the same response. */
  lemma UploadFailsLikeClient<J>(res: HttpResponse<J>, messageOf: J -> MessageField)
    ensures UploadOutcome(res, messageOf) == FetchAndValidate(res, messageOf, (j: J) => Some(j))
  {
  }
}

=== FILE: number_text.dfy ===
/** Decimal rendering of integers, as a JavaScript template literal `${n}`
    writes an integral number, and the parser that reads it back. */
module NumberText {
  import opened Wrappers

  predicate IsDigit(c: char) {
    '0' <= c <= '9'
  }

  predicate AllDigits(s: string) {
    forall i :: 0 <= i < |s| ==> IsDigit(s[i])
  }

  function DigitChar(d: nat): (c: char)
    requires d < 10
    ensures IsDigit(c)
  {
    "0123456789"[d]
  }

  function DigitValue(c: char): (d: nat)
    requires IsDigit(c)
    ensures d < 10
  {
    c as int - '0' as int
  }

  lemma DigitRoundTrip(d: nat)
    requires d < 10
    ensures DigitValue(DigitChar(d)) == d
  {
  }

  /** The shortest decimal numeral for `n`: no leading zero unless `n` is 0. */
  function NatToString(n: nat): (r: string)
    ensures |r| >= 1 && AllDigits(r)
    ensures |r| > 1 ==> r[0] != '0'
    decreases n
  {
    if n < 10 then [DigitChar(n)] else NatToString(n / 10) + [DigitChar(n % 10)]
  }

  /** `${n}` for an integral number: an optional minus sign and the numeral. */
  function IntToString(n: int): (r: string)
    ensures |r| >= 1
    ensures r[0] == '-' <==> n < 0
    ensures forall i :: 0 <= i < |r| ==> IsDigit(r[i]) || (i == 0 && r[i] == '-')
  {
    if n < 0 then "-" + NatToString(-n) else NatToString(n)
  }

  /** The numerals of the client's default period and brand count. */
  lemma DefaultNumerals()
    ensures IntToString(30) == "30" && IntToString(20) == "20"
  {
    assert NatToString(3) == "3" && NatToString(2) == "2";
  }

  /** The value of a non-empty string of decimal digits. */
  function ParseNat(s: string): nat
    requires |s| >= 1 && AllDigits(s)
  {
    if |s| == 1 then DigitValue(s[0])
    else ParseNat(s[..|s| - 1]) * 10 + DigitValue(s[|s| - 1])
  }

  /** Reads an optionally signed decimal numeral; anything else is rejected. */
  function ParseInt(s: string): Option<int> {
    if |s| >= 2 && s[0] == '-' && AllDigits(s[1..]) then Some(0 - ParseNat(s[1..]) as int)
    else if |s| >= 1 && AllDigits(s) then Some(ParseNat(s))
    else None
  }

  lemma {:induction false} ParseNatToString(n: nat)
    ensures ParseNat(NatToString(n)) == n
    decreases n
  {
    var r := NatToString(n);
    if n >= 10 {
      var q := NatToString(n / 10);
      assert r == q + [DigitChar(n % 10)];
      assert r[..|r| - 1] == q;
      ParseNatToString(n / 10);
      DigitRoundTrip(n % 10);
    } else {
      DigitRoundTrip(n);
    }
  }

  /** Reading back the rendering of any integer yields that integer. */
  lemma IntToStringRoundTrip(n: int)
    ensures ParseInt(IntToString(n)) == Some(n)
  {
    var r := IntToString(n);
    if n < 0 {
      assert r[1..] == NatToString(-n);
      ParseNatToString(-n);
    } else {
      ParseNatToString(n);
    }
  }

  /** Distinct integers render to distinct strings. */
  lemma IntToStringInjective(m: int, n: int)
    ensures IntToString(m) == IntToString(n) ==> m == n
  {
    IntToStringRoundTrip(m);
    IntToStringRoundTrip(n);
  }
}

=== FILE: predictions_page.dfy ===
/** The predictions page's CSV export of the daily sales forecast. */
module PredictionsPage {
  import opened Wrappers
  import opened Domain
  import Csv

  const Header: seq<string> := ["Fecha", "Día", "Ventas Predichas"]

  /** A day's CSV fields; the forecast appears as its JavaScript text. */
  function DayRow(p: DailyPrediction): seq<string> {
    [p.date, p.day_of_week, p.predicted_sales.text]
  }

  /** The rows of the export: the header, then one row per day. */
  function ExportRows(days: seq<DailyPrediction>): (rows: seq<seq<string>>)
    ensures |rows| == |days| + 1 && rows[0] == Header
    ensures forall i :: 0 <= i < |days| ==> rows[i + 1] == DayRow(days[i])
  {
    [Header] + seq(|days|, i requires 0 <= i < |days| => DayRow(days[i]))
  }

  /** The export: nothing while the forecast is missing; an empty forecast
      is present and exports the header line alone. */
  function ExportPredictions(days: Option<seq<DailyPrediction>>): (csv: Option<string>)
    ensures csv.Some? <==> days.Some?
    ensures days == Some([]) ==> csv == Some("Fecha" + "," + "Día" + "," + "Ventas Predichas")
  {
    match days
    case None => None
    case Some(ds) =>
      var rows := ExportRows(ds);
      if ds == [] then
        assert rows == [Header];
        HeaderLine();
        Some(Csv.Encode(rows))
      else Some(Csv.Encode(rows))
  }

  /** The header alone is the line "Fecha,Día,Ventas Predichas". */
  lemma HeaderLine()
    ensures Csv.Encode([Header]) == "Fecha" + "," + "Día" + "," + "Ventas Predichas"
  {
    Csv.EncodeOneRowOfThree("Fecha", "Día", "Ventas Predichas");
  }

  /** None of a day's values holds a comma or a line break. */
  predicate PlainDay(p: DailyPrediction) {
    Csv.PlainField(p.date) && Csv.PlainField(p.day_of_week) && Csv.PlainField(p.predicted_sales.text)
  }

  /** With plain values the export reads back as the header and then one
      line per day, in the forecast's order, holding the date, the weekday
      and the forecast: one line more than there are days. */
  lemma ExportReadsBack(days: seq<DailyPrediction>)
    requires forall i :: 0 <= i < |days| ==> PlainDay(days[i])
    ensures var lines := Csv.Decode(ExportPredictions(Some(days)).value);
      |lines| == |days| + 1 && lines[0] == ["Fecha", "Día", "Ventas Predichas"]
      && forall i :: 0 <= i < |days| ==>
           lines[i + 1] == [days[i].date, days[i].day_of_week, days[i].predicted_sales.text]
  {
    var rows := ExportRows(days);
    assert Csv.PlainField("Fecha") && Csv.PlainField("Día") && Csv.PlainField("Ventas Predichas");
    assert Csv.PlainRows(rows) by {
      forall i | 0 <= i < |rows|
        ensures |rows[i]| >= 1 && forall j :: 0 <= j < |rows[i]| ==> Csv.PlainField(rows[i][j])
      {
        if i > 0 {
          assert rows[i] == DayRow(days[i - 1]);
        }
      }
    }
    Csv.DecodeEncode(rows);
  }
}

=== FILE: query_keys.dfy ===
/** The cache keys of the data-access hooks. A key is an array of strings and
    numbers; the query cache treats two queries as the same exactly when
    their keys are equal element by element, and invalidation by a key
    reaches every key it is a prefix of. */
module QueryKeys {
  import opened Wrappers
  import opened Domain

  datatype KeyPart = Str(s: string) | Int(n: int)

  type Key = seq<KeyPart>

  /** Every query the hooks issue, with the parameters that select it. */
  datatype Query =
    | Health
    | Predictions(granularity: Granularity, name: string, days: int)
    | DemandSummaryQuery(days: int)
    | DemandByCategoryQuery(days: int)
    | DemandByBrandQuery(days: int, top: int)
    | StockAll
    | StockAlerts(days: int)
    | CriticalStockAlerts(days: int)
    | PurchaseOrderQuery(days: int)
    | AvailableEntitiesQuery(granularity: Granularity)

  /** The key each hook passes to the cache. */
  function KeyOf(q: Query): Key {
    match q
    case Health => [Str("health")]
    case Predictions(g, name, days) => [Str("predictions"), Str(GranularityName(g)), Str(name), Int(days)]
    case DemandSummaryQuery(days) => [Str("demandSummary"), Int(days)]
    case DemandByCategoryQuery(days) => [Str("demandByCategory"), Int(days)]
    case DemandByBrandQuery(days, top) => [Str("demandByBrand"), Int(days), Int(top)]
    case StockAll => [Str("stock")]
    case StockAlerts(days) => AlertsKey(days)
    case CriticalStockAlerts(days) => AlertsKey(days) + [Str("critical")]
    case PurchaseOrderQuery(days) => [Str("stock"), Str("purchaseOrder"), Int(days)]
    case AvailableEntitiesQuery(g) => [Str("availableEntities"), Str(GranularityName(g))]
  }

  function AlertsKey(days: int): Key {
    [Str("stock"), Str("alerts"), Int(days)]
  }

  /** Reads a key back as the query it was built for; None for keys no hook builds. */
  function QueryOfKey(k: Key): Option<Query> {
    if |k| == 0 || !k[0].Str? then None
    else
      var head := k[0].s;
      if head == "health" && |k| == 1 then Some(Health)
      else if head == "predictions" && |k| == 4 && k[1].Str? && k[2].Str? && k[3].Int? then
        match ParseGranularity(k[1].s)
        case Some(g) => Some(Predictions(g, k[2].s, k[3].n))
        case None => None
      else if head == "demandSummary" && |k| == 2 && k[1].Int? then Some(DemandSummaryQuery(k[1].n))
      else if head == "demandByCategory" && |k| == 2 && k[1].Int? then Some(DemandByCategoryQuery(k[1].n))
      else if head == "demandByBrand" && |k| == 3 && k[1].Int? && k[2].Int? then Some(DemandByBrandQuery(k[1].n, k[2].n))
      else if head == "stock" && |k| == 1 then Some(StockAll)
      else if head == "stock" && |k| == 3 && k[1] == Str("alerts") && k[2].Int? then Some(StockAlerts(k[2].n))
      else if head == "stock" && |k| == 4 && k[1] == Str("alerts") && k[2].Int? && k[3] == Str("critical") then Some(CriticalStockAlerts(k[2].n))
      else if head == "stock" && |k| == 3 && k[1] == Str("purchaseOrder") && k[2].Int? then Some(PurchaseOrderQuery(k[2].n))
      else if head == "availableEntities" && |k| == 2 && k[1].Str? then
        match ParseGranularity(k[1].s)
        case Some(g) => Some(AvailableEntitiesQuery(g))
        case None => None
      else None
  }

  /** Every key reads back as the query that built it. */
  lemma QueryOfKeyOf(q: Query)
    ensures QueryOfKey(KeyOf(q)) == Some(q)
  {
    match q
    case Predictions(g, _, _) => GranularityRoundTrip(g);
    case AvailableEntitiesQuery(g) => GranularityRoundTrip(g);
    case _ =>
  }

  predicate IsPrefix(p: Key, k: Key) {
    |p| <= |k| && k[..|p|] == p
  }

  /** Two queries share a cache entry only when they are the same query:
      differing parameters, or differing endpoints, never collide. */
  lemma KeyOfInjective(q1: Query, q2: Query)
    ensures KeyOf(q1) == KeyOf(q2) ==> q1 == q2
  {
    QueryOfKeyOf(q1);
    QueryOfKeyOf(q2);
  }

  /** The stock key ["stock"] is a prefix of exactly the stock queries'
      keys: the full list, the alerts, the critical alerts and the purchase
      order, and of no other key. */
  lemma StockKeyPrefix(q: Query)
    ensures IsPrefix(KeyOf(StockAll), KeyOf(q))
      <==> q.StockAll? || q.StockAlerts? || q.CriticalStockAlerts? || q.PurchaseOrderQuery?
  {
    if IsPrefix(KeyOf(StockAll), KeyOf(q)) {
      assert KeyOf(q)[0] == Str("stock");
    }
  }

  /** The critical-alerts key is the alerts key for the same period with
      "critical" appended: it sits under the alerts key, yet never equals
      it, so the filtered and unfiltered lists are cached apart. */
  lemma CriticalKeyExtendsAlertsKey(days: int)
    ensures IsPrefix(KeyOf(StockAlerts(days)), KeyOf(CriticalStockAlerts(days)))
    ensures KeyOf(CriticalStockAlerts(days)) != KeyOf(StockAlerts(days))
  {
    assert KeyOf(CriticalStockAlerts(days))[..3] == KeyOf(StockAlerts(days));
  }
}

=== FILE: stock_alerts_table.dfy ===
/** The dashboard's stock alerts table: which alerts it shows under a row
    limit, the empty state, and what each row marks (icon, coverage colour,
    badge and label). */
module StockAlertsTable {
  import opened Wrappers
  import opened Text
  import opened Domain
  import opened Utils
  import Hooks

  /** The end index of `slice(0, end)` on a list of `len` elements: a
      negative end counts back from the length, and any end is clamped to
      the list. */
  function SliceEnd(len: nat, end: int): (k: nat)
    ensures k <= len
    ensures end >= 0 ==> k == if end < len then end else len
    ensures end < 0 ==> k == if len + end < 0 then 0 else len + end
  {
    if end < 0 then (if len + end < 0 then 0 else len + end)
    else if end < len then end
    else len
  }

  /** The alerts the table shows: all of them when the row limit is absent
      or zero (a falsy limit), otherwise `alerts.slice(0, maxRows)`. */
  function DisplayAlerts(alerts: seq<StockAlert>, maxRows: Option<int>): (r: seq<StockAlert>)
    ensures |r| <= |alerts| && r == alerts[..|r|]
    ensures maxRows.None? || maxRows == Some(0) ==> r == alerts
    ensures maxRows.Some? && maxRows.value > 0 ==> |r| == if maxRows.value < |alerts| then maxRows.value else |alerts|
    ensures maxRows.Some? && maxRows.value < 0 ==> |r| == if |alerts| + maxRows.value < 0 then 0 else |alerts| + maxRows.value
  {
    match maxRows
    case None => alerts
    case Some(n) => if n == 0 then alerts else alerts[..SliceEnd(|alerts|, n)]
  }

  /** A positive limit is a cap: a list within it is shown whole, and
      applying the limit again changes nothing. */
  lemma PositiveLimitIsCap(alerts: seq<StockAlert>, n: int)
    requires n > 0
    ensures |alerts| <= n ==> DisplayAlerts(alerts, Some(n)) == alerts
    ensures DisplayAlerts(DisplayAlerts(alerts, Some(n)), Some(n)) == DisplayAlerts(alerts, Some(n))
  {
    var r := DisplayAlerts(alerts, Some(n));
    assert |r| <= n;
  }

  /** A negative limit drops that many rows from the end: unlike a positive
      one it shortens the list again each time it is applied. */
  lemma NegativeLimitDropsFromEnd(alerts: seq<StockAlert>, n: int)
    requires n < 0 && |alerts| + 2 * n >= 0
    ensures DisplayAlerts(alerts, Some(n)) == alerts[..|alerts| + n]
    ensures DisplayAlerts(DisplayAlerts(alerts, Some(n)), Some(n)) == alerts[..|alerts| + 2 * n]
  {
  }

  const CoverageRed := "text-red-600"
  const CoverageYellow := "text-yellow-600"
  const CoverageGreen := "text-green-600"

  /** The coverage colour: red under a week, yellow under two weeks, green
      from two weeks on. */
  function CoverageColor(days: real): (c: string)
    ensures c == CoverageRed <==> days < 7.0
    ensures c == CoverageYellow <==> 7.0 <= days < 14.0
    ensures c == CoverageGreen <==> days >= 14.0
  {
    if days < 7.0 then CoverageRed
    else if days < 14.0 then CoverageYellow
    else CoverageGreen
  }

  /** The row icons, each with its colour. */
  datatype Icon = TriangleIcon | CircleIcon | InfoIcon

  function IconColor(i: Icon): string {
    match i
    case TriangleIcon => "text-red-600"
    case CircleIcon => "text-orange-600"
    case InfoIcon => "text-yellow-600"
  }

  /** The icon of an alert tier: one per alerting tier, none for "ok" or an
      unknown text. */
  function AlertIcon(alertType: string): (i: Option<Icon>)
    ensures i.Some? <==> ParseTier(alertType) in {Some(Agotado), Some(Critico), Some(Bajo)}
    ensures i == Some(TriangleIcon) <==> alertType == "agotado"
    ensures i == Some(CircleIcon) <==> alertType == "critico"
    ensures i == Some(InfoIcon) <==> alertType == "bajo"
  {
    match alertType
    case "agotado" => Some(TriangleIcon)
    case "critico" => Some(CircleIcon)
    case "bajo" => Some(InfoIcon)
    case _ => None
  }

  /** Distinct alerting tiers show distinct icons in distinct colours. */
  lemma IconsDiffer(t1: Tier, t2: Tier)
    requires t1 != Ok && t2 != Ok && t1 != t2
    ensures AlertIcon(TierName(t1)) != AlertIcon(TierName(t2))
    ensures IconColor(AlertIcon(TierName(t1)).value) != IconColor(AlertIcon(TierName(t2)).value)
  {
    assert "text-red-600"[5] == 'r';
    assert "text-orange-600"[5] == 'o';
    assert "text-yellow-600"[5] == 'y';
  }

  /** One row of the table. The kilogram and day figures are carried as
      the numbers themselves; their formatting is not modelled. */
  datatype Row = Row(
    icon: Option<Icon>,
    producto: string,
    categoria: string,
    stock: Num,
    demand: Num,
    coverage: Num,
    coverageColor: string,
    badge: Variant,
    badgeText: string)

  function RowOf(a: StockAlert): Row {
    Row(AlertIcon(a.tipo_alerta), a.producto, a.categoria, a.stock_actual_kg, a.demanda_proyectada_kg,
        a.dias_cobertura, CoverageColor(a.dias_cobertura.value), AlertBadgeVariant(a.tipo_alerta),
        ToUpper(a.tipo_alerta))
  }

  /** What the table's body shows: the empty state, or the rows. */
  datatype Body = EmptyState | Rows(rows: seq<Row>)

  /** The table body: the empty state exactly when no alert is displayed,
      otherwise one row per displayed alert, in the alerts' order. */
  function Table(alerts: seq<StockAlert>, maxRows: Option<int>): (b: Body)
    ensures b.EmptyState? <==> DisplayAlerts(alerts, maxRows) == []
    ensures b.Rows? ==> |b.rows| == |DisplayAlerts(alerts, maxRows)|
    ensures b.Rows? ==> forall i :: 0 <= i < |b.rows| ==> b.rows[i] == RowOf(alerts[i])
  {
    var shown := DisplayAlerts(alerts, maxRows);
    if |shown| == 0 then EmptyState
    else Rows(seq(|shown|, i requires 0 <= i < |shown| => RowOf(shown[i])))
  }

  /** The marks on a row agree with one another: the red badge goes with
      the triangle and circle icons, that is with the critical alerts, and
      a row shows an icon exactly when its badge is not the secondary one
      of the "ok" tier, unknown texts aside. */
  lemma RowMarksAgree(a: StockAlert)
    ensures RowOf(a).badge == Destructive <==> RowOf(a).icon in {Some(TriangleIcon), Some(CircleIcon)}
    ensures RowOf(a).badge == Destructive <==> Hooks.IsCritical(a)
    ensures ParseTier(a.tipo_alerta).Some? ==> (RowOf(a).icon.None? <==> RowOf(a).badge == Secondary)
  {
  }

  /** The badge label of a known tier is its name in capitals, and reads
      back as the tier. */
  lemma LabelReadsBack(a: StockAlert, t: Tier)
    requires a.tipo_alerta == TierName(t)
    ensures |RowOf(a).badgeText| == |a.tipo_alerta|
    ensures ParseTier(ToLower(RowOf(a).badgeText)) == Some(t)
  {
    assert forall i :: 0 <= i < |TierName(t)| ==> 'a' <= TierName(t)[i] <= 'z';
    UpperLowerRoundTrip(a.tipo_alerta);
  }
}

=== FILE: stock_page.dfy ===
/** The stock page: the purchase order CSV export, the summary cards and the
    coverage badge of the purchase order table. */
module StockPage {
  import opened Wrappers
  import opened Delimited
  import opened Domain
  import opened Utils
  import Csv
  import Hooks
  import StockAlertsTable

  // ---------------------------------------------------------------------------
  // purchase order export
  // ---------------------------------------------------------------------------

  const Header: seq<string> := [
    "Producto", "Categoría", "Cantidad Sugerida (kg)", "Stock Actual (kg)",
    "Demanda Proyectada (kg)", "Días Cobertura", "Proveedor"]

  const MissingProvider := "N/A"

  /** `proveedor || "N/A"`: the placeholder for an absent or empty provider. */
  function ProviderField(p: Option<string>): (f: string)
    ensures |f| > 0
    ensures p.None? || p.value == "" ==> f == MissingProvider
    ensures p.Some? && p.value != "" ==> f == p.value
  {
    if p.None? || p.value == "" then MissingProvider else p.value
  }

  /** An item's CSV fields; the numbers appear as their JavaScript text. */
  function ItemRow(item: PurchaseOrderItem): seq<string> {
    [item.producto, item.categoria, item.cantidad_sugerida_kg.text, item.stock_actual_kg.text,
     item.demanda_proyectada_kg.text, item.dias_cobertura.text, ProviderField(item.proveedor)]
  }

  /** The rows of the export: the header, then one row per item. */
  function ExportRows(order: PurchaseOrder): (rows: seq<seq<string>>)
    ensures |rows| == |order.items| + 1 && rows[0] == Header
    ensures forall i :: 0 <= i < |order.items| ==> rows[i + 1] == ItemRow(order.items[i])
  {
    [Header] + seq(|order.items|, i requires 0 <= i < |order.items| => ItemRow(order.items[i]))
  }

  /** The export: nothing without a purchase order, otherwise its CSV text. */
  function ExportPurchaseOrder(order: Option<PurchaseOrder>): (csv: Option<string>)
    ensures csv.Some? <==> order.Some?
  {
    match order
    case None => None
    case Some(o) => Some(Csv.Encode(ExportRows(o)))
  }

  /** None of an item's values holds a comma or a line break. */
  predicate PlainItem(item: PurchaseOrderItem) {
    forall j :: 0 <= j < |ItemRow(item)| ==> Csv.PlainField(ItemRow(item)[j])
  }

  lemma HeaderIsPlain()
    ensures forall j :: 0 <= j < |Header| ==> Csv.PlainField(Header[j])
  {
    assert Csv.PlainField("Producto");
    assert Csv.PlainField("Categoría");
    assert Csv.PlainField("Cantidad Sugerida (kg)");
    assert Csv.PlainField("Stock Actual (kg)");
    assert Csv.PlainField("Demanda Proyectada (kg)");
    assert Csv.PlainField("Días Cobertura");
    assert Csv.PlainField("Proveedor");
  }

  /** With plain values the export reads back as the seven-column header
      followed by one seven-field line per item, in the items' order, with
      the provider placeholder where the provider is missing. */
  lemma ExportReadsBack(order: PurchaseOrder)
    requires forall i :: 0 <= i < |order.items| ==> PlainItem(order.items[i])
    ensures var lines := Csv.Decode(ExportPurchaseOrder(Some(order)).value);
      |lines| == |order.items| + 1 && lines[0] == Header && |Header| == 7
      && forall i :: 0 <= i < |order.items| ==>
           var item := order.items[i];
           lines[i + 1] == [item.producto, item.categoria, item.cantidad_sugerida_kg.text,
                            item.stock_actual_kg.text, item.demanda_proyectada_kg.text,
                            item.dias_cobertura.text, ProviderField(item.proveedor)]
  {
    var rows := ExportRows(order);
    HeaderIsPlain();
    assert Csv.PlainRows(rows) by {
      forall i | 0 <= i < |rows|
        ensures |rows[i]| >= 1 && forall j :: 0 <= j < |rows[i]| ==> Csv.PlainField(rows[i][j])
      {
        if i > 0 {
          assert rows[i] == ItemRow(order.items[i - 1]);
        }
      }
    }
    Csv.DecodeEncode(rows);
  }

  /** Without line breaks in the values the export has the header line and
      then one line per item, each its fields joined with commas. */
  lemma ExportLines(order: PurchaseOrder)
    requires forall i :: 0 <= i < |order.items| ==> FreeOf(ItemRow(order.items[i]), '\n')
    ensures var lines := Csv.Decode(ExportPurchaseOrder(Some(order)).value);
      |lines| == |order.items| + 1
      && forall i :: 0 <= i < |order.items| ==> lines[i + 1] == Split(Join(ItemRow(order.items[i]), ','), ',')
  {
    var rows := ExportRows(order);
    HeaderIsPlain();
    forall i | 0 <= i < |rows|
      ensures FreeOf(rows[i], '\n')
    {
      if i > 0 {
        assert rows[i] == ItemRow(order.items[i - 1]);
      }
    }
    Csv.DecodeByLine(rows);
  }

  /** The export does not quote: a product name with one comma splits its
      line into eight fields, the name's two halves first. */
  lemma CommaInNameAddsColumn(order: PurchaseOrder, k: int, a: string, b: string)
    requires 0 <= k < |order.items|
    requires forall i :: 0 <= i < |order.items| ==> FreeOf(ItemRow(order.items[i]), '\n')
    requires order.items[k].producto == a + "," + b && ',' !in a && ',' !in b
    requires forall j :: 1 <= j < 7 ==> ',' !in ItemRow(order.items[k])[j]
    ensures var lines := Csv.Decode(ExportPurchaseOrder(Some(order)).value);
      |lines| == |order.items| + 1 && |lines[k + 1]| == 8 && lines[k + 1][..2] == [a, b]
  {
    ExportLines(order);
    RowWithCommaInName(order.items[k], a, b);
  }

  lemma RowWithCommaInName(item: PurchaseOrderItem, a: string, b: string)
    requires item.producto == a + "," + b && ',' !in a && ',' !in b
    requires forall j :: 1 <= j < 7 ==> ',' !in ItemRow(item)[j]
    ensures var fields := Split(Join(ItemRow(item), ','), ',');
      |fields| == 8 && fields[..2] == [a, b]
  {
    var row := ItemRow(item);
    var rest := row[1..];
    assert row == [a + "," + b] + rest;
    assert FreeOf(rest, ',') by {
      forall j | 0 <= j < |rest|
        ensures ',' !in rest[j]
      {
        assert rest[j] == row[j + 1];
      }
    }
    Csv.FieldWithComma(a, b, rest);
    assert ([a, b] + rest)[..2] == [a, b];
  }

  // ---------------------------------------------------------------------------
  // purchase order table
  // ---------------------------------------------------------------------------

  /** The table's provider cell: `proveedor || "-"`. */
  function ProviderCell(p: Option<string>): (f: string)
    ensures p.None? || p.value == "" ==> f == "-"
    ensures p.Some? && p.value != "" ==> f == p.value
  {
    if p.None? || p.value == "" then "-" else p.value
  }

  /** The table and the export agree on which providers are missing: both
      show their placeholder for the same items and the provider itself for
      the rest. */
  lemma ProviderPlaceholdersAgree(p: Option<string>)
    ensures p.None? || p.value == "" ==> ProviderCell(p) == "-" && ProviderField(p) == MissingProvider
    ensures p.Some? && p.value != "" ==> ProviderCell(p) == ProviderField(p) == p.value
  {
  }

  /** The coverage badge of a purchase order line: destructive under a
      week, outline under two weeks, secondary from two weeks on. */
  function CoverageBadge(days: real): (v: Variant)
    ensures v == Destructive <==> days < 7.0
    ensures v == Outline <==> 7.0 <= days < 14.0
    ensures v == Secondary <==> days >= 14.0
  {
    if days < 7.0 then Destructive
    else if days < 14.0 then Outline
    else Secondary
  }

  /** The badge uses the thresholds of the alerts table's coverage colour. */
  lemma BadgeMatchesCoverageColor(days: real)
    ensures CoverageBadge(days) == Destructive <==> StockAlertsTable.CoverageColor(days) == StockAlertsTable.CoverageRed
    ensures CoverageBadge(days) == Outline <==> StockAlertsTable.CoverageColor(days) == StockAlertsTable.CoverageYellow
    ensures CoverageBadge(days) == Secondary <==> StockAlertsTable.CoverageColor(days) == StockAlertsTable.CoverageGreen
  {
  }

  // ---------------------------------------------------------------------------
  // summary cards
  // ---------------------------------------------------------------------------

  /** The four figures of the summary cards. */
  datatype Cards = Cards(exhaustedOrCritical: int, low: int, okCount: int, products: int)

  /** `count ?? 0`. */
  function OrZero(count: Option<nat>): nat {
    count.GetOr(0)
  }

  /** The cards, once the summary is there. The summary the page receives
      counts no "agotados" of its own (its "criticos" already include
      them), so the first card adds zero to the critical count. */
  function SummaryCards(summary: Option<Hooks.StockSummary>): (c: Option<Cards>)
    ensures c.Some? <==> summary.Some?
  {
    match summary
    case None => None
    case Some(s) =>
      Some(Cards(OrZero(None) + OrZero(Some(s.alertas.criticos)), OrZero(Some(s.alertas.bajos)),
                 OrZero(Some(s.alertas.ok)), OrZero(Some(s.total_productos))))
  }

  /** The cards count the alerts: the first card the alerts of the two
      urgent tiers, the total the stock items, and when every alert has a
      known tier the three alert cards add up to all alerts. */
  lemma CardsCountAlerts(stock: seq<StockItem>, alerts: seq<StockAlert>)
    ensures var c := SummaryCards(Hooks.Summary(Some(stock), Some(alerts))).value;
      c.exhaustedOrCritical == |Hooks.CriticalAlerts(alerts)| && c.products == |stock|
      && c.low == Hooks.CountTier(alerts, "bajo") && c.okCount == Hooks.CountTier(alerts, "ok")
    ensures (forall i :: 0 <= i < |alerts| ==> ParseTier(alerts[i].tipo_alerta).Some?) ==>
      var c := SummaryCards(Hooks.Summary(Some(stock), Some(alerts))).value;
      c.exhaustedOrCritical + c.low + c.okCount == |alerts|
  {
    if forall i :: 0 <= i < |alerts| ==> ParseTier(alerts[i].tipo_alerta).Some? {
      Hooks.CountsPartition(stock, alerts);
    }
  }

  /** No cards while the stock or the alerts are missing. */
  lemma NoCardsWithoutData(stock: Option<seq<StockItem>>, alerts: Option<seq<StockAlert>>)
    ensures SummaryCards(Hooks.Summary(stock, alerts)).Some? <==> stock.Some? && alerts.Some?
  {
  }
}

=== FILE: text.dfy ===
/** The JavaScript string operations the dashboard relies on: `trim`,
    `toLowerCase`, `toUpperCase` and `includes`. */
module Text {

  // ---------------------------------------------------------------------------
  // trim
  // ---------------------------------------------------------------------------

  /** The ECMAScript WhiteSpace and LineTerminator code points, which
      `String.prototype.trim` strips from both ends. */
  predicate IsWhitespace(c: char) {
    || c == ' ' || c == '\t' || c == '\n' || c == '\U{000B}' || c == '\U{000C}' || c == '\r'
    || c == '\U{00A0}' || c == '\U{1680}' || ('\U{2000}' <= c <= '\U{200A}')
    || c == '\U{2028}' || c == '\U{2029}' || c == '\U{202F}' || c == '\U{205F}'
    || c == '\U{3000}' || c == '\U{FEFF}'
  }

  predicate AllWhitespace(s: string) {
    forall i :: 0 <= i < |s| ==> IsWhitespace(s[i])
  }

  /** Drops the leading whitespace. */
  function TrimStart(s: string): (r: string)
    ensures |r| <= |s| && r == s[|s| - |r|..]
    ensures r == [] || !IsWhitespace(r[0])
    ensures forall k :: 0 <= k < |s| - |r| ==> IsWhitespace(s[k])
  {
    if |s| > 0 && IsWhitespace(s[0]) then
      var r := TrimStart(s[1..]);
      assert forall k :: 1 <= k < |s| - |r| ==> s[k] == s[1..][k - 1];
      r
    else s
  }

  /** Drops the trailing whitespace. */
  function TrimEnd(s: string): (r: string)
    ensures |r| <= |s| && r == s[..|r|]
    ensures r == [] || !IsWhitespace(r[|r| - 1])
    ensures forall k :: |r| <= k < |s| ==> IsWhitespace(s[k])
    ensures |s| > 0 && !IsWhitespace(s[0]) ==> |r| > 0
  {
    if |s| > 0 && IsWhitespace(s[|s| - 1]) then
      var init := s[..|s| - 1];
      var r := TrimEnd(init);
      assert forall k :: |r| <= k < |s| - 1 ==> s[k] == init[k];
      r
    else s
  }

  /** `s.trim()`: the infix of `s` left after stripping whitespace at both
      ends; everything stripped is whitespace. */
  function Trim(s: string): (r: string)
    ensures exists i :: OccursAt(s, r, i) && AllWhitespace(s[..i]) && AllWhitespace(s[i + |r|..])
    ensures r == [] || (!IsWhitespace(r[0]) && !IsWhitespace(r[|r| - 1]))
  {
    var t := TrimStart(s);
    var r := TrimEnd(t);
    TrimmedInfix(s, t, r);
    r
  }

  /** A prefix of a suffix of `s`, where what both cuts drop is whitespace,
      is an infix of `s` surrounded by whitespace. */
  lemma TrimmedInfix(s: string, t: string, r: string)
    requires |t| <= |s| && t == s[|s| - |t|..] && forall k :: 0 <= k < |s| - |t| ==> IsWhitespace(s[k])
    requires |r| <= |t| && r == t[..|r|] && forall k :: |r| <= k < |t| ==> IsWhitespace(t[k])
    ensures var i := |s| - |t|;
      OccursAt(s, r, i) && AllWhitespace(s[..i]) && AllWhitespace(s[i + |r|..])
  {
    var i := |s| - |t|;
    SliceOfSuffix(s, i, |r|);
    forall k | i + |r| <= k < |s|
      ensures IsWhitespace(s[k])
    {
      assert s[k] == t[k - i];
    }
  }

  lemma SliceOfSuffix(s: string, i: nat, n: nat)
    requires i + n <= |s|
    ensures s[i..][..n] == s[i..i + n]
  {
  }

  /** A string trims to nothing exactly when every character of it is whitespace. */
  lemma TrimEmptyIffAllWhitespace(s: string)
    ensures Trim(s) == [] <==> AllWhitespace(s)
  {
    var t := TrimStart(s);
    if t != [] {
      assert !AllWhitespace(s) by {
        assert s[|s| - |t|] == t[0];
      }
    }
  }

  // ---------------------------------------------------------------------------
  // case mapping (exact on ASCII and Latin-1)
  // ---------------------------------------------------------------------------

  /** The lower-case form of one character: ASCII A-Z and the Latin-1 capitals
      U+00C0..U+00DE (except the multiplication sign U+00D7) move down by 32. */
  function LowerChar(c: char): (r: char)
    ensures ('A' <= c <= 'Z') ==> 'a' <= r <= 'z'
    ensures ('A' <= c <= 'Z' || ('\U{00C0}' <= c <= '\U{00DE}' && c != '\U{00D7}')) ==> r as int == c as int + 32
    ensures !('A' <= c <= 'Z') && !('\U{00C0}' <= c <= '\U{00DE}' && c != '\U{00D7}') ==> r == c
  {
    if 'A' <= c <= 'Z' || ('\U{00C0}' <= c <= '\U{00DE}' && c != '\U{00D7}')
    then (c as int + 32) as char
    else c
  }

  /** `s.toLowerCase()`, character by character. */
  function ToLower(s: string): (r: string)
    ensures |r| == |s|
    ensures forall i :: 0 <= i < |s| ==> r[i] == LowerChar(s[i])
  {
    if s == [] then [] else [LowerChar(s[0])] + ToLower(s[1..])
  }

  /** Lower-casing twice is lower-casing once. */
  lemma {:induction false} ToLowerIdempotent(s: string)
    ensures ToLower(ToLower(s)) == ToLower(s)
  {
    var l := ToLower(s);
    var ll := ToLower(l);
    forall i | 0 <= i < |s|
      ensures ll[i] == l[i]
    {
      assert l[i] == LowerChar(s[i]);
    }
  }

  /** The upper-case form of one character, as a string because the sharp s
      becomes two letters: ASCII a-z and Latin-1 U+00E0..U+00FE (except the
      division sign U+00F7) move up by 32; U+00DF becomes "SS", U+00FF becomes
      U+0178 and the micro sign U+00B5 becomes Greek capital mu U+039C. */
  function UpperChars(c: char): (r: string)
    ensures 1 <= |r| <= 2
    ensures ('a' <= c <= 'z') ==> r == [(c as int - 32) as char] && 'A' <= r[0] <= 'Z'
    ensures ('\U{00E0}' <= c <= '\U{00FE}' && c != '\U{00F7}') ==> |r| == 1 && r[0] as int == c as int - 32
    ensures c == '\U{00DF}' ==> r == "SS"
    ensures c == '\U{00FF}' ==> r == "\U{0178}"
    ensures c == '\U{00B5}' ==> r == "\U{039C}"
    ensures (!('a' <= c <= 'z') && !('\U{00E0}' <= c <= '\U{00FE}' && c != '\U{00F7}')
             && c !in {'\U{00DF}', '\U{00FF}', '\U{00B5}'}) ==> r == [c]
  {
    if 'a' <= c <= 'z' || ('\U{00E0}' <= c <= '\U{00FE}' && c != '\U{00F7}') then [(c as int - 32) as char]
    else if c == '\U{00DF}' then "SS"
    else if c == '\U{00FF}' then "\U{0178}"
    else if c == '\U{00B5}' then "\U{039C}"
    else [c]
  }

  /** `s.toUpperCase()`: each character's upper-case form, in order; when
      every form is one character long, position by position. */
  function ToUpper(s: string): (r: string)
    ensures |s| <= |r| <= 2 * |s|
    ensures s != [] ==> UpperChars(s[0]) <= r
    ensures (forall i :: 0 <= i < |s| ==> |UpperChars(s[i])| == 1) ==>
      |r| == |s| && forall i :: 0 <= i < |s| ==> [r[i]] == UpperChars(s[i])
  {
    if s == [] then []
    else
      var tail := ToUpper(s[1..]);
      UpperConcat(s, tail);
      UpperChars(s[0]) + tail
  }

  /** The one-character case of ToUpper carries over from the tail to the
      whole string. */
  lemma UpperConcat(s: string, tail: string)
    requires s != []
    requires (forall i :: 0 <= i < |s| - 1 ==> |UpperChars(s[1..][i])| == 1) ==>
      |tail| == |s| - 1 && forall i :: 0 <= i < |s| - 1 ==> [tail[i]] == UpperChars(s[1..][i])
    ensures (forall i :: 0 <= i < |s| ==> |UpperChars(s[i])| == 1) ==>
      |UpperChars(s[0]) + tail| == |s| && forall i :: 0 <= i < |s| ==> [(UpperChars(s[0]) + tail)[i]] == UpperChars(s[i])
  {
    var head := UpperChars(s[0]);
    if forall i :: 0 <= i < |s| ==> |UpperChars(s[i])| == 1 {
      forall i | 0 <= i < |s| - 1
        ensures |UpperChars(s[1..][i])| == 1
      {
        assert s[1..][i] == s[i + 1];
      }
      forall i | 0 <= i < |s|
        ensures [(head + tail)[i]] == UpperChars(s[i])
      {
        if i > 0 {
          assert (head + tail)[i] == tail[i - 1];
          assert s[1..][i - 1] == s[i];
        }
      }
    }
  }

  /** A word of ASCII lower-case letters upper-cases letter for letter into
      capitals, and lower-casing the capitals gives the word back. */
  lemma UpperLowerRoundTrip(s: string)
    requires forall i :: 0 <= i < |s| ==> 'a' <= s[i] <= 'z'
    ensures |ToUpper(s)| == |s|
    ensures forall i :: 0 <= i < |s| ==> 'A' <= ToUpper(s)[i] <= 'Z'
    ensures ToLower(ToUpper(s)) == s
  {
    var u := ToUpper(s);
    forall i | 0 <= i < |s|
      ensures |UpperChars(s[i])| == 1
    {
    }
    forall i | 0 <= i < |s|
      ensures 'A' <= u[i] <= 'Z' && LowerChar(u[i]) == s[i]
    {
      assert [u[i]] == UpperChars(s[i]);
    }
  }

  // ---------------------------------------------------------------------------
  // includes
  // ---------------------------------------------------------------------------

  /** `sub` occurs in `s` starting at index `i`. */
  predicate OccursAt(s: string, sub: string, i: int) {
    0 <= i <= |s| - |sub| && s[i..i + |sub|] == sub
  }

  /** `s.includes(sub)`: `sub` occurs in `s` at some position. */
  predicate Contains(s: string, sub: string) {
    exists i | 0 <= i <= |s| - |sub| :: OccursAt(s, sub, i)
  }

  /** Contains witnessed by a split of `s` around the occurrence. */
  lemma ContainsSplit(a: string, sub: string, b: string)
    ensures Contains(a + sub + b, sub)
  {
    var s := a + sub + b;
    assert OccursAt(s, sub, |a|);
  }
}

=== FILE: tool_result_renderer.dfy ===
/** The chat's tool-result renderer: one view per tag, carrying the payload
    to the matching chart, table or box, and nothing for a tag it does not
    know. */
module Renderer {
  import opened Wrappers
  import opened NumberText
  import opened Domain
  import opened ChatTypes
  import opened Delimited

  /** The ten views, each with what it is given. */
  datatype View =
    | ForecastChart(series: seq<PredictionResponse>, title: string, description: string)
    | AlertsTable(alerts: seq<StockAlert>)
    | DemandSummaryView(summary: DemandSummary)
    | DemandByCategoryView(byCategory: DemandByCategory)
    | DemandByBrandView(byBrand: DemandByBrand)
    | PurchaseOrderView(order: PurchaseOrder)
    | CurrentStockView(stock: seq<StockItem>)
    | AvailableEntitiesView(entities: AvailableEntities)
    | UploadBox(className: string, message: string)
    | ErrorBox(message: string)

  const SuccessBox := "rounded-lg border p-4 border-green-200 bg-green-50"
  const FailureBox := "rounded-lg border p-4 border-red-200 bg-red-50"

  function PredictionTitle(p: PredictionResponse): string {
    "Predicción: " + p.entity
  }

  function PredictionDescription(p: PredictionResponse): string {
    IntToString(p.days) + " días — " + p.granularity
  }

  /** The view a result renders as. */
  function Render(r: ToolResult): (v: View)
    ensures r.Prediction? ==>
      v.ForecastChart? && v.series == [r.prediction]
      && v.title == "Predicción: " + r.prediction.entity
      && v.description == IntToString(r.prediction.days) + " días — " + r.prediction.granularity
    ensures r.UploadResult? ==>
      v.UploadBox? && v.message == r.message && (v.className == SuccessBox <==> r.success)
    ensures r.ErrorResult? ==> v == ErrorBox(r.message)
  {
    match r
    case Prediction(p) => ForecastChart([p], PredictionTitle(p), PredictionDescription(p))
    case StockAlerts(a) => AlertsTable(a)
    case DemandSummaryResult(s) => DemandSummaryView(s)
    case DemandByCategoryResult(c) => DemandByCategoryView(c)
    case DemandByBrandResult(b) => DemandByBrandView(b)
    case PurchaseOrderResult(o) => PurchaseOrderView(o)
    case CurrentStock(s) => CurrentStockView(s)
    case AvailableEntitiesResult(e) => AvailableEntitiesView(e)
    case UploadResult(success, message) => UploadBox(if success then SuccessBox else FailureBox, message)
    case ErrorResult(message) => ErrorBox(message)
  }

  /** Reads the payload back off a view; None for a view the renderer never
      builds (a chart of other than one series, a box of another style). */
  function Shown(v: View): Option<ToolResult> {
    match v
    case ForecastChart(series, _, _) => if |series| == 1 then Some(Prediction(series[0])) else None
    case AlertsTable(a) => Some(StockAlerts(a))
    case DemandSummaryView(s) => Some(DemandSummaryResult(s))
    case DemandByCategoryView(c) => Some(DemandByCategoryResult(c))
    case DemandByBrandView(b) => Some(DemandByBrandResult(b))
    case PurchaseOrderView(o) => Some(PurchaseOrderResult(o))
    case CurrentStockView(s) => Some(CurrentStock(s))
    case AvailableEntitiesView(e) => Some(AvailableEntitiesResult(e))
    case UploadBox(c, m) =>
      if c == SuccessBox then Some(UploadResult(true, m))
      else if c == FailureBox then Some(UploadResult(false, m))
      else None
    case ErrorBox(m) => Some(ErrorResult(m))
  }

  /** The renderer passes every payload on whole: the result can be read
      back off its view. */
  lemma ShownRender(r: ToolResult)
    ensures Shown(Render(r)) == Some(r)
  {
    if r.UploadResult? {
      assert SuccessBox != FailureBox by {
        assert SuccessBox[29] != FailureBox[29];
      }
    }
  }

  /** Two results render alike only when they are the same result. */
  lemma RenderInjective(r1: ToolResult, r2: ToolResult)
    ensures Render(r1) == Render(r2) ==> r1 == r2
  {
    ShownRender(r1);
    ShownRender(r2);
  }

  /** The description's first word is the forecast period, which reads back
      as the number of days. */
  lemma DescriptionStartsWithDays(p: PredictionResponse)
    ensures ParseInt(Split(PredictionDescription(p), ' ')[0]) == Some(p.days)
  {
    var d := IntToString(p.days);
    var rest := "días — " + p.granularity;
    assert ' ' !in d by {
      forall i | 0 <= i < |d|
        ensures d[i] != ' '
      {
        assert IsDigit(d[i]) || d[i] == '-';
      }
    }
    assert PredictionDescription(p) == d + [' '] + rest;
    FirstIndexOfJoin(d, ' ', rest);
    assert (d + [' '] + rest)[..|d|] == d;
    IntToStringRoundTrip(p.days);
  }

  /** The kinds of view, one per case of `View`. */
  datatype ViewKind =
    | ChartKind | AlertsTableKind | DemandSummaryKind | DemandByCategoryKind | DemandByBrandKind
    | PurchaseOrderKind | CurrentStockKind | AvailableEntitiesKind | UploadBoxKind | ErrorBoxKind

  function KindOf(v: View): ViewKind {
    match v
    case ForecastChart(_, _, _) => ChartKind
    case AlertsTable(_) => AlertsTableKind
    case DemandSummaryView(_) => DemandSummaryKind
    case DemandByCategoryView(_) => DemandByCategoryKind
    case DemandByBrandView(_) => DemandByBrandKind
    case PurchaseOrderView(_) => PurchaseOrderKind
    case CurrentStockView(_) => CurrentStockKind
    case AvailableEntitiesView(_) => AvailableEntitiesKind
    case UploadBox(_, _) => UploadBoxKind
    case ErrorBox(_) => ErrorBoxKind
  }

  /** The switch on the `type` text: a view kind for each of the ten tags,
      nothing for any other text. */
  function ViewKindFor(tagText: string): (k: Option<ViewKind>)
    ensures k.Some? <==> ParseTag(tagText).Some?
  {
    match tagText
    case "prediction" => Some(ChartKind)
    case "stock_alerts" => Some(AlertsTableKind)
    case "demand_summary" => Some(DemandSummaryKind)
    case "demand_by_category" => Some(DemandByCategoryKind)
    case "demand_by_brand" => Some(DemandByBrandKind)
    case "purchase_order" => Some(PurchaseOrderKind)
    case "current_stock" => Some(CurrentStockKind)
    case "available_entities" => Some(AvailableEntitiesKind)
    case "upload_result" => Some(UploadBoxKind)
    case "error" => Some(ErrorBoxKind)
    case _ => None
  }

  /** The switch agrees with the rendering: a result's tag text selects the
      kind of view the result renders as, and distinct tags select distinct
      kinds. */
  lemma DispatchMatchesRender(r: ToolResult)
    ensures ViewKindFor(TagName(TagOf(r))) == Some(KindOf(Render(r)))
  {
    SwitchOnTagName(TagOf(r));
  }

  lemma DispatchInjective(t1: Tag, t2: Tag)
    ensures ViewKindFor(TagName(t1)) == ViewKindFor(TagName(t2)) ==> t1 == t2
  {
    SwitchOnTagName(t1);
    SwitchOnTagName(t2);
  }

  /** The view kind each tag calls for. */
  function KindOfTag(t: Tag): ViewKind {
    match t
    case PredictionTag => ChartKind
    case StockAlertsTag => AlertsTableKind
    case DemandSummaryTag => DemandSummaryKind
    case DemandByCategoryTag => DemandByCategoryKind
    case DemandByBrandTag => DemandByBrandKind
    case PurchaseOrderTag => PurchaseOrderKind
    case CurrentStockTag => CurrentStockKind
    case AvailableEntitiesTag => AvailableEntitiesKind
    case UploadResultTag => UploadBoxKind
    case ErrorTag => ErrorBoxKind
  }

  /** The switch sends each tag's text to the tag's own view kind. */
  lemma SwitchOnTagName(t: Tag)
    ensures ViewKindFor(TagName(t)) == Some(KindOfTag(t))
  {
    match t
    case PredictionTag =>
    case StockAlertsTag =>
    case DemandSummaryTag =>
    case DemandByCategoryTag =>
    case DemandByBrandTag =>
    case PurchaseOrderTag =>
    case CurrentStockTag =>
    case AvailableEntitiesTag =>
    case UploadResultTag =>
    case ErrorTag =>
  }
}

=== FILE: tools.dfy ===
/** The chat assistant's tool catalogue: per tool, how its input is checked
    and completed with defaults, which client call it makes, and the tag its
    result carries. */
module Tools {
  import opened Wrappers
  import opened Domain
  import opened ApiClient
  import opened ChatTypes
  import opened Renderer

  datatype Tool =
    | StockAlertsTool
    | PredictProductTool
    | PredictCategoryTool
    | PredictBrandTool
    | DemandSummaryTool
    | DemandByCategoryTool
    | DemandByBrandTool
    | PurchaseOrderTool
    | CurrentStockTool
    | AvailableProductsTool

  /** The name the model calls each tool by. */
  function ToolName(t: Tool): string {
    match t
    case StockAlertsTool => "get_stock_alerts"
    case PredictProductTool => "predict_product"
    case PredictCategoryTool => "predict_category"
    case PredictBrandTool => "predict_brand"
    case DemandSummaryTool => "get_demand_summary"
    case DemandByCategoryTool => "get_demand_by_category"
    case DemandByBrandTool => "get_demand_by_brand"
    case PurchaseOrderTool => "get_purchase_order"
    case CurrentStockTool => "get_current_stock"
    case AvailableProductsTool => "get_available_products"
  }

  function ToolNamed(s: string): (r: Option<Tool>)
    ensures r.Some? ==> ToolName(r.value) == s
  {
    match s
    case "get_stock_alerts" => Some(StockAlertsTool)
    case "predict_product" => Some(PredictProductTool)
    case "predict_category" => Some(PredictCategoryTool)
    case "predict_brand" => Some(PredictBrandTool)
    case "get_demand_summary" => Some(DemandSummaryTool)
    case "get_demand_by_category" => Some(DemandByCategoryTool)
    case "get_demand_by_brand" => Some(DemandByBrandTool)
    case "get_purchase_order" => Some(PurchaseOrderTool)
    case "get_current_stock" => Some(CurrentStockTool)
    case "get_available_products" => Some(AvailableProductsTool)
    case _ => None
  }

  lemma ToolNameRoundTrip(t: Tool)
    ensures ToolNamed(ToolName(t)) == Some(t)
  {
  }

  /** The tag each tool's result carries. */
  function ToolTag(t: Tool): (tag: Tag)
    ensures tag != UploadResultTag && tag != ErrorTag
  {
    match t
    case StockAlertsTool => StockAlertsTag
    case PredictProductTool => PredictionTag
    case PredictCategoryTool => PredictionTag
    case PredictBrandTool => PredictionTag
    case DemandSummaryTool => DemandSummaryTag
    case DemandByCategoryTool => DemandByCategoryTag
    case DemandByBrandTool => DemandByBrandTag
    case PurchaseOrderTool => PurchaseOrderTag
    case CurrentStockTool => CurrentStockTag
    case AvailableProductsTool => AvailableEntitiesTag
  }

  /** Every tool's result is drawn: the renderer has a view for its tag. */
  lemma ToolTagsAreRendered(t: Tool)
    ensures ViewKindFor(TagName(ToolTag(t))).Some?
  {
    TagRoundTrip(ToolTag(t));
  }

  // ---------------------------------------------------------------------------
  // input
  // ---------------------------------------------------------------------------

  /** The arguments the model supplies, each possibly absent. */
  datatype Input = Input(
    name: Option<string>,
    days: Option<int>,
    target: Option<string>,
    top: Option<int>,
    granularity: Option<string>)

  /** Why an input schema rejects the arguments. */
  datatype InputError = MissingName | UnknownTarget | MissingGranularity | UnknownGranularity

  /** The target argument, "kilos" when absent, rejected when not one of the two. */
  function TargetArg(target: Option<string>): (r: Result<Target, InputError>)
    ensures target.None? ==> r == Success(Kilos)
    ensures target.Some? ==> (r.Success? <==> ParseTarget(target.value).Some?)
    ensures r.Success? && target.Some? ==> TargetName(r.value) == target.value
  {
    match target
    case None => Success(DefaultTarget)
    case Some(t) =>
      match ParseTarget(t)
      case Some(v) => Success(v)
      case None => Failure(UnknownTarget)
  }

  /** A prediction call's arguments: the name is required, the period
      defaults to 30 days and the target to kilos. */
  function PredictArgs(input: Input): (r: Result<(string, int, Target), InputError>)
    ensures r.Success? <==> input.name.Some? && TargetArg(input.target).Success?
    ensures r.Success? ==> r.value.0 == input.name.value && r.value.1 == input.days.GetOr(30)
    ensures r.Success? ==> r.value.2 == TargetArg(input.target).value
    ensures r.Failure? ==> r.error == (if input.name.None? then MissingName else UnknownTarget)
  {
    match input.name
    case None => Failure(MissingName)
    case Some(name) =>
      match TargetArg(input.target)
      case Failure(e) => Failure(e)
      case Success(t) => Success((name, input.days.GetOr(DefaultDays), t))
  }

  /** The client call a tool makes for the given arguments, or why the
      arguments are rejected. */
  function Plan(tool: Tool, input: Input): (r: Result<Call, InputError>)
    ensures
      (tool in {StockAlertsTool, DemandSummaryTool, DemandByCategoryTool, DemandByBrandTool,
                PurchaseOrderTool, CurrentStockTool}) ==> r.Success?
  {
    var days := input.days.GetOr(DefaultDays);
    match tool
    case StockAlertsTool => Success(GetStockAlerts(days))
    case PredictProductTool =>
      (match PredictArgs(input)
       case Failure(e) => Failure(e)
       case Success((name, d, t)) => Success(PredictProduct(name, d, t)))
    case PredictCategoryTool =>
      (match PredictArgs(input)
       case Failure(e) => Failure(e)
       case Success((name, d, t)) => Success(Predict(Categoria, name, d, t)))
    case PredictBrandTool =>
      (match PredictArgs(input)
       case Failure(e) => Failure(e)
       case Success((name, d, t)) => Success(Predict(Marca, name, d, t)))
    case DemandSummaryTool => Success(GetDemandSummary(days))
    case DemandByCategoryTool => Success(GetDemandByCategory(days))
    case DemandByBrandTool => Success(GetDemandByBrand(days, input.top.GetOr(DefaultTop)))
    case PurchaseOrderTool => Success(GetSuggestedPurchaseOrder(days))
    case CurrentStockTool => Success(GetCurrentStock)
    case AvailableProductsTool =>
      match input.granularity
      case None => Failure(MissingGranularity)
      case Some(g) =>
        match ParseGranularity(g)
        case None => Failure(UnknownGranularity)
        case Some(v) => Success(GetAvailableEntities(v))
  }

  /** The tool a call comes from; None for the calls no tool makes (the
      health check, and a product-level prediction through the general
      route). */
  function ToolOf(c: Call): Option<Tool> {
    match c
    case Health => None
    case Predict(g, _, _, _) =>
      (match g
       case Producto => None
       case Categoria => Some(PredictCategoryTool)
       case Marca => Some(PredictBrandTool))
    case PredictProduct(_, _, _) => Some(PredictProductTool)
    case GetDemandSummary(_) => Some(DemandSummaryTool)
    case GetDemandByCategory(_) => Some(DemandByCategoryTool)
    case GetDemandByBrand(_, _) => Some(DemandByBrandTool)
    case GetStockAlerts(_) => Some(StockAlertsTool)
    case GetSuggestedPurchaseOrder(_) => Some(PurchaseOrderTool)
    case GetCurrentStock => Some(CurrentStockTool)
    case GetAvailableEntities(_) => Some(AvailableProductsTool)
  }

  /** The arguments that make a tool produce exactly this call. */
  function InputFor(c: Call): Input {
    match c
    case Predict(g, name, days, target) => Input(Some(name), Some(days), Some(TargetName(target)), None, None)
    case PredictProduct(name, days, target) => Input(Some(name), Some(days), Some(TargetName(target)), None, None)
    case GetDemandSummary(days) => Input(None, Some(days), None, None, None)
    case GetDemandByCategory(days) => Input(None, Some(days), None, None, None)
    case GetDemandByBrand(days, top) => Input(None, Some(days), None, Some(top), None)
    case GetStockAlerts(days) => Input(None, Some(days), None, None, None)
    case GetSuggestedPurchaseOrder(days) => Input(None, Some(days), None, None, None)
    case GetAvailableEntities(g) => Input(None, None, None, None, Some(GranularityName(g)))
    case _ => Input(None, None, None, None, None)
  }

  /** Each tool calls its own endpoint: the call a tool makes leads back to
      that tool. */
  lemma PlanCallsOwnEndpoint(tool: Tool, input: Input)
    ensures Plan(tool, input).Success? ==> ToolOf(Plan(tool, input).value) == Some(tool)
  {
  }

  /** Every call some tool makes is reachable: with the right arguments that
      tool makes exactly that call. */
  lemma PlanReachesEveryCall(c: Call)
    requires ToolOf(c).Some?
    ensures Plan(ToolOf(c).value, InputFor(c)) == Success(c)
  {
    match c
    case Predict(_, _, _, t) => TargetRoundTrip(t);
    case PredictProduct(_, _, t) => TargetRoundTrip(t);
    case GetAvailableEntities(g) => GranularityRoundTrip(g);
    case _ =>
  }

  /** Absent arguments take the defaults: 30 days, the kilos target, the top 20 brands. */
  lemma PlanDefaults(tool: Tool, name: string)
    ensures var r := Plan(tool, Input(Some(name), None, None, None, None));
      && (tool == PredictProductTool ==> r == Success(PredictProduct(name, 30, Kilos)))
      && (tool == PredictCategoryTool ==> r == Success(Predict(Categoria, name, 30, Kilos)))
      && (tool == PredictBrandTool ==> r == Success(Predict(Marca, name, 30, Kilos)))
      && (tool == StockAlertsTool ==> r == Success(GetStockAlerts(30)))
      && (tool == DemandSummaryTool ==> r == Success(GetDemandSummary(30)))
      && (tool == DemandByCategoryTool ==> r == Success(GetDemandByCategory(30)))
      && (tool == DemandByBrandTool ==> r == Success(GetDemandByBrand(30, 20)))
      && (tool == PurchaseOrderTool ==> r == Success(GetSuggestedPurchaseOrder(30)))
  {
  }

  /** The prediction tools reject a missing name and an unknown target, and
      the entity listing rejects a granularity outside the three. */
  lemma PlanRejections(tool: Tool, input: Input)
    ensures tool in {PredictProductTool, PredictCategoryTool, PredictBrandTool} ==>
      (Plan(tool, input).Success? <==>
        input.name.Some? && (input.target.None? || ParseTarget(input.target.value).Some?))
    ensures tool == AvailableProductsTool ==>
      (Plan(tool, input).Success? <==>
        input.granularity.Some? && ParseGranularity(input.granularity.value).Some?)
  {
  }

  /** Whatever the arguments, each tool makes its call with the given
      period or 30 days, the given top or 20, and the given target or
      kilos. */
  lemma PlanArguments(tool: Tool, input: Input)
    ensures var days, top := input.days.GetOr(30), input.top.GetOr(20);
      && (tool == StockAlertsTool ==> Plan(tool, input) == Success(GetStockAlerts(days)))
      && (tool == DemandSummaryTool ==> Plan(tool, input) == Success(GetDemandSummary(days)))
      && (tool == DemandByCategoryTool ==> Plan(tool, input) == Success(GetDemandByCategory(days)))
      && (tool == DemandByBrandTool ==> Plan(tool, input) == Success(GetDemandByBrand(days, top)))
      && (tool == PurchaseOrderTool ==> Plan(tool, input) == Success(GetSuggestedPurchaseOrder(days)))
      && (tool == CurrentStockTool ==> Plan(tool, input) == Success(GetCurrentStock))
    ensures var days := input.days.GetOr(30);
      Plan(tool, input).Success? && tool in {PredictProductTool, PredictCategoryTool, PredictBrandTool} ==>
        var name, target := input.name.value, TargetArg(input.target).value;
        && (tool == PredictProductTool ==> Plan(tool, input) == Success(PredictProduct(name, days, target)))
        && (tool == PredictCategoryTool ==> Plan(tool, input) == Success(Predict(Categoria, name, days, target)))
        && (tool == PredictBrandTool ==> Plan(tool, input) == Success(Predict(Marca, name, days, target)))
    ensures tool == AvailableProductsTool && Plan(tool, input).Success? ==>
      Plan(tool, input) == Success(GetAvailableEntities(ParseGranularity(input.granularity.value).value))
  {
  }

  /** The arguments a tool's input schema declares; the others are blanked. */
  function Declared(tool: Tool, input: Input): Input {
    match tool
    case StockAlertsTool => Input(None, input.days, None, None, None)
    case PredictProductTool => Input(input.name, input.days, input.target, None, None)
    case PredictCategoryTool => Input(input.name, input.days, input.target, None, None)
    case PredictBrandTool => Input(input.name, input.days, input.target, None, None)
    case DemandSummaryTool => Input(None, input.days, None, None, None)
    case DemandByCategoryTool => Input(None, input.days, None, None, None)
    case DemandByBrandTool => Input(None, input.days, None, input.top, None)
    case PurchaseOrderTool => Input(None, input.days, None, None, None)
    case CurrentStockTool => Input(None, None, None, None, None)
    case AvailableProductsTool => Input(None, None, None, None, input.granularity)
  }

  /** A tool reads only the arguments its schema declares: any other
      argument the model passes changes neither the call nor the rejection. */
  lemma PlanIgnoresOtherFields(tool: Tool, input: Input)
    ensures Plan(tool, input) == Plan(tool, Declared(tool, input))
  {
  }

  // ---------------------------------------------------------------------------
  // execution
  // ---------------------------------------------------------------------------

  /** The tagged result built from a call's validated data. */
  function Wrap(data: ClientData): ToolResult {
    match data
    case PredictionData(p) => Prediction(p)
    case AlertsData(a) => StockAlerts(a)
    case DemandSummaryData(s) => DemandSummaryResult(s)
    case DemandByCategoryData(c) => DemandByCategoryResult(c)
    case DemandByBrandData(b) => DemandByBrandResult(b)
    case PurchaseOrderData(o) => PurchaseOrderResult(o)
    case StockData(s) => CurrentStock(s)
    case EntitiesData(e) => AvailableEntitiesResult(e)
  }

  /** The data a tagged result carries, for the tags a client call yields. */
  function Unwrap(r: ToolResult): Option<ClientData> {
    match r
    case Prediction(p) => Some(PredictionData(p))
    case StockAlerts(a) => Some(AlertsData(a))
    case DemandSummaryResult(s) => Some(DemandSummaryData(s))
    case DemandByCategoryResult(c) => Some(DemandByCategoryData(c))
    case DemandByBrandResult(b) => Some(DemandByBrandData(b))
    case PurchaseOrderResult(o) => Some(PurchaseOrderData(o))
    case CurrentStock(s) => Some(StockData(s))
    case AvailableEntitiesResult(e) => Some(EntitiesData(e))
    case _ => None
  }

  /** Why a tool invocation fails: its arguments, or the client call, which
      no tool catches. */
  datatype ToolFailure = InvalidInput(input: InputError) | CallFailed(error: ApiError)

  /** Runs a tool: plans the call and, given what the call returned, wraps
      the data under the tool's tag. */
  function Execute(tool: Tool, input: Input, reply: Result<ClientData, ApiError>): (r: Result<ToolResult, ToolFailure>)
    requires Plan(tool, input).Success? && reply.Success? ==> Answers(Plan(tool, input).value, reply.value)
    ensures r.Success? <==> Plan(tool, input).Success? && reply.Success?
    ensures Plan(tool, input).Failure? ==> r == Failure(InvalidInput(Plan(tool, input).error))
    ensures Plan(tool, input).Success? && reply.Failure? ==> r == Failure(CallFailed(reply.error))
    ensures r.Success? ==> TagOf(r.value) == ToolTag(tool)
    ensures r.Success? ==> Unwrap(r.value) == Some(reply.value)
    ensures r.Success? ==> r.value.UploadResult? == false && r.value.ErrorResult? == false
  {
    match Plan(tool, input)
    case Failure(e) => Failure(InvalidInput(e))
    case Success(_) =>
      match reply
      case Failure(e) => Failure(CallFailed(e))
      case Success(data) => Success(Wrap(data))
  }
}

=== FILE: upload_route.dfy ===
/** The chat's upload endpoint: it checks that a file came with the form,
    picks the backend import route from the form's `type`, forwards the file
    alone, and relays the backend's answer with the backend's status. */
module UploadRoute {
  import opened Wrappers

  /** A form field's value: an uploaded file or a text. */
  datatype FormValue = FileValue(fileName: string) | TextValue(text: string)

  type Form = seq<(string, FormValue)>

  /** `formData.get(key)`: the first value under `key`, if any. */
  function Get(form: Form, key: string): (r: Option<FormValue>)
    ensures r.Some? <==> exists i :: 0 <= i < |form| && form[i].0 == key
    ensures r.Some? ==>
      exists i :: 0 <= i < |form| && form[i] == (key, r.value) && forall j :: 0 <= j < i ==> form[j].0 != key
  {
    if form == [] then None
    else if form[0].0 == key then Some(form[0].1)
    else
      var r := Get(form[1..], key);
      assert forall i :: 0 < i < |form| ==> form[i] == form[1..][i - 1];
      r
  }

  /** The test `!file`: no value, or an empty text (a falsy string). */
  predicate FileMissing(file: Option<FormValue>) {
    file.None? || file == Some(TextValue(""))
  }

  const MissingFileMessage := "No se proporcionó archivo"
  const StockImportPath := "/api/v1/stock/import/excel"
  const SalesUploadPath := "/api/v1/upload/excel"

  /** The body the endpoint answers with: the backend's JSON as it came, or
      a success flag with a message. */
  datatype Body<J> = Relayed(json: J) | Outcome(success: bool, message: string)

  datatype Response<J> = Response(status: int, body: Body<J>)

  /** What the endpoint does with the form: reject it, or forward a form to
      a backend URL. */
  datatype Decision = Reject | Forward(endpoint: string, form: Form)

  /** The decision for a form: reject a form without a file; otherwise send
      the file alone to the stock import when `type` is the text "stock" and
      to the sales upload in every other case, including an absent `type`. */
  function Route(base: string, form: Form): (d: Decision)
    ensures d.Reject? <==> FileMissing(Get(form, "file"))
    ensures d.Forward? ==> d.form == [("file", Get(form, "file").value)]
    ensures d.Forward? ==>
      d.endpoint == base + (if Get(form, "type") == Some(TextValue("stock")) then StockImportPath else SalesUploadPath)
  {
    var file := Get(form, "file");
    if file.None? || file == Some(TextValue("")) then Reject
    else
      var endpoint :=
        if Get(form, "type") == Some(TextValue("stock")) then base + StockImportPath
        else base + SalesUploadPath;
      Forward(endpoint, [("file", file.value)])
  }

  /** The backend's answer: its status, status text, and its body when that
      is JSON. */
  datatype BackendReply<J> = BackendReply(status: int, statusText: string, json: Option<J>)

  /** Relays the backend's answer: its JSON body unchanged, or a failure
      carrying the status text when the body is not JSON; always with the
      backend's status. */
  function Relay<J>(reply: BackendReply<J>): (r: Response<J>)
    ensures r.status == reply.status
    ensures reply.json.Some? ==> r.body == Relayed(reply.json.value)
    ensures reply.json.None? ==> r.body == Outcome(false, reply.statusText)
  {
    match reply.json
    case Some(j) => Response(reply.status, Relayed(j))
    case None => Response(reply.status, Outcome(false, reply.statusText))
  }

  /** The whole request: the backend reply is consulted only for a form that
      is forwarded. */
  function Post<J>(base: string, form: Form, reply: BackendReply<J>): (r: Response<J>)
    ensures FileMissing(Get(form, "file")) ==> r == Response(400, Outcome(false, MissingFileMessage))
    ensures !FileMissing(Get(form, "file")) ==> r == Relay(reply)
  {
    match Route(base, form)
    case Reject => Response(400, Outcome(false, MissingFileMessage))
    case Forward(_, _) => Relay(reply)
  }

  /** A rejected form never reaches the backend: the answer is the same
      whatever the backend would have said. */
  lemma RejectIgnoresBackend<J>(base: string, form: Form, r1: BackendReply<J>, r2: BackendReply<J>)
    requires FileMissing(Get(form, "file"))
    ensures Post(base, form, r1) == Post(base, form, r2)
    ensures Post(base, form, r1).status == 400
  {
  }

  /** Only the file travels on: appending a field other than `file` and
      `type` leaves the decision, and the forwarded form, unchanged. */
  lemma ForwardIgnoresOtherFields(base: string, form: Form, key: string, value: FormValue)
    requires key != "file" && key != "type"
    ensures Route(base, form + [(key, value)]) == Route(base, form)
  {
    GetAppendOther(form, "file", key, value);
    GetAppendOther(form, "type", key, value);
  }

  lemma {:induction false} GetAppendOther(form: Form, key: string, other: string, value: FormValue)
    requires key != other
    ensures Get(form + [(other, value)], key) == Get(form, key)
    decreases |form|
  {
    if form != [] {
      assert (form + [(other, value)])[1..] == form[1..] + [(other, value)];
      GetAppendOther(form[1..], key, other, value);
    }
  }

  /** The two backend routes differ, so the `type` decides where the file goes. */
  lemma RoutesDiffer(base: string)
    ensures base + StockImportPath != base + SalesUploadPath
  {
    assert (base + StockImportPath)[|base| + 8] != (base + SalesUploadPath)[|base| + 8];
  }
}

=== FILE: uri.dfy ===
/** `encodeURIComponent`, as section 19.2.6.5 of ECMA-262 defines it over
    Unicode scalar values: the characters A-Z a-z 0-9 - _ . ! ~ * ' ( ) stay,
    every other character is written as the percent-escaped bytes of its
    UTF-8 form (section 2.1 of RFC 3986, upper-case hex digits). A reference
    decoder reads the result back. */
module Uri {
  import opened Wrappers

  /** The characters `encodeURIComponent` leaves as they are. */
  predicate Unescaped(c: char) {
    || ('A' <= c <= 'Z') || ('a' <= c <= 'z') || ('0' <= c <= '9')
    || c == '-' || c == '_' || c == '.' || c == '!' || c == '~' || c == '*'
    || c == '\'' || c == '(' || c == ')'
  }

  /** The characters that can appear in an encoded component. */
  predicate EncodedChar(c: char) {
    Unescaped(c) || c == '%'
  }

  predicate IsByte(b: int) {
    0 <= b < 256
  }

  /** The UTF-8 bytes of one Unicode scalar value. */
  function Utf8(c: char): (bs: seq<int>)
    ensures 1 <= |bs| <= 4
    ensures forall i :: 0 <= i < |bs| ==> IsByte(bs[i])
  {
    var n := c as int;
    if n < 0x80 then [n]
    else if n < 0x800 then [0xC0 + n / 64, 0x80 + n % 64]
    else if n < 0x10000 then [0xE0 + n / 4096, 0x80 + (n / 64) % 64, 0x80 + n % 64]
    else [0xF0 + n / 262144, 0x80 + (n / 4096) % 64, 0x80 + (n / 64) % 64, 0x80 + n % 64]
  }

  function HexDigit(d: nat): (c: char)
    requires d < 16
    ensures Unescaped(c)
  {
    if d < 10 then ('0' as int + d) as char else ('A' as int + d - 10) as char
  }

  function HexValue(c: char): Option<nat> {
    if '0' <= c <= '9' then Some(c as int - '0' as int)
    else if 'A' <= c <= 'F' then Some(c as int - 'A' as int + 10)
    else if 'a' <= c <= 'f' then Some(c as int - 'a' as int + 10)
    else None
  }

  lemma HexRoundTrip(d: nat)
    requires d < 16
    ensures HexValue(HexDigit(d)) == Some(d)
  {
  }

  /** Each byte as "%XY". */
  function PercentBytes(bs: seq<int>): (r: string)
    requires forall i :: 0 <= i < |bs| ==> IsByte(bs[i])
    ensures |r| == 3 * |bs|
    ensures forall i :: 0 <= i < |r| ==> EncodedChar(r[i])
  {
    if bs == [] then ""
    else
      var b := bs[0];
      assert IsByte(b);
      ['%', HexDigit(b / 16), HexDigit(b % 16)] + PercentBytes(bs[1..])
  }

  function EncodeChar(c: char): (r: string)
    ensures |r| >= 1
    ensures forall i :: 0 <= i < |r| ==> EncodedChar(r[i])
  {
    if Unescaped(c) then [c] else PercentBytes(Utf8(c))
  }

  /** `encodeURIComponent(s)`. */
  function EncodeURIComponent(s: string): (r: string)
    ensures |s| <= |r|
    ensures forall i :: 0 <= i < |r| ==> EncodedChar(r[i])
  {
    if s == [] then [] else EncodeChar(s[0]) + EncodeURIComponent(s[1..])
  }

  /** An encoded component never holds a path, query or fragment delimiter,
      so it always stays a single path segment. */
  lemma EncodedHasNoDelimiters(s: string)
    ensures var r := EncodeURIComponent(s);
      '/' !in r && '?' !in r && '&' !in r && '=' !in r && '#' !in r
      && ',' !in r && '\n' !in r
  {
    var r := EncodeURIComponent(s);
    forall i | 0 <= i < |r|
      ensures r[i] != '/' && r[i] != '?' && r[i] != '&' && r[i] != '=' && r[i] != '#'
      ensures r[i] != ',' && r[i] != '\n'
    {
      EncodedCharIsNoDelimiter(r[i]);
    }
  }

  lemma EncodedCharIsNoDelimiter(c: char)
    requires EncodedChar(c)
    ensures c != '/' && c != '?' && c != '&' && c != '=' && c != '#' && c != ',' && c != '\n'
  {
  }

  // ---------------------------------------------------------------------------
  // the reference decoder
  // ---------------------------------------------------------------------------

  /** The byte written as "%XY" at the start of `s`. */
  function ReadByte(s: string): (r: Option<int>)
    ensures r.Some? ==> |s| >= 3 && IsByte(r.value)
  {
    if |s| >= 3 && s[0] == '%' && HexValue(s[1]).Some? && HexValue(s[2]).Some?
    then Some(HexValue(s[1]).value * 16 + HexValue(s[2]).value)
    else None
  }

  /** The length of the UTF-8 sequence a lead byte opens; 0 for a byte that
      cannot open one. */
  function SequenceLength(b0: int): nat {
    if b0 < 0x80 then 1
    else if 0xC0 <= b0 < 0xE0 then 2
    else if 0xE0 <= b0 < 0xF0 then 3
    else if 0xF0 <= b0 < 0xF8 then 4
    else 0
  }

  predicate IsContinuation(b: int) {
    0x80 <= b < 0xC0
  }

  /** `k` escaped continuation bytes at the start of `s`. */
  function ReadContinuations(s: string, k: nat): (r: Option<seq<int>>)
    ensures r.Some? ==> |r.value| == k && 3 * k <= |s|
    ensures r.Some? ==> forall i :: 0 <= i < k ==> IsContinuation(r.value[i])
  {
    if k == 0 then Some([])
    else
      match ReadByte(s)
      case None => None
      case Some(b) =>
        if !IsContinuation(b) then None
        else
          match ReadContinuations(s[3..], k - 1)
          case None => None
          case Some(rest) => Some([b] + rest)
  }

  /** The code point a lead byte and its continuation bytes spell: the lead
      byte's payload bits followed by six bits from each continuation byte. */
  function CodePoint(b0: int, cont: seq<int>): int {
    if |cont| == 0 then b0
    else if |cont| == 1 then (b0 - 0xC0) * 64 + (cont[0] - 0x80)
    else if |cont| == 2 then ((b0 - 0xE0) * 64 + (cont[0] - 0x80)) * 64 + (cont[1] - 0x80)
    else (((b0 - 0xF0) * 64 + (cont[0] - 0x80)) * 64 + (cont[1] - 0x80)) * 64 + (cont[2] - 0x80)
  }

  /** Decodes the first character of `s` and says how many characters it took. */
  function DecodeChar(s: string): (r: Option<(char, nat)>)
    requires |s| >= 1
    ensures r.Some? ==> 1 <= r.value.1 <= |s|
  {
    if s[0] != '%' then Some((s[0], 1))
    else
      match ReadByte(s)
      case None => None
      case Some(b0) =>
        var n := SequenceLength(b0);
        if n == 0 then None
        else
          match ReadContinuations(s[3..], n - 1)
          case None => None
          case Some(cont) =>
            var cp := CodePoint(b0, cont);
            if 0 <= cp < 0xD800 || 0xE000 <= cp < 0x11_0000 then Some((cp as char, 3 * n)) else None
  }

  /** `decodeURIComponent(s)` on what `EncodeURIComponent` produces; None where
      the input is not a well-formed encoding. */
  function DecodeURIComponent(s: string): Option<string>
    decreases |s|
  {
    if s == [] then Some([])
    else
      match DecodeChar(s)
      case None => None
      case Some((c, k)) =>
        match DecodeURIComponent(s[k..])
        case None => None
        case Some(rest) => Some([c] + rest)
  }

  // ---------------------------------------------------------------------------
  // round trip
  // ---------------------------------------------------------------------------

  /** Escaped continuation bytes, whatever follows them, read back as the bytes. */
  lemma ReadContinuationsOfPercent(bs: seq<int>, t: string)
    requires forall i :: 0 <= i < |bs| ==> IsByte(bs[i]) && IsContinuation(bs[i])
    ensures ReadContinuations(PercentBytes(bs) + t, |bs|) == Some(bs)
  {
    ReadEscapedContinuations(bs, t, PercentBytes(bs) + t);
  }

  /** `s`, the escapes of the continuation bytes `bs` followed by `t`,
      reads back as those bytes. */
  lemma {:induction false} ReadEscapedContinuations(bs: seq<int>, t: string, s: string)
    requires forall i :: 0 <= i < |bs| ==> IsByte(bs[i]) && IsContinuation(bs[i])
    requires s == PercentBytes(bs) + t
    ensures ReadContinuations(s, |bs|) == Some(bs)
    decreases |bs|
  {
    if bs != [] {
      var more := bs[1..];
      assert |more| == |bs| - 1;
      FirstByteOfPercent(bs, t, s);
      RestAfterFirstByte(bs, t, s);
      ReadEscapedContinuations(more, t, s[3..]);
      ReadContinuationsStep(s, bs[0], |bs|, more);
      assert [bs[0]] + more == bs;
    }
  }

  /** After the first escaped byte come the escapes of the rest. */
  lemma RestAfterFirstByte(bs: seq<int>, t: string, s: string)
    requires bs != [] && forall i :: 0 <= i < |bs| ==> IsByte(bs[i])
    requires s == PercentBytes(bs) + t
    ensures s[3..] == PercentBytes(bs[1..]) + t
  {
    PercentBytesTail(bs);
    DropThreeOfAppend(PercentBytes(bs), t);
  }

  /** Dropping the first "%XY" of the escapes leaves the escapes of the rest. */
  lemma PercentBytesTail(bs: seq<int>)
    requires bs != [] && forall i :: 0 <= i < |bs| ==> IsByte(bs[i])
    ensures PercentBytes(bs)[3..] == PercentBytes(bs[1..])
  {
  }

  lemma DropThreeOfAppend(a: string, t: string)
    requires |a| >= 3
    ensures (a + t)[3..] == a[3..] + t
  {
  }

  /** Escaped bytes start with the first byte, which reads back. */
  lemma FirstByteOfPercent(bs: seq<int>, t: string, s: string)
    requires bs != [] && forall i :: 0 <= i < |bs| ==> IsByte(bs[i])
    requires s == PercentBytes(bs) + t
    ensures ReadByte(s) == Some(bs[0])
  {
    var b := bs[0];
    var head := ['%', HexDigit(b / 16), HexDigit(b % 16)];
    assert s[..3] == head by {
      assert PercentBytes(bs) == head + PercentBytes(bs[1..]);
    }
    assert s[0] == '%' && s[1] == HexDigit(b / 16) && s[2] == HexDigit(b % 16) by {
      assert s[..3][1] == s[1];
    }
    ReadByteAt(s, b);
  }

  /** "%XY" at the start of `s` reads as the byte the two hex digits spell. */
  lemma ReadByteAt(s: string, b: int)
    requires IsByte(b) && |s| >= 3
    requires s[0] == '%' && s[1] == HexDigit(b / 16) && s[2] == HexDigit(b % 16)
    ensures ReadByte(s) == Some(b)
  {
    HexRoundTrip(b / 16);
    HexRoundTrip(b % 16);
  }

  /** A continuation byte followed by `k - 1` more reads as `k` of them. */
  lemma ReadContinuationsStep(s: string, b: int, k: nat, more: seq<int>)
    requires k > 0 && ReadByte(s) == Some(b) && IsContinuation(b)
    requires ReadContinuations(s[3..], k - 1) == Some(more)
    ensures ReadContinuations(s, k) == Some([b] + more)
  {
  }

  /** The UTF-8 bytes of a character decode to its code point. */
  lemma Utf8Decodes(c: char)
    ensures var bs := Utf8(c);
      && SequenceLength(bs[0]) == |bs|
      && (forall i :: 1 <= i < |bs| ==> IsContinuation(bs[i]))
      && CodePoint(bs[0], bs[1..]) == c as int
  {
    var n := c as int;
    if 0x800 <= n < 0x10000 {
      assert (n / 64) / 64 == n / 4096;
    } else if 0x10000 <= n {
      assert (n / 64) / 64 == n / 4096;
      assert (n / 4096) / 64 == n / 262144;
    }
  }

  lemma DecodeEncodedChar(c: char, t: string)
    ensures DecodeChar(EncodeChar(c) + t) == Some((c, |EncodeChar(c)|))
  {
    var s := EncodeChar(c) + t;
    if Unescaped(c) {
      assert s[0] == c;
    } else {
      var bs := Utf8(c);
      var more := bs[1..];
      assert SequenceLength(bs[0]) == |bs| && CodePoint(bs[0], more) == c as int by {
        Utf8Decodes(c);
      }
      FirstByteOfPercent(bs, t, s);
      RestAfterFirstByte(bs, t, s);
      assert ReadContinuations(s[3..], |bs| - 1) == Some(more) by {
        Utf8Decodes(c);
        ReadContinuationsOfPercent(more, t);
      }
      DecodeEscapedChar(s, bs[0], more);
    }
  }

  /** An escaped lead byte and its continuation bytes decode to the code
      point they spell, taking three characters per byte. */
  lemma DecodeEscapedChar(s: string, b0: int, cont: seq<int>)
    requires |s| >= 1 && s[0] == '%' && ReadByte(s) == Some(b0)
    requires SequenceLength(b0) == |cont| + 1
    requires ReadContinuations(s[3..], |cont|) == Some(cont)
    requires var cp := CodePoint(b0, cont); 0 <= cp < 0xD800 || 0xE000 <= cp < 0x11_0000
    ensures DecodeChar(s) == Some((CodePoint(b0, cont) as char, 3 * (|cont| + 1)))
  {
  }

  /** Decoding an encoded component gives back the original string. */
  lemma {:induction false} DecodeEncode(s: string)
    ensures DecodeURIComponent(EncodeURIComponent(s)) == Some(s)
    decreases |s|
  {
    if s != [] {
      var e := EncodeURIComponent(s);
      var head := EncodeChar(s[0]);
      var tail := EncodeURIComponent(s[1..]);
      assert e == head + tail;
      DecodeEncodedChar(s[0], tail);
      assert e[|head|..] == tail;
      DecodeEncode(s[1..]);
      assert [s[0]] + s[1..] == s;
    }
  }

  /** Distinct names are encoded to distinct components. */
  lemma EncodeInjective(a: string, b: string)
    ensures EncodeURIComponent(a) == EncodeURIComponent(b) ==> a == b
  {
    DecodeEncode(a);
    DecodeEncode(b);
  }
}

=== FILE: utils.dfy ===
/** The classification helpers of the dashboard's utility file: colours and
    badge variants for weekdays and alert tiers, the percentage change with
    its zero-denominator rule, and the trend arrow and colour. */
module Utils {
  import opened Wrappers
  import opened Text
  import opened Domain

  /** The badge variants the alert helpers choose from. */
  datatype Variant = Default | Destructive | Outline | Secondary

  function VariantName(v: Variant): string {
    match v
    case Default => "default"
    case Destructive => "destructive"
    case Outline => "outline"
    case Secondary => "secondary"
  }

  const SaturdayColor := "text-blue-600"
  const SundayColor := "text-red-600"
  const WeekdayColor := "text-gray-700"

  /** Saturday (with or without the accent) is blue, Sunday red, any other
      text gray; the comparison ignores case. */
  function DayOfWeekColor(dayOfWeek: string): (r: string)
    ensures r == SaturdayColor <==> ToLower(dayOfWeek) in {"sábado", "sabado"}
    ensures r == SundayColor <==> ToLower(dayOfWeek) == "domingo"
    ensures r == WeekdayColor <==> ToLower(dayOfWeek) !in {"sábado", "sabado", "domingo"}
  {
    var day := ToLower(dayOfWeek);
    if day == "sábado" || day == "sabado" then SaturdayColor
    else if day == "domingo" then SundayColor
    else WeekdayColor
  }

  /** The colour depends on the day's name only up to case. */
  lemma DayOfWeekColorIgnoresCase(dayOfWeek: string)
    ensures DayOfWeekColor(ToLower(dayOfWeek)) == DayOfWeekColor(dayOfWeek)
  {
    ToLowerIdempotent(dayOfWeek);
  }

  /** An upper-case, accented Saturday is recognised. */
  lemma SaturdayInCapitals()
    ensures DayOfWeekColor("SÁBADO") == SaturdayColor
  {
    var l := ToLower("SÁBADO");
    assert l[0] == 's' && l[1] == 'á' && l[2] == 'b' && l[3] == 'a' && l[4] == 'd' && l[5] == 'o';
    assert l == "sábado";
  }

  /** The alert colour: the two urgent tiers are destructive, "bajo" and any
      unknown text default, "ok" secondary. */
  function AlertColor(alertType: string): (r: Variant)
    ensures r == Destructive <==> ParseTier(alertType) in {Some(Agotado), Some(Critico)}
    ensures r == Secondary <==> ParseTier(alertType) == Some(Ok)
    ensures r != Outline
  {
    match alertType
    case "agotado" => Destructive
    case "critico" => Destructive
    case "bajo" => Default
    case "ok" => Secondary
    case _ => Default
  }

  /** The alert badge variant: as the alert colour except that "bajo" gets
      the outline badge; unknown text gets the default badge. */
  function AlertBadgeVariant(alertType: string): (r: Variant)
    ensures r == Destructive <==> AlertColor(alertType) == Destructive
    ensures r != AlertColor(alertType) <==> alertType == "bajo"
    ensures r == Default <==> ParseTier(alertType) == None
    ensures alertType == "bajo" ==> r == Outline
  {
    match alertType
    case "agotado" => Destructive
    case "critico" => Destructive
    case "bajo" => Outline
    case "ok" => Secondary
    case _ => Default
  }

  /** The change from `previous` to `current` in percent. From zero it is
      100 for a positive current value and 0 otherwise; from anything else it
      is the relative change, so that applying it to `previous` gives back
      `current`. */
  function PercentageChange(current: real, previous: real): (r: real)
    ensures previous == 0.0 ==> r == (if current > 0.0 then 100.0 else 0.0)
    ensures previous != 0.0 ==> previous + previous * r / 100.0 == current
    ensures previous > 0.0 ==> (r > 0.0 <==> current > previous)
  {
    if previous == 0.0 then (if current > 0.0 then 100.0 else 0.0)
    else ((current - previous) / previous) * 100.0
  }

  const Rising := "↗"
  const Falling := "↘"
  const Steady := "→"

  /** The trend arrow: a change of more than one percent either way shows
      its direction; within one percent, bounds included, it is flat. */
  function TrendIcon(percentage: real): (r: string)
    ensures r == Rising <==> percentage > 1.0
    ensures r == Falling <==> percentage < -1.0
    ensures r == Steady <==> -1.0 <= percentage <= 1.0
  {
    if percentage > 1.0 then Rising
    else if percentage < -1.0 then Falling
    else Steady
  }

  const PositiveColor := "text-green-600"
  const NegativeColor := "text-red-600"
  const NeutralColor := "text-gray-600"

  /** The trend colour follows the sign alone, and never contradicts the
      arrow: a rising arrow is green, a falling one red. */
  function TrendColor(percentage: real): (r: string)
    ensures r == PositiveColor <==> percentage > 0.0
    ensures r == NegativeColor <==> percentage < 0.0
    ensures r == NeutralColor <==> percentage == 0.0
    ensures TrendIcon(percentage) == Rising ==> r == PositiveColor
    ensures TrendIcon(percentage) == Falling ==> r == NegativeColor
  {
    if percentage > 0.0 then PositiveColor
    else if percentage < 0.0 then NegativeColor
    else NeutralColor
  }

  /** A name written in lower-case letters (the accented a included) is
      its own lower-case form. */
  lemma LowerCaseNameUnchanged(s: string)
    requires forall i :: 0 <= i < |s| ==> 'a' <= s[i] <= 'z' || s[i] == 'á'
    ensures ToLower(s) == s
  {
    var l := ToLower(s);
    forall i | 0 <= i < |s|
      ensures l[i] == s[i]
    {
      assert l[i] == LowerChar(s[i]);
    }
  }

  /** The weekday colours the unit tests expect: Saturday with and without
      the accent is blue, Sunday red, Monday and Tuesday gray. */
  lemma SaturdayExamples()
    ensures DayOfWeekColor("sábado") == SaturdayColor && DayOfWeekColor("sabado") == SaturdayColor
  {
    LowerCaseNameUnchanged("sábado");
    LowerCaseNameUnchanged("sabado");
  }

  lemma SundayExample()
    ensures DayOfWeekColor("domingo") == SundayColor
  {
    LowerCaseNameUnchanged("domingo");
  }

  lemma WeekdayExamples()
    ensures DayOfWeekColor("lunes") == WeekdayColor && DayOfWeekColor("martes") == WeekdayColor
  {
    LowerCaseNameUnchanged("lunes");
    LowerCaseNameUnchanged("martes");
  }

  /** The alert colours and badge variants the unit tests expect. */
  lemma AlertExamples()
    ensures AlertColor("agotado") == Destructive && AlertColor("critico") == Destructive
    ensures AlertColor("bajo") == Default && AlertColor("ok") == Secondary
    ensures AlertBadgeVariant("agotado") == Destructive && AlertBadgeVariant("critico") == Destructive
    ensures AlertBadgeVariant("bajo") == Outline && AlertBadgeVariant("ok") == Secondary
  {
  }

  /** The percentage changes and trend marks the unit tests expect. */
  lemma TrendExamples()
    ensures PercentageChange(150.0, 100.0) == 50.0 && PercentageChange(50.0, 100.0) == -50.0
    ensures PercentageChange(100.0, 0.0) == 100.0 && PercentageChange(0.0, 0.0) == 0.0
    ensures TrendIcon(10.0) == Rising && TrendIcon(-10.0) == Falling
    ensures TrendIcon(0.5) == Steady && TrendIcon(-0.5) == Steady
    ensures TrendColor(10.0) == PositiveColor && TrendColor(-10.0) == NegativeColor && TrendColor(0.0) == NeutralColor
  {
  }
}

=== FILE: wrappers.dfy ===
/** Optional values and success/failure results, used wherever the dashboard
    code reads a possibly-undefined field or can throw. */
module Wrappers {

  datatype Option<+T> = None | Some(value: T) {

    /** The wrapped value, or `default` when absent (the `??` operator). */
    function GetOr(default: T): T {
      match this
      case Some(v) => v
      case None => default
    }
  }

  /** A call that either produces a value or throws an error. */
  datatype Result<+R, +E> = Success(value: R) | Failure(error: E)
}
